=== FILE: README.md ===
# InfiniteTalk Runpod Serverless — a Dafny model of the worker and the UI client

This project models the two halves of the InfiniteTalk Runpod Serverless repository. It then proves
what each half promises.

The worker is a Runpod handler that does the following:
- validates a job envelope (one input, or a batch of items);
- merges in the operator's defaults;
- fetches the reference video and audio (a local path, base64 or a data URL, or http(s) with
  a bounded retry);
- prepares the audio inputs;
- runs the generator, with one reduced retry after a CUDA out-of-memory error;
- delivers the video through a presigned PUT, as a local path, or inline as base64;
- answers with a success or error record.

The error record carries a stable `E_*` code, a retryable flag, the stage, and the
checkpoints reached.

The UI is a Gradio client. It does the following:
- collects and range-checks the parameters;
- builds the request envelope from the form;
- submits it to the Runpod REST API with a retry and backoff;
- polls the job status until it is terminal;
- picks the video out of the worker's answer.

One Dafny module models each source file. Three shared modules support them:
- `Wrappers` holds `Option` and `Result`.
- `Text` holds string search, Python whitespace stripping, ASCII case and integer printing.
- `PyJson` holds the JSON value type, Python truthiness, `dict.get`, `int()`, `float()` and
  `str()`, and the exception kinds with their subclass relation.

Every outside effect becomes a parameter:
- the file system and the environment variables;
- the HTTP exchanges, the base64 codec and the SHA-256 digest;
- the clock, uuids and tracebacks;
- the generator, the audio encoder and the ffmpeg mux.

A JSON object is a `map<string, Json>`. The dict merge `{**a, **b}` is the map union `a + b`.

## Model

| member | source | states |
|---|---|---|
| Validator.SpecError | worker/validator.py:29-38 | a nested-model field gets no message exactly when it is present when required and well-typed when present |
| Validator.FirstSpecError | worker/validator.py:29-38 | no message exactly when every field of the nested model (TtsAudio, CondAudio, OutputConfig) is acceptable |
| Validator.KindError | worker/validator.py:46-47 | a value gets no message exactly when its scalar, list or nested-model kind accepts it; a nullable nested model accepts None |
| Validator.FieldError | worker/validator.py:41-76 | a top-level field gets no message exactly when it is present when required and acceptable when present |
| Validator.FirstFieldError | worker/validator.py:41-76 | no message exactly when every declared field of the model is acceptable |
| Validator.CrossFieldError | worker/validator.py:94-111 | the model validator passes exactly when an audio source is set, a second speaker comes with an audio_type, and quant comes with a non-empty quant_dir |
| Validator.ValidateModel | worker/validator.py:41-111 | a model validates exactly when every field is acceptable and the three cross-field rules hold; failures are validation errors |
| Validator.FirstItemError | worker/validator.py:175-176 | no error exactly when every batch item validates as a BatchInput; otherwise the error is a validation error |
| Validator.ValidateBatchItem | worker/validator.py:114-159 | a batch item validates exactly when it is a mapping whose fields pass BatchInput; failures are validation errors |
| Validator.ValidateEnvelope | worker/validator.py:162-180 | an accepted envelope has a dict `input`; a batch is a non-empty list of valid items; otherwise the input is a valid SingleInput |
| Validator.ApplyDefaults | worker/validator.py:236-240 | caller keys win; each generation default fills only a missing key; output_config falls back to the `output` default; no other key appears |
| Validator.ApplyDefaultsIdempotent | worker/validator.py:236-240 | applying the defaults twice gives the same result as once |
| Validator.NormalizeItems | worker/validator.py:251-254 | the normalized batch has one entry per item, in order; each is the item with defaults applied and validates as a BatchInput |
| Validator.NormalizeItemsAccepts | worker/validator.py:251-254 | when every merged item validates, normalizing the batch succeeds |
| Validator.NormalizeShape | worker/validator.py:243-263 | a normalized single input is the merged payload, valid before and after the merge; a normalized batch keeps one merged, valid item per raw item and carries only the envelope output_config |
| Validator.NormalizeAndValidate | worker/validator.py:243-263 | a refused envelope is refused with the same error, success needs a valid envelope, and every failure is a validation error; NormalizeShape states the result |
| Validator.EmptyBatchRejected | worker/validator.py:172-174 | a `batch` that is not a list, or is empty, is refused |
| Validator.DefaultsCannotRescue | worker/validator.py:245 | a single input without a prompt is refused whatever the defaults hold, because the envelope is validated before the merge |
| Validator.NormalizeIdempotent | worker/validator.py:243-263 | normalizing an already normalized input gives the same input back (given that the defaults do not define `batch`) |
| Validator.BatchIdempotent | worker/validator.py:248-259 | the batch half of idempotence |
| Validator.SingleIdempotent | worker/validator.py:260-263 | the single-input half of idempotence |
| Validator.SingleFrameNumIff | worker/validator.py:78-83 | in an otherwise valid single input, an integer frame_num is accepted if and only if it is positive and 4n+1 |
| Validator.BatchFrameNumIff | worker/validator.py:144-149 | the same if-and-only-if for a batch item |
| Validator.FrameNumAt | worker/validator.py:78-83 | changing only frame_num keeps a model valid exactly when the new value passes the 4n+1 check |
| Validator.FrameNumSlot | worker/validator.py:55 | frame_num is declared once, with the 4n+1 validator, in both input models |
| Validator.ChangeField | worker/validator.py:41-76 | changing a field that no cross-field rule reads keeps a valid model valid exactly when the field's kind accepts the new value |
| Validator.SingleInputShape | worker/validator.py:41-92 | a valid single input has a non-empty prompt, a string cond_video, a bbox of exactly four ints when set, and a valid frame_num |
| Validator.BatchPromptMayBeEmpty | worker/validator.py:117 | unlike a single input, a batch item with an empty prompt is accepted |
| Validator.BatchBboxAnyLength | worker/validator.py:122 | a batch item accepts an int-list bbox of any length |
| Validator.SinglePromptRequired | worker/validator.py:42 | an empty prompt makes a single input invalid |
| Validator.SingleBboxFour | worker/validator.py:85-92 | an int-list bbox is accepted on a single input if and only if it has four entries |
| Validator.BuildError | worker/validator.py:266-274 | code, message, retryable flag and stage are as given; cause class and message are present exactly when an exception is |
| Validator.ErrorDetailsJson | worker/validator.py:205-211 | the error details dump has exactly the six schema fields |
| Validator.DumpArtifactAsWritten | worker/validator.py:185-190 | the schema dump keeps exactly the five declared artifact fields, so any extra key is dropped |
| Validator.DumpArtifact | worker/validator.py:185-190 | the corrected dump keeps the declared fields and keeps `base64` exactly when the artifact has it |
| Storage.JoinPath | worker/storage.py:38 | a relative name under a directory without a trailing slash is joined with one slash |
| Storage.SavePath | worker/storage.py:33-42 | a file lands under the work directory, or under /tmp when none is given; an absolute name is kept as is |
| Storage.MimeToExt | worker/storage.py:70-86 | no media type, or an empty one, gives no extension; both WAV types give `.wav`; any extension starts with a dot |
| Storage.MimeToExtKnown | worker/storage.py:70-86 | a media type gets an extension if and only if it is one of the eleven in the table |
| Storage.DecodeBase64ToFile | worker/storage.py:56-67 | raw base64 is saved under the suggested name, with no media type and the decoded size; decode failures are binascii errors |
| Storage.DataUrlRoundTrip | worker/storage.py:57-63 | decoding the data URL built from a media type and a payload recovers the media type, names the file with the mapped extension, and counts the payload |
| Storage.DataUrlHeader | worker/storage.py:57-60 | a base64 data URL has a comma, and the header before the first comma keeps `data:` |
| Storage.DataUrlSplit | worker/storage.py:58 | the first comma of a built data URL separates the header from the payload |
| Storage.HeaderMimeOf | worker/storage.py:59 | the header parse returns the media type the data URL was built with |
| Storage.DataUrlIsBase64 | worker/storage.py:45-53 | every built data URL is classified as a base64 payload |
| Storage.IsBase64Payload | worker/storage.py:45-53 | text that is not a data URL counts as base64 exactly when it decodes strictly |
| Storage.HeaderMime | worker/storage.py:59 | the media type is the header text after the first colon, cut at the next colon or semicolon |
| Storage.RemoveUnsafe | worker/storage.py:116-118 | tabs, carriage returns and newlines are removed and every other character keeps its count; a URL without them is unchanged |
| Storage.RemoveUnsafeConcat | worker/storage.py:116-118 | the clean-up distributes over concatenation, so the characters it keeps stay in their order |
| Storage.SanitizeUrl | worker/storage.py:107 | the URL parse sees no tab, carriage return or newline, and no leading control character or space |
| Storage.UrlPath | worker/storage.py:116 | the URL path used for the file name carries no query and no fragment |
| Storage.Basename | worker/storage.py:116 | the base name is the part of the path after its last slash |
| Storage.NetlocEnd | worker/storage.py:116-118 | the network location ends at the first `/`, `?` or `#`, or at the end of the text when there is none |
| Storage.SplitExt | worker/storage.py:118 | a non-empty extension is a suffix of the path that starts with its last dot and holds no `/`, and the last segment has a non-dot character before it; any such dot gives an extension |
| Storage.StreamChunks | worker/storage.py:123-130 | the written bytes are all chunks in order, and the byte count is their length |
| Storage.DownloadBase | worker/storage.py:116-117 | the name is the caller's name, else the URL's basename, else `blob` plus the extension; it is never empty |
| Storage.DownloadName | worker/storage.py:116-118 | the mapped extension is appended exactly when the base name has none and the extension is not empty |
| Storage.TryDownload | worker/storage.py:107-133 | a transport error is passed on; a 4xx or 5xx status raises HTTPError with the text of `raise_for_status` ("<status> Client Error: <reason> for url: <url>", or "Server Error" for 5xx); any other status succeeds exactly when there is no checksum or the digest matches it case-insensitively; the result records the URL, media type and streamed size |
| Storage.Retry | worker/storage.py:107-140 | at most three attempts; the result is the last attempt's; an error means all three failed; there is one sleep between attempts |
| Storage.RetrySleeps | worker/storage.py:134-138 | the sleep after attempt k is 1.5·k seconds |
| Storage.RetryEarlierFailed | worker/storage.py:107-140 | every attempt before the last one failed |
| Storage.DownloadFromUrl | worker/storage.py:89-142 | an existing path is used as is; base64 is decoded; http(s) gets one to three attempts; anything else is a ValueError; only an http(s) fetch records a source URL |
| Storage.RemoteRetryBound | worker/storage.py:107-140 | a remote fetch makes one to three attempts, sleeps 1.5 s then 3.0 s between them, and fails only after three failures |
| Storage.ChecksumMismatchRetried | worker/storage.py:131-138 | a checksum that never matches is retried three times and ends in a ValueError |
| Storage.MakeArtifact | worker/storage.py:159-171 | the artifact has the type, and url, path and mime exactly when truthy, and bytes exactly when given |
| Pipeline.RefArg | worker/pipeline.py:65 | the reference is read exactly when the key holds a string |
| Pipeline.VideoStep | worker/pipeline.py:65-67 | the conditioning video is fetched only from a string reference, and a fetch that records a source URL came over http(s); the detailed outcome is on PrepareInputsErrors |
| Pipeline.SpeakerDownloads | worker/pipeline.py:91-128 | one download per speaker: person1 always, person2 exactly for two speakers, each from a string reference |
| Pipeline.SubTruthy | worker/pipeline.py:86 | a falsy value reads as false; a dict reads its key's truthiness; any other truthy value raises AttributeError |
| Pipeline.PlanAudio | worker/pipeline.py:86-134 | two speakers exactly when person1 is truthy and person2 is not None; one speaker when person2 is None; TTS only without usable cond_audio |
| Pipeline.Assemble | worker/pipeline.py:60-139 | the prepared input keeps the prompt, points cond_video at the fetched file, and has bbox exactly when the request does; AssembleShape adds the audio keys |
| Pipeline.PrepareInputs | worker/pipeline.py:53-139 | a request without a prompt raises KeyError; success needs a fetched video and WAV2VEC_DIR. PrepareInputsErrors, PrepareInputsShape and AudioFallbackErrors state each branch |
| Pipeline.AssembleShape | worker/pipeline.py:60-139 | the prepared input keeps the prompt, has video, audio and embeddings, has audio_type (default `para`) exactly for two speakers, and has bbox exactly when the request does |
| Pipeline.PrepareInputsErrors | worker/pipeline.py:65-83 | a failed video fetch is passed on; otherwise a missing WAV2VEC_DIR raises its RuntimeError before any audio is touched |
| Pipeline.PrepareInputsShape | worker/pipeline.py:53-139 | successful preparation needs WAV2VEC_DIR and usable cond_audio, and yields the input shape above |
| Pipeline.PrepareInputsAssembled | worker/pipeline.py:53-139 | successful preparation is the assembly of the fetched video path and the speaker plan |
| Pipeline.WavCheckPrecedesAudio | worker/pipeline.py:81-84 | without WAV2VEC_DIR the outcome does not depend on anything past the video fetch |
| Pipeline.CondAudioWithoutPerson1IsAbsent | worker/pipeline.py:86 | a cond_audio without a truthy person1 behaves as if it were absent |
| Pipeline.AudioFallbackErrors | worker/pipeline.py:129-134 | without usable cond_audio, TTS text raises NotImplementedError and anything else raises the ValueError |
| Pipeline.BuildPipeline | worker/pipeline.py:142-174 | missing CKPT_DIR or INFINITETALK_DIR raises the model-paths RuntimeError; VRAM management is enabled exactly when num_persistent_param_in_dit is not None |
| Pipeline.ModelPathsMessage | worker/pipeline.py:146 | the model-paths message contains "Model paths" |
| Pipeline.MapParams | worker/pipeline.py:177-206 | a missing size raises; shift is 7 for 480p and 11 otherwise; max frames equal frame_num in clip mode; each other argument is the request value or the stated default |
| Pipeline.Reduce | worker/pipeline.py:237-239 | the retry request is 480p with min(8, int(sample_steps)) steps; it fails exactly when int() fails |
| Pipeline.ReduceKeepsOthers | worker/pipeline.py:237 | the retry request keeps every other key of the request |
| Pipeline.ReducedStepsBound | worker/pipeline.py:239 | the retry runs at most 8 steps, and never more than requested |
| Pipeline.SaveName | worker/pipeline.py:244 | the output stem starts with `infitalk_` |
| Pipeline.Finish | worker/pipeline.py:243-263 | the mux either fails or names the mp4 after the request and reports its size |
| Pipeline.RetryReduced | worker/pipeline.py:233-242 | one or two generator calls, the first with the request's arguments; a success is the named mp4 |
| Pipeline.Generate | worker/pipeline.py:230-263 | at most two generator calls, and a second one or the retry warning only after a CUDA out-of-memory error; GenerateRetry states the reduced arguments |
| Pipeline.RunInference | worker/pipeline.py:209-263 | a failed preparation is raised with no generator call; at most two calls otherwise. RunInferenceCalls and OomRetryOnce state the rest |
| Pipeline.RunInferenceCalls | worker/pipeline.py:209-263 | at most two generator calls, made only after preparation succeeds, the first with the request's mapped arguments |
| Pipeline.GenerateRetry | worker/pipeline.py:233-242 | a retry warning is emitted exactly when the first call hit CUDA out-of-memory; the second call uses the reduced request |
| Pipeline.GenerateWarning | worker/pipeline.py:240 | the `oom_retry` warning names 480p and the reduced step count |
| Pipeline.OomRetryOnce | worker/pipeline.py:233-242 | end to end: a second call happens only after an out-of-memory error, at 480p with the reduced steps |
| Pipeline.OtherFailureNotRetried | worker/pipeline.py:233-235 | a first-call failure that is not CUDA out-of-memory is raised with no retry |
| Pipeline.RetryFailurePropagates | worker/pipeline.py:242 | a failure of the retry call is the run's failure |
| Pipeline.ReducedArguments | worker/pipeline.py:237-242 | the reduced arguments change only size, shift and steps; every other argument is kept |
| Pipeline.RetryArguments | worker/pipeline.py:241-242 | the second call keeps frame count, seed, max frames and colour correction, and runs at 480p with shift 7 and at most 8 steps |
| Handler.IsRetryable | worker/handler.py:45-55 | the retryable flag is the table's entry, and false for an unknown code |
| Handler.CheckpointTable | worker/handler.py:192-222 | eight distinct checkpoints from 2% to 100%, with non-decreasing percentages; only the last is `completed` |
| Handler.ProgressPayload | worker/handler.py:62-69 | the payload holds stage, pct and job_id; item fields exactly when given; details exactly when non-empty |
| Handler.Classify | worker/handler.py:227-242 | RuntimeError and subclasses: E_PIPELINE_LOAD iff "Model paths", else E_GENERATION_RUNTIME, at runtime. MemoryError: E_OOM. Other errors: ffmpeg, then audio-embedding hints, else E_GENERATION_RUNTIME, at generation |
| Handler.ClassifyRange | worker/handler.py:227-242 | the item runner never produces E_DOWNLOAD_FAILED, E_UPLOAD, E_TIMEOUT or E_INPUT_VALIDATION |
| Handler.RuntimeWithoutModelPaths | worker/handler.py:227-230 | a RuntimeError whose message cannot contain "Model paths" is E_GENERATION_RUNTIME |
| Handler.WavMissingChars | worker/pipeline.py:83 | the WAV2VEC_DIR message names audio embedding but not model paths |
| Handler.TtsUnsupportedChars | worker/pipeline.py:132 | the TTS message cannot contain "Model paths" |
| Handler.WavMissingCode | worker/handler.py:227-230 | a missing WAV2VEC_DIR is reported as non-retryable E_GENERATION_RUNTIME, not E_AUDIO_EMBEDDING |
| Handler.TtsOnlyCode | worker/handler.py:227-230 | a TTS-only request is reported as E_GENERATION_RUNTIME at runtime |
| Handler.ValueErrorWithoutHints | worker/handler.py:233-242 | a plain error message that cannot name ffmpeg, WAV2VEC_DIR or audio embedding is E_GENERATION_RUNTIME at generation |
| Handler.NoAudioChars | worker/pipeline.py:134 | the no-audio message contains none of the hint letters |
| Handler.NoAudioLacks | worker/pipeline.py:134 | each hint letter is absent from the no-audio message |
| Handler.NoAudioCode | worker/handler.py:233-242 | a request with no usable audio is reported as non-retryable E_GENERATION_RUNTIME at generation |
| Handler.CudaOomCode | worker/handler.py:227-232 | a CUDA out-of-memory error is a RuntimeError, so it is E_GENERATION_RUNTIME and never E_OOM |
| Handler.UploadFailedChars | worker/handler.py:118 | the upload failure message cannot contain "Model paths" |
| Handler.UploadFailureCode | worker/handler.py:117-118 | a rejected upload is reported as non-retryable E_GENERATION_RUNTIME, not E_UPLOAD |
| Handler.Upload | worker/handler.py:102-137 | a delivery has one video artifact and a summary of url, mime and bytes |
| Handler.DeliveryCases | worker/handler.py:112-135 | With video_url, success iff 2xx, with the URL in summary and artifact. Without it, a local path artifact; base64 and the inline warning only for a readable inline store; otherwise the S3 warning |
| Handler.EchoParams | worker/handler.py:165-173 | the echoed parameters are exactly the seven named keys, each as `params.get` reads it |
| Handler.CheckpointRecords | worker/handler.py:186-189 | the first n checkpoint records name the table's events in order, each stamped by the clock |
| Handler.SuccessRecord | worker/handler.py:159-178 | the schema accepts the record exactly when the job id is a string (the artifact URL is the one a successful PUT used). The record then has status success, the job id, checkpoints, warnings, dumped artifacts, video summary and echoed params |
| Handler.SuccessRecordKeys | worker/validator.py:193-202 | a dumped success record has exactly the schema's nine fields |
| Handler.ErrorRecord | worker/handler.py:140-156 | the error record has the six fields, status error, the job id, the checkpoints, and error details with the table's retryable flag |
| Handler.FailureRecord | worker/handler.py:227-242 | a failure is recorded with its classification |
| Handler.ItemConfig | worker/handler.py:214 | the item's output_config when truthy, else an empty dict |
| Handler.StagesAfter | worker/handler.py:195-225 | an item stops after five checkpoints, after seven, or completes all eight; it succeeds exactly when it completes |
| Handler.ItemStagesFacts | worker/handler.py:195-225 | an item stops after five checkpoints exactly when inference fails, with that failure; otherwise the outcome is the delivery's |
| Handler.ItemStages | worker/handler.py:181-225 | the item completes exactly when its outcome is a success; a failed inference stops it before inference with that error |
| Handler.Timings | worker/handler.py:207-223 | no timings before inference, generation_ms after it, and total_ms as well on completion |
| Handler.RecordOf | worker/handler.py:181-242 | the record lists the checkpoints reached; it says success iff the outcome succeeded and the job id is a string; failures are classified error records |
| Handler.ItemRecordWith | worker/handler.py:181-242 | the record says success exactly when the job id is a string and the stages succeeded, with the checkpoints reached |
| Handler.ItemRecord | worker/handler.py:181-242 | the corrected record: success exactly when the job id is a string and the stages succeeded |
| Handler.ItemRecordFailureAsWritten | worker/handler.py:181-242 | a failed item's corrected record is identical to the as-written one |
| Handler.ItemRecordAsWritten | worker/handler.py:181-242 | the record as written: success exactly when the job id is a string and the stages succeeded |
| Handler.RecordFacts | worker/handler.py:181-242 | success carries all eight checkpoints; a failure carries five or seven; an error record has the classified code and its retryable flag |
| Handler.RecordsAgreeOnFailure | worker/handler.py:140-156 | the as-written and corrected records differ only on success |
| Handler.FailedItemNeverCompleted | worker/handler.py:222 | a failed item never reports the `completed` checkpoint |
| Handler.InlineDelivery | worker/handler.py:125-131 | with the inline store and a readable file, the item completes with one path artifact carrying the base64 |
| Handler.InlineStages | worker/handler.py:121-131 | the same, from any successful inference |
| Handler.InlineRecord | worker/handler.py:159-178 | the success record of an inline run carries the inline warning, the dumped artifact and a URL-less summary |
| Handler.InlineRecordShape | worker/handler.py:121-131 | the inline record's summary has no URL and no inline data; its one artifact is a video with mime and base64 |
| Handler.InlineBase64Dropped | worker/handler.py:130-131 | as written, an inline run warns about inline base64 but its record's artifact has no base64; the corrected record carries it |
| Handler.InlineRunDumps | worker/handler.py:178 | the two artifact dumps differ on an inline run exactly by the base64 field |
| Handler.SeedOf | worker/handler.py:274-277 | the seed is used exactly when base_seed is a non-negative int or a bool |
| Handler.BatchNotSeeded | worker/handler.py:274 | a normalized batch has no top-level base_seed, so a batch job never seeds |
| Handler.JobId | worker/handler.py:250 | the job's id when truthy, else `local-` plus the uuid; it can key the logger registry unless a truthy list or dict id was given |
| Handler.ItemId | worker/handler.py:285 | the item's id when truthy, else `item-` plus its index |
| Handler.Entry | worker/handler.py:289 | a batch entry holds the id and the item record |
| Handler.BatchEntry | worker/handler.py:284-289 | each item runs in its own directory under the job directory, named by the item id, and its record is dumped by the given artifact dump |
| Handler.RunBatch | worker/handler.py:284-290 | one entry per item, in order, exactly when every item is a dict; otherwise an AttributeError; each entry is the item's record under the given dump |
| Handler.BatchStatus | worker/handler.py:293 | "success" if and only if every entry succeeded, else "partial" |
| Handler.BatchRecord | worker/handler.py:291-295 | the batch record has the job id, the entries in order, and status success iff every item succeeded |
| Handler.InvalidRecord | worker/handler.py:262-267 | a refused envelope gives a non-retryable E_INPUT_VALIDATION at validate, with no checkpoints and the message "Invalid input: …" |
| Handler.RunNormalized | worker/handler.py:262-299 | a validation failure is answered with the invalid-input record, without running anything, whichever artifact dump the item records use |
| Handler.InvalidInputRecord | worker/handler.py:250-267 | for every envelope the validator refuses, `run` answers with the invalid-input record, unless a list or dict job id already raised TypeError in `get_logger` |
| Handler.RunWith | worker/handler.py:245-299 | under any artifact dump: a list or dict job id raises TypeError from the logger registry before anything else; otherwise a refused envelope is answered with the invalid-input record and an exception escapes only from a batch |
| Handler.Run | worker/handler.py:245-299 | `run` as written, whose item records go through the output schema's dump (line 178): a list or dict job id raises TypeError first; otherwise a refused envelope is answered with the invalid-input record and an exception escapes only from a batch; BatchAggregation, SingleAnswer and InlineRunAnswer state the other answers |
| Handler.RunCorrected | worker/handler.py:245-299 | `run` with the dump that keeps an inline artifact's base64: it raises exactly when `run` as written raises, with the same exception |
| Handler.DumpKeepsErrors | worker/handler.py:178 | the artifact dump shapes only success records: whether `run` raises, and with which exception, does not depend on it |
| Handler.JobDir | worker/handler.py:270 | the job's work directory is `/tmp/job-<id>` |
| Handler.BatchResults | worker/handler.py:281-290 | every normalized item of a valid batch runs, in order, with the defaults applied, and its entry holds the record as written |
| Handler.BatchAggregation | worker/handler.py:250-295 | `run` as written answers a valid batch job with a hashable id with the batch record of its item entries as written; a list or dict id raises TypeError |
| Handler.BatchAnswer | worker/handler.py:281-295 | under any artifact dump, a normalized batch is answered with the batch record, or the error of a non-dict item |
| Handler.SingleAnswer | worker/handler.py:250-297 | `run` as written answers a valid single input with a hashable id with its item record as written, run in the job directory; a list or dict id raises TypeError |
| Handler.InlineRunAnswer | worker/handler.py:125-131 | a single job with a string id, the inline store and a readable file: `run` as written answers with the inline warning and an artifact without base64; the corrected `run` puts the base64 on the artifact |
| Handler.EnvelopeOutputConfigIgnored | worker/handler.py:281-297 | adding an envelope-level output_config to a batch does not change the answer |
| Handler.EnvelopeConfigNormalized | worker/validator.py:256-258 | the envelope output_config is carried along; validity and the normalized items are unchanged |
| Handler.BatchAnswerReadsItems | worker/handler.py:281-295 | under any artifact dump, a normalized batch is answered from its items alone |
| LoggingUtils.NewLogger | worker/logging_utils.py:30-33 | the correlation id is the given one when truthy, else a fresh uuid; the job id is kept |
| LoggingUtils.Emit | worker/logging_utils.py:35-51 | the record has ts, level, cid and event; job_id only when truthy; data and lat_ms exactly when given; no other key |
| LoggingUtils.NormalizeLevel | worker/logging_utils.py:64-67 | the level is upper-cased when it is one of INFO, WARN or ERROR, else INFO |
| LoggingUtils.LogEvent | worker/logging_utils.py:64-68 | a logged event carries the normalized level and no latency |
| LoggingUtils.LevelCaseInsensitive | worker/logging_utils.py:65 | any spelling of "warn" logs at WARN |
| LoggingUtils.GetLogger | worker/logging_utils.py:94-98 | the cid is the correlation id, else the job id, else a fresh uuid; a registered logger is returned unchanged; a new one is registered under its cid |
| LoggingUtils.GetLoggerMemoised | worker/logging_utils.py:94-98 | asking twice for the same cid returns the same logger, with the first job id, and leaves the registry unchanged |
| LoggingUtils.TimeitStage | worker/logging_utils.py:71-88 | a stage logs its event on entry. It then logs `<event>_ok` (or the given name) with the latency, or on an exception `stage_error` with stage, class, message and latency, and re-raises |
| RunpodClient.Backoff | ui/runpod_client.py:45 | the delay never exceeds 8 seconds and is non-negative |
| RunpodClient.BackoffMonotone | ui/runpod_client.py:45 | the backoff never shrinks from one attempt to the next |
| RunpodClient.DefaultSchedule | ui/runpod_client.py:34-35 | the default delays are 0.8, 1.6, 3.2, 6.4 and 8.0 seconds |
| RunpodClient.RetryFrom | ui/runpod_client.py:41-55 | a response is returned exactly when there is no error; every skipped attempt was a 429, 5xx or transport error and was followed by its backoff |
| RunpodClient.RequestWithRetry | ui/runpod_client.py:29-55 | a response is the first attempt that was neither 429, 5xx nor a transport error. Otherwise, after max_retries sleeps, the error is "Failed after N attempts for URL" |
| RunpodClient.RetryOutcome | ui/runpod_client.py:41-55 | the request fails if and only if every one of the max_retries attempts had to be retried |
| RunpodClient.ClientErrorNotRetried | ui/runpod_client.py:44-49 | a 4xx other than 429 is returned at once, with no sleep |
| RunpodClient.ErrorDetail | ui/runpod_client.py:78 | the detail is the body's `error`, else the whole body; a non-dict body raises AttributeError |
| RunpodClient.Call | ui/runpod_client.py:64-81 | the call succeeds exactly when there is no error, a JSON body and an accepted status. A transport failure and a non-JSON body are RuntimeErrors with the source's messages |
| RunpodClient.Take | ui/runpod_client.py:74 | the first n characters: the whole text when it is short, else a prefix of exactly n characters |
| RunpodClient.SubmitJob | ui/runpod_client.py:58-81 | submission returns the body exactly when a JSON response arrived with status 200, 201 or 202 |
| RunpodClient.GetStatus | ui/runpod_client.py:84-105 | a status read returns the body exactly when a JSON response arrived with status 200 |
| RunpodClient.AcceptedStatuses | ui/runpod_client.py:76-103 | 202 is accepted by submission but refused by the status read |
| RunpodClient.ExtractProgress | ui/runpod_client.py:108-145 | percent is int(percent or 0), and 0 when falsy; stage is statusText, else message, else status; the checkpoints come from the output or the root logs |
| RunpodClient.Checkpoints | ui/runpod_client.py:133-143 | with a dict output: its truthy checkpoints, else its logs when not None, else a root `logs` list, else nothing; without one: the root `logs` list, else nothing |
| RunpodClient.RootLogsShadowed | ui/runpod_client.py:137-143 | an empty `logs` list in a dict output hides the root logs |
| RunpodClient.ProgressDefaults | ui/runpod_client.py:125-130 | a bare status gives 0% and the status as the stage |
| ParamWidgets.MultipleOf8 | ui/param_widgets.py:58-59 | true exactly when the value is eight times some integer |
| ParamWidgets.SanitizeQuant | ui/param_widgets.py:231-234 | any case of "none" becomes None; every other value is kept |
| ParamWidgets.SanitizeQuantIdempotent | ui/param_widgets.py:231-234 | sanitizing twice is sanitizing once |
| ParamWidgets.ValidateRanges | ui/param_widgets.py:237-255 | The checks run in order; frame_num fails iff not 4n+1. Acceptance means steps in [1, 1000], colour strength in [0, 1] and quant paired with quant_dir |
| ParamWidgets.ValidateRangesOrder | ui/param_widgets.py:251-255 | once the numeric checks pass, the verdict is the quant rule alone |
| ParamWidgets.DefaultsPass | ui/param_widgets.py:239-255 | an empty payload passes with the defaults |
| ParamWidgets.IntOr | ui/param_widgets.py:267 | a falsy widget value gives the default; a truthy one converts exactly when int() accepts it |
| ParamWidgets.FloatOr | ui/param_widgets.py:270 | a falsy widget value gives the default; a truthy one converts exactly when float() accepts it, to float()'s value |
| ParamWidgets.BoolOf | ui/param_widgets.py:274 | the boolean is the widget value's truthiness |
| ParamWidgets.OutputConfig | ui/param_widgets.py:284-289 | the output config has the four keys; empty bucket, region or prefix becomes None |
| ParamWidgets.ConvertNumbers | ui/param_widgets.py:267-281 | the conversion succeeds exactly when all twelve numbers convert, and each of the twelve is its widget value or default through int() or float() |
| ParamWidgets.Assemble | ui/param_widgets.py:264-290 | the payload is built exactly when every number converts; its keys are exactly the twenty of the literal, each holding its widget value: numbers converted with their defaults, booleans by truthiness, size and mode as read, sanitized quant, quant_dir or None, and the output config |
| ParamWidgets.Tracked | ui/param_widgets.py:264-290 | the eight fields the range check and the defaults speak about, with the converted values and the sanitized choices |
| ParamWidgets.Untracked | ui/param_widgets.py:264-290 | the other twelve fields: size and mode as read, the remaining converted numbers, and the two booleans |
| ParamWidgets.CollectParams | ui/param_widgets.py:258-296 | the payload is returned exactly when the range check passes; otherwise a ValueError with its message |
| ParamWidgets.AssembledConverts | ui/param_widgets.py:292 | the range check never raises on an assembled payload |
| ParamWidgets.ConvertibleRanges | ui/param_widgets.py:237-255 | with an int frame_num and steps and a float colour strength, the range check never raises |
| ParamWidgets.FalsyDefaults | ui/param_widgets.py:267-288 | seed 0 becomes 42, frame_num 0 becomes 81, and empty quant_dir and bucket become None |
| ParamWidgets.QuantWithoutDirRefused | ui/param_widgets.py:252-253 | a quant without a quant_dir is refused with the quant message |
| App.MimeFor | ui/app.py:93-108 | the media type is the table's entry for the lower-cased extension, else the hint |
| App.TableMimesPlain | ui/app.py:94-108 | every media type in the table survives the worker's data-URL header parse |
| App.ImageMimesPlain | ui/app.py:95-98 | the image entries survive the header parse |
| App.VideoMimesPlain | ui/app.py:99-102 | the video entries survive the header parse |
| App.AudioMimesPlain | ui/app.py:103-107 | the audio entries survive the header parse |
| App.FileToDataUrl | ui/app.py:90-111 | the data URL starts with `data:<mime>;base64,` |
| App.FileToDataUrlRoundTrip | ui/app.py:90-111 | the worker decodes the UI's data URL to the file's byte count and media type |
| App.MaybePrepareRef | ui/app.py:114-132 | A non-blank URL wins, stripped. Else an existing upload gives a data URL (or its path). Else nothing; a reference is never empty |
| App.FormatErrorMessage | ui/app.py:135-152 | the text is "code: message" (or the message alone under a falsy code) plus a tip block exactly for the eight codes with tips; an unhashable code raises TypeError |
| App.Headline | ui/app.py:148 | with a truthy code, the code's text, ": " and the message and nothing else; with a falsy code the message alone |
| App.WorkerCodesTips | ui/app.py:138-147 | every worker error code has a tip except E_GENERATION_RUNTIME |
| App.GenerationRuntimeNoTip | ui/app.py:148-152 | E_GENERATION_RUNTIME is shown with no tip |
| App.PollInterval | ui/app.py:254 | the interval grows from 2 s and caps at 6 s after 120 s |
| App.PollIntervalMonotone | ui/app.py:254 | the interval never shrinks as time passes |
| App.StatusWord | ui/app.py:281 | the status word is upper-cased, empty when falsy, and a non-string raises |
| App.FailureText | ui/app.py:286-291 | a failed job shows its error's code and message (or the dumped output) through the error formatter |
| App.PollStep | ui/app.py:246-293 | A status error stops with "Status error: …"; COMPLETED stops with the output. FAILED or TIMEOUT stop with the worker's formatted error or "Job ended with status=…"; any other status waits the adaptive interval |
| App.PollLoop | ui/app.py:245-293 | the loop ends within the trace or waits on every step |
| App.PollLoopEnded | ui/app.py:245-293 | a poll that ends stopped at its last step and waited at every earlier one |
| App.PollLoopWaiting | ui/app.py:245-293 | a poll still running waited at every step |
| App.PollLoopRaised | ui/app.py:245-293 | a poll that raises does so at one of its steps |
| App.StatusErrorEndsPolling | ui/app.py:248-249 | a first status error ends the poll at once |
| App.WaitsBounded | ui/app.py:254 | every wait lies between 2 and 6 seconds |
| App.MimeOr | ui/app.py:310 | the block's own media type when truthy, else video/mp4 |
| App.FromVideo | ui/app.py:306-318 | a truthy video URL wins; inline data in the summary is decoded; the media type defaults to video/mp4 |
| App.Candidate | ui/app.py:324-332 | a video artifact gives its URL, else its decoded base64; an artifact with neither gives nothing |
| App.DecodeInline | ui/app.py:314-315 | only a string decodes; a payload without a comma is decoded whole |
| App.PickFromArtifacts | ui/app.py:321-332 | the first artifact that yields a video wins; none gives no video; a non-dict before it raises |
| App.PassedCons | ui/app.py:323-332 | skipping an artifact that yields nothing |
| App.PickVideoResult | ui/app.py:296-333 | a non-dict output has no video; the summary is tried before the artifacts |
| App.OneInlineArtifact | ui/app.py:321-332 | a lone URL-less artifact yields its decoded base64, or no video without it |
| App.InlineVideoLost | ui/app.py:296-333 | as written, an inline job's record yields no video in the UI |
| App.InlineRecordPickedAsWritten | ui/app.py:296-333 | the same, through the as-written artifact dump |
| App.InlineShapeLost | ui/app.py:321-333 | a URL-less summary and a base64-less artifact yield no video |
| App.DumpDropsInline | worker/validator.py:185-190 | the as-written dump of an inline artifact has no base64 |
| App.InlineVideoDelivered | ui/app.py:327-330 | with the corrected dump, the UI receives the decoded inline video as video/mp4 |
| App.InlineRecordPicked | ui/app.py:327-330 | the same, through the corrected artifact dump |
| App.InlineShapeDelivered | ui/app.py:321-330 | a URL-less summary and an artifact carrying base64 yield the decoded bytes |
| App.DumpKeepsInline | worker/validator.py:185-190 | the corrected dump keeps type, url, mime and base64 |
| App.CondVideo | ui/app.py:181-184 | the image widgets feed the image mode with an image/jpeg hint, and the video widgets feed the other mode with video/mp4 |
| App.TtsBlock | ui/app.py:196-200 | the TTS block carries the text, and each voice exactly when it is non-blank, stripped |
| App.CondAudioBlock | ui/app.py:206-210 | each speaker appears exactly when its reference is truthy |
| App.Speaker | ui/app.py:203-204 | a speaker reference exists exactly when a non-blank URL or an existing upload is given, and is never empty |
| App.AudioPart | ui/app.py:192-223 | TTS needs non-blank text and gives only tts_audio. Otherwise a speaker is needed; cond_audio is given, with audio_type (default `para`) exactly when person2 is set |
| App.BuildPayload | ui/app.py:158-228 | A blank prompt and a missing reference are ValueErrors. Otherwise the envelope's input is prompt and cond_video, then the audio part, then the params, later keys winning |
| App.Base | ui/app.py:213-216 | the base input has exactly prompt and cond_video |
| App.AudioKeysApart | ui/app.py:213-223 | the audio part never overwrites prompt or cond_video |
| App.Merged | ui/app.py:226 | in the merge, params win, then the audio part, then the base |
| App.MergedInput | ui/app.py:213-226 | unless params override them, the input keeps the prompt, reference and audio blocks |
| App.Accepted | ui/app.py:158-228 | an accepted form had a prompt, a reference and a valid audio part, and its payload is their merge |
| App.PayloadOverrides | ui/app.py:226 | every generation parameter reaches the input unchanged |
| App.InputParts | ui/app.py:212-226 | the input is the merge of base, audio part and params |
| App.InputOf | ui/app.py:213-226 | every generation parameter reaches the input unchanged, and the input always has prompt and cond_video |
| App.PayloadPrompt | ui/app.py:176-216 | the input carries the stripped prompt and the prepared reference |
| App.PayloadHasTts | ui/app.py:192-223 | the input has tts_audio if and only if TTS is on |
| App.PayloadHasCondAudio | ui/app.py:201-219 | the input has cond_audio if and only if TTS is off |
| App.PayloadTts | ui/app.py:196-223 | with TTS on, tts_audio is the text and voices block |
| App.PayloadSpeakers | ui/app.py:202-219 | with TTS off, cond_audio holds the prepared speakers |
| App.Person2OnlyAccepted | ui/app.py:202-219 | the UI accepts a form with only a second speaker and sends cond_audio without person1 |
| App.Person2OnlyRefused | worker/pipeline.py:86-134 | the worker treats that cond_audio as absent and fails with the no-audio ValueError, E_GENERATION_RUNTIME |
| App.TtsFormAccepted | ui/app.py:192-200 | the UI accepts a TTS form and sends tts_audio with no cond_audio |
| App.TtsRefused | worker/pipeline.py:129-132 | the worker refuses every TTS-only request with NotImplementedError, E_GENERATION_RUNTIME |
| PyJson.UnhashableError | worker/logging_utils.py:94-96 | a list or dict key of the logger registry raises TypeError naming its type |
| PyJson.PyInt | ui/param_widgets.py:239-243 | `int()` of a JSON value: ints unchanged, booleans 0 or 1, floats truncated toward zero, strings parsed as integer literals, and None and containers raise TypeError |
| PyJson.PyFloat | ui/param_widgets.py:247 | `float()` of a JSON value: numbers unchanged, ints widened, None and containers raise TypeError |
| PyJson.PyStr | ui/runpod_client.py:145 | `str()` of a JSON value: strings unchanged, None as "None", ints in decimal |

## Left out

- Gradio layout and callbacks are not modelled, nor the progress bar or log box updates. This covers `build_ui`, `build_param_widgets`, `_toggle_tts`, `_submit`, `_cancel`, `_poll_and_render`, `main` and `_write_temp_video`. They only move values between widgets and the modelled functions.
- `UIConfig` loading and saving, `.env` loading, and `_load_defaults` in the UI are not modelled. They are file I/O of settings; the model takes parameter values as given.
- `load_defaults` (YAML reading) is not modelled; the worker's defaults document is an input (`Validator.Defaults`).
- `_seed_everything`, `_maybe_keep_warm`, the Runpod progress call and the `__main__` CLI are left out. They are side effects with no return value; `Handler.SeedOf` models only the seeding guard.
- `save_temp` timestamps, directory creation and file writes are left out; a saved file is represented by its path and size.
- `upload_to_presigned_url` is the PUT status (or transport error) of the `UploadWorld` parameter.
- The generator, audio encoder, `audio_prepare_*`, `torch.save`, `soundfile` and `save_video_ffmpeg` are parameters of `Pipeline.World`. `thumbnail_path` is always None, as in the source.
- The environment variables `LOCAL_RANK`, `RANK` and `QUANT` go only to the generator constructor and are not modelled.
- Clocks, durations, uuids, tracebacks, the SHA-256 digest, base64 coding and `json.dumps` are parameters.
- pydantic's lax coercions (for example "81" accepted as an int) are not modelled. Validation is strict by JSON type, except that an int is accepted where a float is declared.
- Only the messages of the source's own validators are reproduced; pydantic's generated messages are approximated.
- Python dict order is not modelled, because objects are maps. Batch entries and checkpoints are sequences and keep their order.
- Strings are sequences of characters, with ASCII-only case mapping and no Unicode normalisation.
- Handler.SuccessRecord: the output schema's check that an artifact `url` is a string is not modelled; a presigned PUT can only succeed with a string URL, so the record's validity turns on the job id alone.
- Storage.Base64: the strict and the lenient decoder are independent parameters, with no assumed relation between them (such as a strict decode agreeing with the lenient one); every fact proved holds for every pair, including pairs the real `base64` module cannot produce.
- Storage.TryDownload: the HTTPError text names the requested URL; requests names the response's final URL, which differs after a redirect. The reason phrase is taken as already decoded text.
- PyJson.PyInt: integer literals are read as optional sign and decimal digits only; Python's underscore separators ("1_000") are refused.
- App.FormatErrorMessage: returns text; under a falsy code Python returns a non-string message object itself, which the model renders with `str()`, the form the log box shows.
- PyJson.PyFloat: parses only what the model needs from strings. Decimal and exponent float literals are not modelled, and such strings are reported as errors.
- PyJson.PyStr: for floats, lists and dicts it defers to a `repr` parameter instead of Python's formatting.
- App.MaybePrepareRef: the Gradio upload object is reduced to an optional path.
- App.PollLoop: polls a finite trace of status answers and sleeps, rather than looping until a terminal status.
- RunpodClient.SubmitJob and RunpodClient.GetStatus: their error-case contracts state only the exception kind; the exact texts are stated on `RunpodClient.Call`.
- The Runpod envelope that wraps the worker's answer (`output`) is taken as given by the UI side.
- Pipeline.SaveName: states only the `infitalk_` prefix. The rest is Python's `str()` of the size, steps and seed, which is a `repr` parameter for non-strings.
- Handler.Upload: its own contract states only the shape common to all cases. `Handler.DeliveryCases` states each branch.
- The worker's `policy` field is only type-checked; the source does nothing else with it.
- The logger's lock and stdout writes are not modelled; `LoggingUtils.Emit` returns the record instead of printing it.

Where the code and its design description disagree, this model follows the code:
- The code emits eight checkpoints; the described `received` and `generation_done` checkpoints are not among them.
- `NotImplementedError` and `torch.cuda.OutOfMemoryError` are subclasses of `RuntimeError`. A TTS-only request and a CUDA out-of-memory error therefore reach the first `except` branch and are reported as `E_GENERATION_RUNTIME` at stage `runtime`, not as `E_OOM`.
- A missing `WAV2VEC_DIR` is a `RuntimeError`, so it is `E_GENERATION_RUNTIME` even though its message mentions audio embedding.
- The handler never produces `E_DOWNLOAD_FAILED`, `E_UPLOAD` or `E_TIMEOUT`. A failed download or upload is classified by the generic branches.
- An envelope-level `output_config` on a batch is carried through normalization, but each item delivers with its own `output_config`, so the envelope value has no effect.
- The UI sends requests the worker always refuses: a form with only a second speaker, and any TTS form (`App.Person2OnlyRefused`, `App.TtsRefused`).

## Findings

| source | as written | input that shows it | evidently intended | confidence | as-written member | corrected member |
|---|---|---|---|---|---|---|
| worker/handler.py:125-131 | The inline store puts the video's base64 on the artifact and warns "Returning inline base64 video". `_success_output` then dumps the record through `SuccessOutput`, whose `Artifact` model drops undeclared keys, so `base64` is removed. The UI then finds no video. | An item with `output_config = {"store": "inline"}`, no `video_url`, a successful inference and a readable output file. | The inline base64 reaches the answer, and the UI decodes it as the video. | not executed | Validator.DumpArtifactAsWritten, Handler.Run, Handler.InlineRunAnswer, App.InlineVideoLost | Validator.DumpArtifact, Handler.RunCorrected, Handler.InlineRunAnswer, App.InlineVideoDelivered |

=== FILE: app.dfy ===
/** The UI's submit-and-poll logic (ui/app.py): turning uploads into references, building
    the request envelope, the adaptive poll cadence and its terminal handling, the friendly
    error text, and picking the video out of a finished job's output. The file system, the
    base64 encoder and `json.dumps` are parameters. */
module App {
  import opened Wrappers
  import opened Text
  import opened PyJson
  import opened RunpodClient
  import Storage
  import Pipeline
  import Handler
  import Validator

  // ---------------------------------------------------------------- references

  /** The extension table of `_file_to_data_url`, in its three groups. */
  const ImageExts: map<string, string> :=
    map[".jpg" := "image/jpeg", ".jpeg" := "image/jpeg", ".png" := "image/png", ".webp" := "image/webp"]
  const VideoExts: map<string, string> :=
    map[".mp4" := "video/mp4", ".mov" := "video/quicktime", ".mkv" := "video/x-matroska", ".avi" := "video/x-msvideo"]
  const AudioExts: map<string, string> :=
    map[".wav" := "audio/wav", ".mp3" := "audio/mpeg", ".flac" := "audio/flac", ".m4a" := "audio/mp4", ".ogg" := "audio/ogg"]
  const ExtMimes: map<string, string> := ImageExts + VideoExts + AudioExts

  /** The local files the UI can see: which paths exist, their contents, and `b64encode`. */
  datatype Files = Files(present: string -> bool, read: string -> Storage.Bytes, encode: Storage.Bytes -> string)

  /** The media type of a file: by its lower-cased extension, else the caller's hint. */
  function MimeFor(path: string, hint: string): (r: string)
    ensures Lower(Storage.SplitExt(path)) in ExtMimes ==> r == ExtMimes[Lower(Storage.SplitExt(path))]
    ensures Lower(Storage.SplitExt(path)) !in ExtMimes ==> r == hint
  {
    var ext := Lower(Storage.SplitExt(path));
    if ext in ExtMimes then ExtMimes[ext] else hint
  }

  /** Every media type in the table survives the worker's header parse. */
  lemma TableMimesPlain()
    ensures forall e :: e in ExtMimes ==> Storage.PlainMime(ExtMimes[e])
  {
    ImageMimesPlain();
    VideoMimesPlain();
    AudioMimesPlain();
  }

  lemma ImageMimesPlain()
    ensures forall e :: e in ImageExts ==> Storage.PlainMime(ImageExts[e])
  {
  }

  lemma VideoMimesPlain()
    ensures forall e :: e in VideoExts ==> Storage.PlainMime(VideoExts[e])
  {
  }

  lemma AudioMimesPlain()
    ensures forall e :: e in AudioExts ==> Storage.PlainMime(AudioExts[e])
  {
  }

  /** `_file_to_data_url`: `data:<mime>;base64,<payload>`. */
  function FileToDataUrl(path: string, hint: string, fs: Files): (r: string)
    ensures StartsWith(r, "data:" + MimeFor(path, hint) + ";base64,")
  {
    Storage.DataUrl(MimeFor(path, hint), fs.encode(fs.read(path)))
  }

  /** The worker's decoder reads back the media type the UI chose and exactly the file's
      bytes, provided the hint is a plain media type and the codec inverts the encoder. */
  lemma FileToDataUrlRoundTrip(path: string, hint: string, fs: Files, codec: Storage.Base64,
                               workdir: string, suggested: string)
    requires Storage.PlainMime(hint)
    requires codec.lenient(fs.encode(fs.read(path))) == Some(fs.read(path))
    ensures var r := Storage.DecodeBase64ToFile(FileToDataUrl(path, hint, fs), workdir, suggested, codec);
      && r.Ok? && r.value.mime == Some(MimeFor(path, hint))
      && r.value.bytes == |fs.read(path)|
  {
    TableMimesPlain();
    Storage.DataUrlRoundTrip(MimeFor(path, hint), fs.encode(fs.read(path)), workdir, suggested, codec);
  }

  /** A reference source: the upload's path (its `name`, or the upload itself when it is a
      path string) and the URL box. */
  datatype Source = Source(upload: Option<string>, url: string)

  /** `_maybe_prepare_ref`: a non-blank URL (stripped) wins; else an existing uploaded
      file becomes a data URL, or its path when base64 is not allowed; else nothing. */
  function MaybePrepareRef(src: Source, allowBase64: bool, hint: string, fs: Files): (r: Option<string>)
    ensures Strip(src.url) != "" ==> r == Some(Strip(src.url))
    ensures Strip(src.url) == "" && OptTruthy(src.upload) && fs.present(src.upload.value) ==>
      r == Some(if allowBase64 then FileToDataUrl(src.upload.value, hint, fs) else src.upload.value)
    ensures r.Some? <==> Strip(src.url) != "" || (OptTruthy(src.upload) && fs.present(src.upload.value))
    ensures r.Some? ==> r.value != ""
  {
    var u := Strip(src.url);
    if u != "" then Some(u)
    else if OptTruthy(src.upload) && fs.present(src.upload.value) then
      if allowBase64 then Some(FileToDataUrl(src.upload.value, hint, fs)) else Some(src.upload.value)
    else None
  }

  // ---------------------------------------------------------------- error text

  const GuideLink: string := "InfiniteTalk_Runpod_Serverless/GUIDE.md#troubleshooting"

  /** The suggestion table of `_format_error_message`. */
  const Suggestions: map<string, string> := map[
    "E_INPUT_VALIDATION" := "Check required fields and parameter ranges.",
    "E_DOWNLOAD_FAILED" := "Ensure your URLs are reachable and under size limits.",
    "E_AUDIO_EMBEDDING" := "Verify audio format (prefer WAV, 16kHz/mono).",
    "E_PIPELINE_LOAD" := "Verify CKPT_DIR/INFINITETALK_DIR/WAV2VEC_DIR on the endpoint.",
    "E_OOM" := "Reduce size to 480p and steps to 8–12; set offload_model=true.",
    "E_FFMPEG" := "Ensure ffmpeg is installed and inputs are valid.",
    "E_UPLOAD" := "Check S3 credentials/bucket/prefix.",
    "E_TIMEOUT" := "Increase executionTimeout or reduce job complexity."]

  /** Codes that get a tip: string codes in the table. */
  predicate HasTip(code: Json) {
    code.JStr? && code.s in Suggestions
  }

  /** The first line: `code: message` for a truthy code, else the message. */
  function Headline(code: Json, message: Json, repr: Json -> string): (r: string)
    ensures |PyStr(message, repr)| <= |r| && r[|r| - |PyStr(message, repr)|..] == PyStr(message, repr)
    ensures code.JStr? && code.s != "" ==> StartsWith(r, code.s + ": ")
    ensures !Truthy(code) ==> r == PyStr(message, repr)
    ensures Truthy(code) ==>
      StartsWith(r, PyStr(code, repr) + ": ") && |r| == |PyStr(code, repr)| + 2 + |PyStr(message, repr)|
  {
    if Truthy(code) then PyStr(code, repr) + ": " + PyStr(message, repr) else PyStr(message, repr)
  }

  function TipBlock(tip: string): string {
    "\n\nTip: " + tip + "\nSee: " + GuideLink
  }

  /** `_format_error_message`: the headline, plus the tip and guide link exactly for codes in
      the table. Looking up a truthy list or dict code raises TypeError (unhashable). */
  function FormatErrorMessage(code: Json, message: Json, repr: Json -> string): (r: Result<string, Exc>)
    ensures r.Err? <==> Truthy(code) && (code.JArr? || code.JObj?)
    ensures r.Err? ==> r.error.kind == TypeError
    ensures r.Ok? && HasTip(code) ==> r.value == Headline(code, message, repr) + TipBlock(Suggestions[code.s])
    ensures r.Ok? && !HasTip(code) ==> r.value == Headline(code, message, repr)
  {
    var key := Or(code, JStr(""));
    if !Hashable(key) then Err(UnhashableError(key))
    else if key.JStr? && key.s in Suggestions && Suggestions[key.s] != "" then
      Ok(Headline(code, message, repr) + TipBlock(Suggestions[key.s]))
    else Ok(Headline(code, message, repr))
  }

  /** Of the codes the worker can report, only E_GENERATION_RUNTIME comes without a tip. */
  lemma WorkerCodesTips()
    ensures forall c :: c in Handler.RetryTable ==> (HasTip(JStr(c)) <==> c != "E_GENERATION_RUNTIME")
  {
  }

  /** A generation error is shown as `E_GENERATION_RUNTIME: <message>` and nothing more. */
  lemma GenerationRuntimeNoTip(message: string, repr: Json -> string)
    ensures FormatErrorMessage(JStr("E_GENERATION_RUNTIME"), JStr(message), repr) == Ok("E_GENERATION_RUNTIME: " + message)
  {
    WorkerCodesTips();
    assert "E_GENERATION_RUNTIME" in Handler.RetryTable;
    assert "E_GENERATION_RUNTIME" + ": " == "E_GENERATION_RUNTIME: ";
    assert Headline(JStr("E_GENERATION_RUNTIME"), JStr(message), repr) == "E_GENERATION_RUNTIME: " + message;
  }

  // ---------------------------------------------------------------- polling

  const PollInit: real := 2.0
  const PollMax: real := 6.0
  const PollBackoffAfter: real := 120.0

  /** The interval after a poll at `elapsed` seconds: from 2 s rising linearly to 6 s at two
      minutes, then flat. */
  function PollInterval(elapsed: real): (r: real)
    ensures r <= PollMax
    ensures elapsed >= 0.0 ==> r >= PollInit
    ensures elapsed >= PollBackoffAfter ==> r == PollMax
    ensures elapsed <= PollBackoffAfter ==> r == PollInit + elapsed / 30.0
  {
    MinReal(PollMax, PollInit + (elapsed / PollBackoffAfter) * (PollMax - PollInit))
  }

  /** The interval never shrinks as time passes. */
  lemma PollIntervalMonotone(a: real, b: real)
    requires a <= b
    ensures PollInterval(a) <= PollInterval(b)
  {
  }

  const TerminalStatuses: set<string> := {"COMPLETED", "FAILED", "TIMEOUT"}

  /** `(status.get("status") or "").upper()`; a truthy non-string has no `upper`. */
  function StatusWord(st: Obj): (r: Result<string, Exc>)
    ensures At(st, "status").JStr? ==> r == Ok(Upper(At(st, "status").s))
    ensures !Truthy(At(st, "status")) ==> r == Ok("")
    ensures r.Err? <==> Truthy(At(st, "status")) && !At(st, "status").JStr?
  {
    var v := Or(At(st, "status"), JStr(""));
    if v.JStr? then Ok(Upper(v.s)) else Err(Exc(AttributeError, "object has no attribute 'upper'"))
  }

  /** The error text of a failed job whose output is a dict: the worker's `error.code` and
      `error.message`, the message falling back to the JSON of the whole output. A truthy
      non-dict `error` has no `.get`. */
  function FailureText(output: Obj, repr: Json -> string, dumps: Json -> string): (r: Result<string, Exc>)
    ensures Or(At(output, "error"), JObj(map[])).JObj? ==>
      var err := Or(At(output, "error"), JObj(map[])).fields;
      r == FormatErrorMessage(At(err, "code"), Or(At(err, "message"), JStr(dumps(JObj(output)))), repr)
    ensures !Or(At(output, "error"), JObj(map[])).JObj? ==> r.Err? && r.error.kind == AttributeError
  {
    var err := Or(At(output, "error"), JObj(map[]));
    if !err.JObj? then Err(Exc(AttributeError, "object has no attribute 'get'"))
    else FormatErrorMessage(At(err.fields, "code"), Or(At(err.fields, "message"), JStr(dumps(JObj(output)))), repr)
  }

  /** What one poll decides: stop with `(output, error)`, or wait `interval` seconds. */
  datatype Step = Stop(output: Option<Json>, error: Option<string>) | Wait(interval: real)

  /** One iteration of `_poll_status_stream`, given the outcome of `get_status` and the
      elapsed time. Progress and log updates are display only. */
  function PollStep(status: Result<Json, Exc>, elapsed: real, repr: Json -> string, dumps: Json -> string)
    : (r: Result<Step, Exc>)
    ensures status.Err? ==> r == Ok(Stop(None, Some("Status error: " + status.error.message)))
    ensures r.Ok? && r.value.Stop? ==> (r.value.output.Some? <==> r.value.error.None?)
    ensures r.Ok? && r.value.Wait? ==> r.value.interval == PollInterval(elapsed)
    ensures status.Ok? && status.value.JObj? && ExtractProgress(status.value.fields, repr).Ok? ==>
      var st := status.value.fields;
      && (StatusWord(st).Err? ==> r == Err(StatusWord(st).error))
      && (StatusWord(st).Ok? && StatusWord(st).value !in TerminalStatuses ==> r == Ok(Wait(PollInterval(elapsed))))
      && (StatusWord(st) == Ok("COMPLETED") ==> r == Ok(Stop(Some(Or(At(st, "output"), JObj(map[]))), None)))
    ensures status.Ok? && status.value.JObj? && ExtractProgress(status.value.fields, repr).Ok? ==>
      var st := status.value.fields;
      var output := Or(At(st, "output"), JObj(map[]));
      StatusWord(st).Ok? && StatusWord(st).value in {"FAILED", "TIMEOUT"} ==>
        && (output.JObj? && FailureText(output.fields, repr, dumps).Ok? ==>
              r == Ok(Stop(None, Some(FailureText(output.fields, repr, dumps).value))))
        && (output.JObj? && FailureText(output.fields, repr, dumps).Err? ==>
              r == Err(FailureText(output.fields, repr, dumps).error))
        && (!output.JObj? ==> r == Ok(Stop(None, Some("Job ended with status=" + StatusWord(st).value))))
    ensures status.Ok? && !status.value.JObj? ==> r.Err? && r.error.kind == AttributeError
  {
    match status
    case Err(e) => Ok(Stop(None, Some("Status error: " + e.message)))
    case Ok(j) =>
      if !j.JObj? then Err(Exc(AttributeError, "object has no attribute 'get'"))
      else
        var st := j.fields;
        var _ :- ExtractProgress(st, repr);
        var interval := PollInterval(elapsed);
        var s :- StatusWord(st);
        if s == "COMPLETED" then Ok(Stop(Some(Or(At(st, "output"), JObj(map[]))), None))
        else if s == "FAILED" || s == "TIMEOUT" then
          var output := Or(At(st, "output"), JObj(map[]));
          if output.JObj? then
            var m :- FailureText(output.fields, repr, dumps);
            Ok(Stop(None, Some(m)))
          else Ok(Stop(None, Some("Job ended with status=" + s)))
        else Ok(Wait(interval))
  }

  /** The poll loop over a finite run of status answers with their elapsed times: it ends
      at the first poll that stops, or is still waiting when the run is used up. */
  datatype PollEnd = Ended(output: Option<Json>, error: Option<string>, polls: nat) | Waiting(intervals: seq<real>)

  function PollLoop(trace: seq<(Result<Json, Exc>, real)>, repr: Json -> string, dumps: Json -> string)
    : (r: Result<PollEnd, Exc>)
    ensures r.Ok? && r.value.Ended? ==> 1 <= r.value.polls <= |trace|
    ensures r.Ok? && r.value.Waiting? ==> |r.value.intervals| == |trace|
  {
    if |trace| == 0 then Ok(Waiting([]))
    else
      var step :- PollStep(trace[0].0, trace[0].1, repr, dumps);
      match step
      case Stop(o, e) => Ok(Ended(o, e, 1))
      case Wait(i) =>
        var rest :- PollLoop(trace[1..], repr, dumps);
        match rest
        case Ended(o, e, n) => Ok(Ended(o, e, n + 1))
        case Waiting(waits) => Ok(Waiting([i] + waits))
  }

  /** A loop that ends does so at a poll that stops, after polls that all waited. */
  lemma {:induction false} PollLoopEnded(trace: seq<(Result<Json, Exc>, real)>, repr: Json -> string, dumps: Json -> string)
    requires PollLoop(trace, repr, dumps).Ok? && PollLoop(trace, repr, dumps).value.Ended?
    ensures var e := PollLoop(trace, repr, dumps).value;
      && PollStep(trace[e.polls - 1].0, trace[e.polls - 1].1, repr, dumps) == Ok(Stop(e.output, e.error))
      && forall j :: 0 <= j < e.polls - 1 ==>
           PollStep(trace[j].0, trace[j].1, repr, dumps).Ok? && PollStep(trace[j].0, trace[j].1, repr, dumps).value.Wait?
  {
    var e := PollLoop(trace, repr, dumps).value;
    if PollStep(trace[0].0, trace[0].1, repr, dumps).value.Wait? {
      var tail := trace[1..];
      PollLoopEnded(tail, repr, dumps);
      var t := PollLoop(tail, repr, dumps).value;
      assert e.polls == t.polls + 1;
      forall j | 0 <= j < e.polls - 1
        ensures PollStep(trace[j].0, trace[j].1, repr, dumps).Ok? && PollStep(trace[j].0, trace[j].1, repr, dumps).value.Wait?
      {
        if j > 0 {
          assert trace[j] == tail[j - 1];
        }
      }
      assert trace[e.polls - 1] == tail[t.polls - 1];
    }
  }

  /** A loop still waiting when the run is used up waited at every poll, with the
      intervals it reports. */
  lemma {:induction false} PollLoopWaiting(trace: seq<(Result<Json, Exc>, real)>, repr: Json -> string, dumps: Json -> string)
    requires PollLoop(trace, repr, dumps).Ok? && PollLoop(trace, repr, dumps).value.Waiting?
    ensures var waits := PollLoop(trace, repr, dumps).value.intervals;
      forall j :: 0 <= j < |trace| ==> PollStep(trace[j].0, trace[j].1, repr, dumps) == Ok(Wait(waits[j]))
  {
    if |trace| > 0 {
      var tail := trace[1..];
      PollLoopWaiting(tail, repr, dumps);
      var waits := PollLoop(trace, repr, dumps).value.intervals;
      var rest := PollLoop(tail, repr, dumps).value.intervals;
      assert waits == [PollStep(trace[0].0, trace[0].1, repr, dumps).value.interval] + rest;
      forall j | 0 <= j < |trace| ensures PollStep(trace[j].0, trace[j].1, repr, dumps) == Ok(Wait(waits[j])) {
        if j > 0 {
          assert trace[j] == tail[j - 1];
        }
      }
    }
  }

  /** A loop that raises does so because one of its polls raised that error. */
  lemma {:induction false} PollLoopRaised(trace: seq<(Result<Json, Exc>, real)>, repr: Json -> string, dumps: Json -> string)
    requires PollLoop(trace, repr, dumps).Err?
    ensures exists j :: 0 <= j < |trace| && PollStep(trace[j].0, trace[j].1, repr, dumps) == Err(PollLoop(trace, repr, dumps).error)
  {
    if PollStep(trace[0].0, trace[0].1, repr, dumps).Err? {
      assert PollStep(trace[0].0, trace[0].1, repr, dumps) == Err(PollLoop(trace, repr, dumps).error);
    } else {
      var tail := trace[1..];
      PollLoopRaised(tail, repr, dumps);
      var j :| 0 <= j < |tail| && PollStep(tail[j].0, tail[j].1, repr, dumps) == Err(PollLoop(tail, repr, dumps).error);
      assert trace[j + 1] == tail[j];
    }
  }

  /** A failed status query ends the loop at once. */
  lemma StatusErrorEndsPolling(trace: seq<(Result<Json, Exc>, real)>, repr: Json -> string, dumps: Json -> string)
    requires |trace| > 0 && trace[0].0.Err?
    ensures PollLoop(trace, repr, dumps) == Ok(Ended(None, Some("Status error: " + trace[0].0.error.message), 1))
  {
  }

  /** While polling, every wait lies between 2 and 6 seconds. */
  lemma WaitsBounded(trace: seq<(Result<Json, Exc>, real)>, repr: Json -> string, dumps: Json -> string)
    requires forall j :: 0 <= j < |trace| ==> trace[j].1 >= 0.0
    ensures var r := PollLoop(trace, repr, dumps);
      r.Ok? && r.value.Waiting? ==> forall j :: 0 <= j < |r.value.intervals| ==> PollInit <= r.value.intervals[j] <= PollMax
  {
    var r := PollLoop(trace, repr, dumps);
    if r.Ok? && r.value.Waiting? {
      PollLoopWaiting(trace, repr, dumps);
      forall j | 0 <= j < |r.value.intervals| ensures PollInit <= r.value.intervals[j] <= PollMax {
        assert PollStep(trace[j].0, trace[j].1, repr, dumps) == Ok(Wait(r.value.intervals[j]));
      }
    }
  }

  // ---------------------------------------------------------------- picking the video

  /** What `_pick_video_result` returns: nothing, a URL, or decoded bytes, with a media type. */
  datatype Picked = NoVideo | VideoUrl(url: Json, mime: Json) | VideoBytes(data: Storage.Bytes, mime: Json)

  /** `x.get("mime") or "video/mp4"`. */
  function MimeOr(f: Obj): (r: Json)
    ensures Truthy(r)
    ensures Truthy(At(f, "mime")) ==> r == f["mime"]
    ensures !Truthy(At(f, "mime")) ==> r == JStr("video/mp4")
  {
    Or(At(f, "mime"), JStr("video/mp4"))
  }

  /** `b64decode(v.split(",")[-1])`, `None` when it raises (a non-string has no `split`). */
  function DecodeInline(v: Json, codec: Storage.Base64): (r: Option<Storage.Bytes>)
    ensures r.Some? ==> v.JStr?
    ensures v.JStr? && ',' !in v.s ==> r == codec.lenient(v.s)
  {
    if v.JStr? then codec.lenient(AfterLastChar(v.s, ',')) else None
  }

  /** The `video` block: its URL, else its decodable `base64`/`data` payload. */
  function FromVideo(video: Json, codec: Storage.Base64): (r: Option<Picked>)
    ensures r.Some? ==> video.JObj? && !r.value.NoVideo? && Truthy(r.value.mime)
    ensures video.JObj? && Truthy(At(video.fields, "url")) ==> r == Some(VideoUrl(At(video.fields, "url"), MimeOr(video.fields)))
    ensures r.Some? && r.value.VideoBytes? ==>
      var b := Or(At(video.fields, "base64"), At(video.fields, "data"));
      Truthy(b) && DecodeInline(b, codec) == Some(r.value.data)
  {
    if !video.JObj? then None
    else
      var f := video.fields;
      if Truthy(At(f, "url")) then Some(VideoUrl(At(f, "url"), MimeOr(f)))
      else
        var b := Or(At(f, "base64"), At(f, "data"));
        if Truthy(b) && DecodeInline(b, codec).Some? then Some(VideoBytes(DecodeInline(b, codec).value, MimeOr(f)))
        else None
  }

  /** What one artifact offers: a video artifact with a URL, else with a decodable
      `base64`; anything else (a path-only artifact included) offers nothing. */
  function Candidate(a: Obj, codec: Storage.Base64): (r: Option<Picked>)
    ensures r.Some? ==> At(a, "type") == JStr("video") && !r.value.NoVideo? && Truthy(r.value.mime)
    ensures r.Some? && r.value.VideoUrl? ==> r.value.url == At(a, "url") && Truthy(r.value.url)
    ensures r.Some? && r.value.VideoBytes? ==> !Truthy(At(a, "url")) && DecodeInline(At(a, "base64"), codec) == Some(r.value.data)
    ensures !Truthy(At(a, "url")) && !Truthy(At(a, "base64")) ==> r.None?
  {
    var url := At(a, "url");
    var b64 := At(a, "base64");
    if At(a, "type") == JStr("video") && (Truthy(url) || Truthy(At(a, "path")) || Truthy(b64)) then
      if Truthy(url) then Some(VideoUrl(url, MimeOr(a)))
      else if Truthy(b64) && DecodeInline(b64, codec).Some? then Some(VideoBytes(DecodeInline(b64, codec).value, MimeOr(a)))
      else None
    else None
  }

  /** Every artifact is a dict that offers nothing. */
  predicate Passed(arts: seq<Json>, codec: Storage.Base64) {
    forall j :: 0 <= j < |arts| ==> arts[j].JObj? && Candidate(arts[j].fields, codec).None?
  }

  /** The artifact loop: the first artifact that offers a video wins; a non-dict artifact
      met before one raises AttributeError (`a.get`). */
  function PickFromArtifacts(arts: seq<Json>, codec: Storage.Base64): (r: Result<Picked, Exc>)
    ensures r == Ok(NoVideo) <==> Passed(arts, codec)
    ensures r.Ok? && !r.value.NoVideo? ==>
      exists i :: 0 <= i < |arts| && Passed(arts[..i], codec) && arts[i].JObj? && Candidate(arts[i].fields, codec) == Some(r.value)
    ensures r.Err? ==>
      && r.error.kind == AttributeError
      && exists i :: 0 <= i < |arts| && Passed(arts[..i], codec) && !arts[i].JObj?
    decreases |arts|
  {
    if |arts| == 0 then Ok(NoVideo)
    else if !arts[0].JObj? then
      assert Passed(arts[..0], codec);
      Err(Exc(AttributeError, "object has no attribute 'get'"))
    else
      match Candidate(arts[0].fields, codec)
      case Some(p) =>
        assert Passed(arts[..0], codec);
        Ok(p)
      case None =>
        var rest := PickFromArtifacts(arts[1..], codec);
        PassedCons(arts, codec);
        rest
  }

  /** Passing a sequence is passing its head and its tail, at every prefix length. */
  lemma PassedCons(arts: seq<Json>, codec: Storage.Base64)
    requires |arts| > 0 && arts[0].JObj? && Candidate(arts[0].fields, codec).None?
    ensures Passed(arts, codec) <==> Passed(arts[1..], codec)
    ensures forall i :: 0 <= i < |arts| - 1 ==> (Passed(arts[1..][..i], codec) ==> Passed(arts[..i + 1], codec))
    ensures forall i :: 0 <= i < |arts| - 1 ==> arts[1..][i] == arts[i + 1]
  {
    forall i | 0 <= i < |arts| - 1 && Passed(arts[1..][..i], codec) ensures Passed(arts[..i + 1], codec) {
      var pre, tail := arts[..i + 1], arts[1..][..i];
      forall j | 0 <= j < |pre| ensures pre[j].JObj? && Candidate(pre[j].fields, codec).None? {
        if j > 0 {
          assert pre[j] == tail[j - 1];
        }
      }
    }
    if Passed(arts[1..], codec) {
      forall j | 0 <= j < |arts| ensures arts[j].JObj? && Candidate(arts[j].fields, codec).None? {
        if j > 0 {
          assert arts[j] == arts[1..][j - 1];
        }
      }
    }
  }

  /** `_pick_video_result`: a non-dict output has nothing; then the `video` block; then the
      artifact list. */
  function PickVideoResult(output: Json, codec: Storage.Base64): (r: Result<Picked, Exc>)
    ensures !output.JObj? ==> r == Ok(NoVideo)
    ensures r.Ok? && !r.value.NoVideo? ==> Truthy(r.value.mime)
    ensures output.JObj? && FromVideo(At(output.fields, "video"), codec).Some? ==>
      r == Ok(FromVideo(At(output.fields, "video"), codec).value)
    ensures output.JObj? && FromVideo(At(output.fields, "video"), codec).None? ==>
      if At(output.fields, "artifacts").JArr? then r == PickFromArtifacts(At(output.fields, "artifacts").items, codec)
      else r == Ok(NoVideo)
  {
    if !output.JObj? then Ok(NoVideo)
    else
      match FromVideo(At(output.fields, "video"), codec)
      case Some(p) => Ok(p)
      case None =>
        var arts := At(output.fields, "artifacts");
        if arts.JArr? then PickFromArtifacts(arts.items, codec) else Ok(NoVideo)
  }

  /** A video block without URL or payload and one video artifact without URL: the output
      yields nothing unless the artifact carries a decodable `base64`, whose bytes it yields. */
  lemma OneInlineArtifact(output: Obj, a: Obj, codec: Storage.Base64)
    requires "video" in output && output["video"].JObj?
    requires !Truthy(At(output["video"].fields, "url"))
    requires !Truthy(At(output["video"].fields, "base64")) && !Truthy(At(output["video"].fields, "data"))
    requires At(output, "artifacts") == JArr([JObj(a)])
    requires At(a, "type") == JStr("video") && !Truthy(At(a, "url"))
    ensures !Truthy(At(a, "base64")) ==> PickVideoResult(JObj(output), codec) == Ok(NoVideo)
    ensures Truthy(At(a, "base64")) && DecodeInline(At(a, "base64"), codec).Some? ==>
      PickVideoResult(JObj(output), codec) == Ok(VideoBytes(DecodeInline(At(a, "base64"), codec).value, MimeOr(a)))
  {
    assert FromVideo(At(output, "video"), codec).None?;
    var r := PickFromArtifacts([JObj(a)], codec);
    assert [JObj(a)][1..] == [];
    assert PickFromArtifacts([], codec) == Ok(NoVideo);
  }

  /** The inline store end to end, as written: the worker answers with a record from which
      the UI picks no video at all. */
  lemma InlineVideoLost(jobId: string, params: Obj, workdir: string, w: Handler.ItemWorld, b64: string,
                        codec: Storage.Base64)
    requires Pipeline.RunInference(params, workdir, w.env, w.gen).result.Ok?
    requires Handler.ItemConfig(params).JObj? && "video_url" !in Handler.ItemConfig(params).fields
    requires GetOr(Handler.ItemConfig(params).fields, "store", JStr("s3")) == JStr("inline")
    requires w.upload.inline == Some(b64)
    ensures PickVideoResult(JObj(Handler.ItemRecordAsWritten(JStr(jobId), params, workdir, w)), codec) == Ok(NoVideo)
  {
    InlineRecordPickedAsWritten(jobId, params, workdir, w, b64, codec);
  }

  lemma InlineRecordPickedAsWritten(jobId: string, params: Obj, workdir: string, w: Handler.ItemWorld, b64: string,
                                    codec: Storage.Base64)
    requires Pipeline.RunInference(params, workdir, w.env, w.gen).result.Ok?
    requires Handler.ItemConfig(params).JObj? && "video_url" !in Handler.ItemConfig(params).fields
    requires GetOr(Handler.ItemConfig(params).fields, "store", JStr("s3")) == JStr("inline")
    requires w.upload.inline == Some(b64)
    ensures PickVideoResult(JObj(Handler.ItemRecordWith(JStr(jobId), params, workdir, w, Validator.DumpArtifactAsWritten)), codec)
         == Ok(NoVideo)
  {
    Handler.InlineRecordShape(jobId, params, workdir, w, b64, Validator.DumpArtifactAsWritten);
    var r := Handler.ItemRecordWith(JStr(jobId), params, workdir, w, Validator.DumpArtifactAsWritten);
    var a := Handler.ItemStages(params, workdir, w).outcome.value.artifacts[0];
    InlineShapeLost(r, a, codec);
  }

  /** A record of the inline shape whose artifact went through the dump as written. */
  lemma InlineShapeLost(r: Obj, a: Obj, codec: Storage.Base64)
    requires "video" in r && r["video"].JObj? && At(r["video"].fields, "url") == JNull
    requires "base64" !in r["video"].fields && "data" !in r["video"].fields
    requires At(r, "artifacts") == JArr([JObj(Validator.DumpArtifactAsWritten(a))])
    requires At(a, "type") == JStr("video") && At(a, "url") == JNull
    ensures PickVideoResult(JObj(r), codec) == Ok(NoVideo)
  {
    DumpDropsInline(a);
    OneInlineArtifact(r, Validator.DumpArtifactAsWritten(a), codec);
  }

  /** The dump as written keeps the type and the missing URL, and drops the payload. */
  lemma DumpDropsInline(a: Obj)
    requires At(a, "type") == JStr("video") && At(a, "url") == JNull
    ensures var da := Validator.DumpArtifactAsWritten(a);
      At(da, "type") == JStr("video") && At(da, "url") == JNull && At(da, "base64") == JNull
  {
  }

  /** The inline store end to end, corrected: the UI picks the decoded bytes as `video/mp4`. */
  lemma InlineVideoDelivered(jobId: string, params: Obj, workdir: string, w: Handler.ItemWorld, b64: string,
                             codec: Storage.Base64)
    requires Pipeline.RunInference(params, workdir, w.env, w.gen).result.Ok?
    requires Handler.ItemConfig(params).JObj? && "video_url" !in Handler.ItemConfig(params).fields
    requires GetOr(Handler.ItemConfig(params).fields, "store", JStr("s3")) == JStr("inline")
    requires w.upload.inline == Some(b64) && b64 != ""
    requires codec.lenient(AfterLastChar(b64, ',')).Some?
    ensures PickVideoResult(JObj(Handler.ItemRecord(JStr(jobId), params, workdir, w)), codec)
         == Ok(VideoBytes(codec.lenient(AfterLastChar(b64, ',')).value, JStr("video/mp4")))
  {
    InlineRecordPicked(jobId, params, workdir, w, b64, codec);
  }

  lemma InlineRecordPicked(jobId: string, params: Obj, workdir: string, w: Handler.ItemWorld, b64: string,
                           codec: Storage.Base64)
    requires Pipeline.RunInference(params, workdir, w.env, w.gen).result.Ok?
    requires Handler.ItemConfig(params).JObj? && "video_url" !in Handler.ItemConfig(params).fields
    requires GetOr(Handler.ItemConfig(params).fields, "store", JStr("s3")) == JStr("inline")
    requires w.upload.inline == Some(b64) && b64 != ""
    requires codec.lenient(AfterLastChar(b64, ',')).Some?
    ensures PickVideoResult(JObj(Handler.ItemRecordWith(JStr(jobId), params, workdir, w, Validator.DumpArtifact)), codec)
         == Ok(VideoBytes(codec.lenient(AfterLastChar(b64, ',')).value, JStr("video/mp4")))
  {
    Handler.InlineRecordShape(jobId, params, workdir, w, b64, Validator.DumpArtifact);
    var r := Handler.ItemRecordWith(JStr(jobId), params, workdir, w, Validator.DumpArtifact);
    var a := Handler.ItemStages(params, workdir, w).outcome.value.artifacts[0];
    InlineShapeDelivered(r, a, b64, codec);
  }

  /** A record of the inline shape whose artifact went through the corrected dump. */
  lemma InlineShapeDelivered(r: Obj, a: Obj, b64: string, codec: Storage.Base64)
    requires "video" in r && r["video"].JObj? && At(r["video"].fields, "url") == JNull
    requires "base64" !in r["video"].fields && "data" !in r["video"].fields
    requires At(r, "artifacts") == JArr([JObj(Validator.DumpArtifact(a))])
    requires At(a, "type") == JStr("video") && At(a, "url") == JNull && At(a, "mime") == JStr("video/mp4")
    requires At(a, "base64") == JStr(b64) && b64 != ""
    requires codec.lenient(AfterLastChar(b64, ',')).Some?
    ensures PickVideoResult(JObj(r), codec) == Ok(VideoBytes(codec.lenient(AfterLastChar(b64, ',')).value, JStr("video/mp4")))
  {
    DumpKeepsInline(a, b64);
    OneInlineArtifact(r, Validator.DumpArtifact(a), codec);
  }

  /** The corrected dump keeps what the picker reads from an inline artifact. */
  lemma DumpKeepsInline(a: Obj, b64: string)
    requires At(a, "type") == JStr("video") && At(a, "url") == JNull
    requires At(a, "mime") == JStr("video/mp4") && At(a, "base64") == JStr(b64)
    ensures var da := Validator.DumpArtifact(a);
      && At(da, "type") == JStr("video") && At(da, "url") == JNull
      && At(da, "base64") == JStr(b64) && MimeOr(da) == JStr("video/mp4")
  {
  }

  // ---------------------------------------------------------------- the request envelope

  const ImageMode: string := "image → talking head"
  const PromptRequired: string := "Prompt is required."
  const ReferenceRequired: string := "A reference image or video is required."
  const TtsTextRequired: string := "TTS text is required when TTS is enabled."
  const AudioRequired: string := "Provide at least one audio reference or enable TTS."

  /** The form as the UI hands it over. */
  datatype Form = Form(mode: string, prompt: string, video: Source, image: Source, person1: Source, person2: Source,
                       useTts: bool, ttsText: string, voice1: string, voice2: string, audioType: string)

  /** `cond_video`: from the image in image mode, else from the video. */
  function CondVideo(f: Form, allowBase64: bool, fs: Files): (r: Option<string>)
    ensures f.mode == ImageMode ==> r == MaybePrepareRef(f.image, allowBase64, "image/jpeg", fs)
    ensures f.mode != ImageMode ==> r == MaybePrepareRef(f.video, allowBase64, "video/mp4", fs)
  {
    if f.mode == ImageMode then MaybePrepareRef(f.image, allowBase64, "image/jpeg", fs)
    else MaybePrepareRef(f.video, allowBase64, "video/mp4", fs)
  }

  function Speaker(src: Source, allowBase64: bool, fs: Files): (r: Option<string>)
    ensures r.Some? <==> Strip(src.url) != "" || (OptTruthy(src.upload) && fs.present(src.upload.value))
    ensures r.Some? ==> r.value != ""
  {
    MaybePrepareRef(src, allowBase64, "audio/wav", fs)
  }

  /** `tts_audio`: the stripped text, and each voice only when it is not blank. */
  function TtsBlock(text: string, voice1: string, voice2: string): (r: Obj)
    ensures "text" in r && r["text"] == JStr(text)
    ensures "human1_voice" in r <==> Strip(voice1) != ""
    ensures "human1_voice" in r ==> r["human1_voice"] == JStr(Strip(voice1))
    ensures "human2_voice" in r <==> Strip(voice2) != ""
    ensures "human2_voice" in r ==> r["human2_voice"] == JStr(Strip(voice2))
  {
    var t := map["text" := JStr(text)];
    var t1 := if Strip(voice1) != "" then t["human1_voice" := JStr(Strip(voice1))] else t;
    if Strip(voice2) != "" then t1["human2_voice" := JStr(Strip(voice2))] else t1
  }

  /** `cond_audio`: each speaker that has a reference. */
  function CondAudioBlock(p1: Option<string>, p2: Option<string>): (r: Obj)
    ensures "person1" in r <==> OptTruthy(p1)
    ensures "person1" in r ==> r["person1"] == JStr(p1.value)
    ensures "person2" in r <==> OptTruthy(p2)
    ensures "person2" in r ==> r["person2"] == JStr(p2.value)
    ensures r.Keys <= {"person1", "person2"}
  {
    var c := if OptTruthy(p1) then map["person1" := JStr(p1.value)] else map[];
    if OptTruthy(p2) then c["person2" := JStr(p2.value)] else c
  }

  /** The audio part of the input: TTS (text required), or the speaker references (at
      least one required) with `audio_type` (default "para") exactly when person2 is given. */
  function AudioPart(f: Form, p1: Option<string>, p2: Option<string>): (r: Result<Obj, Exc>)
    ensures r.Ok? ==> r.value.Keys <= AudioKeys
    ensures r.Ok? ==> (At(r.value, "tts_audio") != JNull <==> f.useTts) && (At(r.value, "cond_audio") != JNull <==> !f.useTts)
    ensures f.useTts ==>
      && (Strip(f.ttsText) == "" ==> r == Err(Exc(ValueError, TtsTextRequired)))
      && (Strip(f.ttsText) != "" ==> r == Ok(map["tts_audio" := JObj(TtsBlock(Strip(f.ttsText), f.voice1, f.voice2))]))
    ensures !f.useTts ==>
      && (!OptTruthy(p1) && !OptTruthy(p2) ==> r == Err(Exc(ValueError, AudioRequired)))
      && (OptTruthy(p1) || OptTruthy(p2) ==>
            && r.Ok? && r.value.Keys <= {"cond_audio", "audio_type"}
            && "cond_audio" in r.value && r.value["cond_audio"] == JObj(CondAudioBlock(p1, p2))
            && ("audio_type" in r.value <==> OptTruthy(p2))
            && ("audio_type" in r.value ==> r.value["audio_type"] == JStr(if f.audioType != "" then f.audioType else "para")))
  {
    if f.useTts then
      var tt := Strip(f.ttsText);
      if tt == "" then Err(Exc(ValueError, TtsTextRequired))
      else Ok(map["tts_audio" := JObj(TtsBlock(tt, f.voice1, f.voice2))])
    else if !OptTruthy(p1) && !OptTruthy(p2) then Err(Exc(ValueError, AudioRequired))
    else
      var m := map["cond_audio" := JObj(CondAudioBlock(p1, p2))];
      Ok(if OptTruthy(p2) then m["audio_type" := JStr(if f.audioType != "" then f.audioType else "para")] else m)
  }

  /** `_build_payload`: the checks in order (prompt, reference, audio), then
      `{"input": {prompt, cond_video, audio part} updated by params}`. */
  function BuildPayload(f: Form, params: Obj, allowBase64: bool, fs: Files): (r: Result<Obj, Exc>)
    ensures Strip(f.prompt) == "" ==> r == Err(Exc(ValueError, PromptRequired))
    ensures Strip(f.prompt) != "" && CondVideo(f, allowBase64, fs).None? ==> r == Err(Exc(ValueError, ReferenceRequired))
    ensures Strip(f.prompt) != "" && CondVideo(f, allowBase64, fs).Some? ==>
      var audio := AudioPart(f, Speaker(f.person1, allowBase64, fs), Speaker(f.person2, allowBase64, fs));
      && (audio.Err? ==> r == Err(audio.error))
      && (audio.Ok? ==> r == Ok(map["input" := JObj(Base(Strip(f.prompt), CondVideo(f, allowBase64, fs).value) + audio.value + params)]))
    ensures r.Err? ==> r.error.kind == ValueError
  {
    var pr := Strip(f.prompt);
    if pr == "" then Err(Exc(ValueError, PromptRequired))
    else
      var cv := CondVideo(f, allowBase64, fs);
      if cv.None? then Err(Exc(ValueError, ReferenceRequired))
      else
        var audio :- AudioPart(f, Speaker(f.person1, allowBase64, fs), Speaker(f.person2, allowBase64, fs));
        Ok(map["input" := JObj(Base(pr, cv.value) + audio + params)])
  }

  function Base(prompt: string, condVideo: string): (r: Obj)
    ensures r.Keys == {"prompt", "cond_video"} && r["prompt"] == JStr(prompt) && r["cond_video"] == JStr(condVideo)
  {
    map["prompt" := JStr(prompt), "cond_video" := JStr(condVideo)]
  }

  const AudioKeys: set<string> := {"cond_audio", "audio_type", "tts_audio"}

  /** The audio part never touches the prompt or the reference. */
  lemma AudioKeysApart()
    ensures "prompt" !in AudioKeys && "cond_video" !in AudioKeys
  {
  }

  /** `base.update(audio); base.update(params)` as one union: later dicts win. */
  lemma Merged(base: Obj, audio: Obj, params: Obj, k: string)
    ensures k in params ==> k in base + audio + params && (base + audio + params)[k] == params[k]
    ensures k !in params && k in audio ==> k in base + audio + params && (base + audio + params)[k] == audio[k]
    ensures k !in params && k !in audio ==> At(base + audio + params, k) == At(base, k)
  {
  }

  /** The merged input where params do not override: the audio part, else the prompt and
      reference. */
  lemma MergedInput(prompt: string, condVideo: string, audio: Obj, params: Obj)
    requires audio.Keys <= AudioKeys
    ensures var input := Base(prompt, condVideo) + audio + params;
      && ("prompt" !in params ==> At(input, "prompt") == JStr(prompt))
      && ("cond_video" !in params ==> At(input, "cond_video") == JStr(condVideo))
      && ("tts_audio" !in params ==> At(input, "tts_audio") == At(audio, "tts_audio"))
      && ("cond_audio" !in params ==> At(input, "cond_audio") == At(audio, "cond_audio"))
  {
    AudioKeysApart();
    var base := Base(prompt, condVideo);
    Merged(base, audio, params, "prompt");
    Merged(base, audio, params, "cond_video");
    Merged(base, audio, params, "tts_audio");
    Merged(base, audio, params, "cond_audio");
    assert "tts_audio" !in base && "cond_audio" !in base;
  }

  /** An accepted form: the checks passed, and the envelope holds the merged input. */
  lemma Accepted(f: Form, params: Obj, allowBase64: bool, fs: Files)
    requires BuildPayload(f, params, allowBase64, fs).Ok?
    ensures Strip(f.prompt) != "" && CondVideo(f, allowBase64, fs).Some?
    ensures AudioPart(f, Speaker(f.person1, allowBase64, fs), Speaker(f.person2, allowBase64, fs)).Ok?
    ensures BuildPayload(f, params, allowBase64, fs).value
         == map["input" := JObj(Base(Strip(f.prompt), CondVideo(f, allowBase64, fs).value)
                                + AudioPart(f, Speaker(f.person1, allowBase64, fs), Speaker(f.person2, allowBase64, fs)).value
                                + params)]
  {
    AcceptedChecks(f, params, allowBase64, fs);
  }

  lemma AcceptedChecks(f: Form, params: Obj, allowBase64: bool, fs: Files)
    requires BuildPayload(f, params, allowBase64, fs).Ok?
    ensures Strip(f.prompt) != "" && CondVideo(f, allowBase64, fs).Some?
    ensures AudioPart(f, Speaker(f.person1, allowBase64, fs), Speaker(f.person2, allowBase64, fs)).Ok?
  {
  }

  /** The input of an accepted form as a plain object: the prompt and reference, then the
      audio part, then params. */
  function InputOf(f: Form, params: Obj, allowBase64: bool, fs: Files): (r: Obj)
    requires BuildPayload(f, params, allowBase64, fs).Ok?
    ensures forall k :: k in params ==> k in r && r[k] == params[k]
    ensures "prompt" in r && "cond_video" in r
  {
    Accepted(f, params, allowBase64, fs);
    Base(Strip(f.prompt), CondVideo(f, allowBase64, fs).value)
    + AudioPart(f, Speaker(f.person1, allowBase64, fs), Speaker(f.person2, allowBase64, fs)).value
    + params
  }

  /** An accepted form is wrapped as `{"input": ...}`, and params override every field. */
  lemma PayloadOverrides(f: Form, params: Obj, allowBase64: bool, fs: Files)
    requires BuildPayload(f, params, allowBase64, fs).Ok?
    ensures BuildPayload(f, params, allowBase64, fs) == Ok(map["input" := JObj(InputOf(f, params, allowBase64, fs))])
    ensures forall k :: k in params ==> k in InputOf(f, params, allowBase64, fs) && InputOf(f, params, allowBase64, fs)[k] == params[k]
  {
    Accepted(f, params, allowBase64, fs);
  }

  /** The input of an accepted form in its three parts. */
  lemma InputParts(f: Form, params: Obj, allowBase64: bool, fs: Files)
    requires BuildPayload(f, params, allowBase64, fs).Ok?
    ensures Strip(f.prompt) != "" && CondVideo(f, allowBase64, fs).Some?
    ensures var audio := AudioPart(f, Speaker(f.person1, allowBase64, fs), Speaker(f.person2, allowBase64, fs));
      && audio.Ok?
      && InputOf(f, params, allowBase64, fs) == Base(Strip(f.prompt), CondVideo(f, allowBase64, fs).value) + audio.value + params
  {
    Accepted(f, params, allowBase64, fs);
  }

  /** Unless params override them, the input carries the stripped prompt and the reference. */
  lemma PayloadPrompt(f: Form, params: Obj, allowBase64: bool, fs: Files)
    requires BuildPayload(f, params, allowBase64, fs).Ok?
    ensures Strip(f.prompt) != "" && CondVideo(f, allowBase64, fs).Some?
    ensures "prompt" !in params ==> At(InputOf(f, params, allowBase64, fs), "prompt") == JStr(Strip(f.prompt))
    ensures "cond_video" !in params ==>
      At(InputOf(f, params, allowBase64, fs), "cond_video") == JStr(CondVideo(f, allowBase64, fs).value)
  {
    InputParts(f, params, allowBase64, fs);
    var audio := AudioPart(f, Speaker(f.person1, allowBase64, fs), Speaker(f.person2, allowBase64, fs)).value;
    MergedInput(Strip(f.prompt), CondVideo(f, allowBase64, fs).value, audio, params);
  }

  /** Unless params override it, the input has `tts_audio` exactly with TTS. */
  lemma PayloadHasTts(f: Form, params: Obj, allowBase64: bool, fs: Files)
    requires BuildPayload(f, params, allowBase64, fs).Ok?
    ensures "tts_audio" !in params ==> (At(InputOf(f, params, allowBase64, fs), "tts_audio") != JNull <==> f.useTts)
  {
    InputParts(f, params, allowBase64, fs);
    var audio := AudioPart(f, Speaker(f.person1, allowBase64, fs), Speaker(f.person2, allowBase64, fs)).value;
    MergedInput(Strip(f.prompt), CondVideo(f, allowBase64, fs).value, audio, params);
  }

  /** Unless params override it, the input has `cond_audio` exactly without TTS. */
  lemma PayloadHasCondAudio(f: Form, params: Obj, allowBase64: bool, fs: Files)
    requires BuildPayload(f, params, allowBase64, fs).Ok?
    ensures "cond_audio" !in params ==> (At(InputOf(f, params, allowBase64, fs), "cond_audio") != JNull <==> !f.useTts)
  {
    InputParts(f, params, allowBase64, fs);
    var audio := AudioPart(f, Speaker(f.person1, allowBase64, fs), Speaker(f.person2, allowBase64, fs)).value;
    MergedInput(Strip(f.prompt), CondVideo(f, allowBase64, fs).value, audio, params);
  }

  /** With TTS, unless params override it, `tts_audio` is the stripped text and voices. */
  lemma PayloadTts(f: Form, params: Obj, allowBase64: bool, fs: Files)
    requires BuildPayload(f, params, allowBase64, fs).Ok?
    requires f.useTts && "tts_audio" !in params
    ensures At(InputOf(f, params, allowBase64, fs), "tts_audio") == JObj(TtsBlock(Strip(f.ttsText), f.voice1, f.voice2))
  {
    InputParts(f, params, allowBase64, fs);
    var audio := AudioPart(f, Speaker(f.person1, allowBase64, fs), Speaker(f.person2, allowBase64, fs)).value;
    MergedInput(Strip(f.prompt), CondVideo(f, allowBase64, fs).value, audio, params);
  }

  /** Without TTS, unless params override it, `cond_audio` holds the speakers given. */
  lemma PayloadSpeakers(f: Form, params: Obj, allowBase64: bool, fs: Files)
    requires BuildPayload(f, params, allowBase64, fs).Ok?
    requires !f.useTts && "cond_audio" !in params
    ensures At(InputOf(f, params, allowBase64, fs), "cond_audio")
         == JObj(CondAudioBlock(Speaker(f.person1, allowBase64, fs), Speaker(f.person2, allowBase64, fs)))
  {
    InputParts(f, params, allowBase64, fs);
    var audio := AudioPart(f, Speaker(f.person1, allowBase64, fs), Speaker(f.person2, allowBase64, fs)).value;
    MergedInput(Strip(f.prompt), CondVideo(f, allowBase64, fs).value, audio, params);
  }

  /** A person2-only form passes the UI's checks: the request carries a `cond_audio` with
      person2 alone, and `audio_type` (unless params supply them). */
  lemma Person2OnlyAccepted(f: Form, params: Obj, allowBase64: bool, fs: Files)
    requires !f.useTts && Speaker(f.person1, allowBase64, fs).None? && OptTruthy(Speaker(f.person2, allowBase64, fs))
    requires Strip(f.prompt) != "" && CondVideo(f, allowBase64, fs).Some?
    requires "cond_audio" !in params && "tts_audio" !in params
    ensures BuildPayload(f, params, allowBase64, fs).Ok?
    ensures var input := InputOf(f, params, allowBase64, fs);
      && At(input, "cond_audio") == JObj(CondAudioBlock(None, Speaker(f.person2, allowBase64, fs)))
      && At(input, "tts_audio") == JNull
  {
    PayloadHasTts(f, params, allowBase64, fs);
    PayloadSpeakers(f, params, allowBase64, fs);
  }

  /** The worker needs person1, so it refuses a person2-only `cond_audio` (with no TTS) with
      the no-audio ValueError, reported as E_GENERATION_RUNTIME. */
  lemma Person2OnlyRefused(person2: string, workerParams: Obj, workdir: string, env: Pipeline.Env, w: Pipeline.World)
    requires person2 != ""
    requires At(workerParams, "cond_audio") == JObj(CondAudioBlock(None, Some(person2)))
    requires At(workerParams, "tts_audio") == JNull
    requires "prompt" in workerParams && Pipeline.VideoStep(workerParams, workdir, w).Ok?
    requires OptTruthy(env.wav2vecDir) && w.audioInit.None?
    ensures Pipeline.PrepareInputs(workerParams, workdir, env, w) == Err(Exc(ValueError, Pipeline.NoAudio))
    ensures Handler.Classify(Exc(ValueError, Pipeline.NoAudio)).code == "E_GENERATION_RUNTIME"
  {
    assert "person1" !in CondAudioBlock(None, Some(person2));
    Pipeline.AudioFallbackErrors(workerParams, workdir, env, w);
    Handler.NoAudioCode();
  }

  /** A TTS form with text passes the UI's checks and sends the TTS block and no
      `cond_audio` (unless params supply them). */
  lemma TtsFormAccepted(f: Form, params: Obj, allowBase64: bool, fs: Files)
    requires f.useTts && Strip(f.ttsText) != ""
    requires Strip(f.prompt) != "" && CondVideo(f, allowBase64, fs).Some?
    requires "cond_audio" !in params && "tts_audio" !in params
    ensures BuildPayload(f, params, allowBase64, fs).Ok?
    ensures var input := InputOf(f, params, allowBase64, fs);
      && At(input, "tts_audio") == JObj(TtsBlock(Strip(f.ttsText), f.voice1, f.voice2))
      && At(input, "cond_audio") == JNull
  {
    PayloadHasCondAudio(f, params, allowBase64, fs);
    PayloadTts(f, params, allowBase64, fs);
  }

  /** The worker build refuses the UI's TTS block with NotImplementedError, reported as
      E_GENERATION_RUNTIME: TTS from the UI never produces a video. */
  lemma TtsRefused(text: string, voice1: string, voice2: string,
                   workerParams: Obj, workdir: string, env: Pipeline.Env, w: Pipeline.World)
    requires text != ""
    requires At(workerParams, "tts_audio") == JObj(TtsBlock(text, voice1, voice2))
    requires At(workerParams, "cond_audio") == JNull
    requires "prompt" in workerParams && Pipeline.VideoStep(workerParams, workdir, w).Ok?
    requires OptTruthy(env.wav2vecDir) && w.audioInit.None?
    ensures Pipeline.PrepareInputs(workerParams, workdir, env, w) == Err(Exc(NotImplementedError, Pipeline.TtsUnsupported))
    ensures Handler.Classify(Exc(NotImplementedError, Pipeline.TtsUnsupported)).code == "E_GENERATION_RUNTIME"
  {
    Pipeline.AudioFallbackErrors(workerParams, workdir, env, w);
    Handler.TtsOnlyCode();
  }
}

=== FILE: handler.dfy ===
/** The per-job orchestrator (worker/handler.py): validation, the seeding guard, the fixed
    checkpoint sequence of an item, exception classification into error codes, the
    retryable table, artifact delivery (presigned upload, local path, inline base64),
    the success and error records, and batch aggregation. */
module Handler {
  import opened Wrappers
  import opened Text
  import opened PyJson
  import opened Validator
  import opened Storage
  import opened Pipeline

  /** `ERROR_RETRYABLE`. */
  const RetryTable: map<string, bool> := map[
    "E_INPUT_VALIDATION" := false, "E_DOWNLOAD_FAILED" := true, "E_AUDIO_EMBEDDING" := true,
    "E_PIPELINE_LOAD" := false, "E_OOM" := false, "E_FFMPEG" := true,
    "E_GENERATION_RUNTIME" := false, "E_UPLOAD" := true, "E_TIMEOUT" := true]

  /** `ERROR_RETRYABLE.get(code, False)`. */
  function IsRetryable(code: string): (r: bool)
    ensures code in RetryTable ==> r == RetryTable[code]
    ensures code !in RetryTable ==> !r
  {
    if code in RetryTable then RetryTable[code] else false
  }

  /** A checkpoint of an item and its progress percentage. */
  datatype Checkpoint = Checkpoint(name: string, pct: nat)

  /** The checkpoints of a successful item, in order. */
  const Checkpoints: seq<Checkpoint> := [
    Checkpoint("validated", 2), Checkpoint("models_loading", 15), Checkpoint("models_ready", 18),
    Checkpoint("preprocessing_done", 19), Checkpoint("generation_start", 20),
    Checkpoint("postprocess_mux", 90), Checkpoint("uploading_artifacts", 92),
    Checkpoint("completed", 100)]

  /** Checkpoints reached before `run_inference` returns, and before the upload finishes. */
  const BeforeInference: nat := 5
  const BeforeUpload: nat := 7

  /** The checkpoint table: eight distinct stages, percentages non-decreasing from 2 to 100,
      and `completed` only last. */
  lemma CheckpointTable()
    ensures |Checkpoints| == 8 && Checkpoints[0].pct == 2 && Checkpoints[7] == Checkpoint("completed", 100)
    ensures forall i, j :: 0 <= i <= j < |Checkpoints| ==> Checkpoints[i].pct <= Checkpoints[j].pct
    ensures forall i, j :: 0 <= i < j < |Checkpoints| ==> Checkpoints[i].name != Checkpoints[j].name
    ensures forall i :: 0 <= i < 7 ==> Checkpoints[i].name != "completed"
  {
  }

  /** `_progress`'s payload: stage, percentage and job id; item id and index when given;
      details only when truthy. */
  function ProgressPayload(event: string, pct: int, jobId: Json, details: Option<Obj>,
                           itemId: Option<Json>, itemIndex: Option<int>): (p: Obj)
    ensures {"stage", "pct", "job_id"} <= p.Keys
    ensures p["stage"] == JStr(event) && p["pct"] == JInt(pct) && p["job_id"] == jobId
    ensures "item_id" in p <==> itemId.Some?
    ensures "item_index" in p <==> itemIndex.Some?
    ensures "details" in p <==> details.Some? && details.value != map[]
    ensures p.Keys <= {"stage", "pct", "job_id", "item_id", "item_index", "details"}
  {
    var p0 := map["stage" := JStr(event), "pct" := JInt(pct), "job_id" := jobId];
    var p1 := if itemId.Some? then p0["item_id" := itemId.value] else p0;
    var p2 := if itemIndex.Some? then p1["item_index" := JInt(itemIndex.value)] else p1;
    if details.Some? && details.value != map[] then p2["details" := JObj(details.value)] else p2
  }

  /** An error code, message and stage chosen for a caught exception. */
  datatype Classification = Classification(code: string, message: string, atStage: string)

  /** The `except` chain of `_run_single_item`: every RuntimeError (with its subclasses
      NotImplementedError and CUDA out-of-memory) first; then MemoryError; then message
      hints for everything else. */
  function Classify(e: Exc): (c: Classification)
    ensures c.code in RetryTable
    ensures IsRuntimeError(e.kind) ==>
      && c.atStage == "runtime" && c.message == e.message
      && (c.code == "E_PIPELINE_LOAD" <==> Contains(e.message, "Model paths"))
      && (c.code == "E_PIPELINE_LOAD" || c.code == "E_GENERATION_RUNTIME")
    ensures IsMemoryError(e.kind) ==> c == Classification("E_OOM", "Out of memory.", "generation")
    ensures !IsRuntimeError(e.kind) && !IsMemoryError(e.kind) ==>
      && c.atStage == "generation" && c.message == e.message
      && (c.code == "E_FFMPEG" <==> Contains(Lower(e.message), "ffmpeg"))
      && (c.code == "E_AUDIO_EMBEDDING" <==>
            && !Contains(Lower(e.message), "ffmpeg")
            && (Contains(e.message, "WAV2VEC_DIR") || Contains(Lower(e.message), "audio embedding")))
      && (c.code == "E_FFMPEG" || c.code == "E_AUDIO_EMBEDDING" || c.code == "E_GENERATION_RUNTIME")
  {
    if IsRuntimeError(e.kind) then
      Classification(if Contains(e.message, "Model paths") then "E_PIPELINE_LOAD" else "E_GENERATION_RUNTIME",
                     e.message, "runtime")
    else if IsMemoryError(e.kind) then Classification("E_OOM", "Out of memory.", "generation")
    else
      var code := if Contains(Lower(e.message), "ffmpeg") then "E_FFMPEG"
                  else if Contains(e.message, "WAV2VEC_DIR") || Contains(Lower(e.message), "audio embedding") then "E_AUDIO_EMBEDDING"
                  else "E_GENERATION_RUNTIME";
      Classification(code, e.message, "generation")
  }

  /** The codes the item runner can produce: download, upload and timeout codes never occur. */
  lemma ClassifyRange(e: Exc)
    ensures Classify(e).code in {"E_PIPELINE_LOAD", "E_GENERATION_RUNTIME", "E_OOM", "E_FFMPEG", "E_AUDIO_EMBEDDING"}
  {
  }

  /** A text without a capital M cannot contain "Model paths". */
  lemma NoModelPaths(s: string)
    requires 'M' !in s
    ensures !Contains(s, "Model paths")
  {
    forall j ensures !OccursAt(s, "Model paths", j) {
      if 0 <= j && j + 11 <= |s| {
        assert s[j..j + 11][0] == s[j];
      }
    }
  }

  /** A RuntimeError whose message has no capital M is never a model-path error. */
  lemma RuntimeWithoutModelPaths(e: Exc)
    requires IsRuntimeError(e.kind) && 'M' !in e.message
    ensures Classify(e) == Classification("E_GENERATION_RUNTIME", e.message, "runtime")
  {
    NoModelPaths(e.message);
  }

  lemma WavMissingChars()
    ensures 'M' !in WavMissing && Contains(WavMissing, "audio embedding")
  {
    AbsentFromJoin("WAV2VEC_DIR env var ", "is required for ", 'M');
    AbsentFromJoin("WAV2VEC_DIR env var " + "is required for ", "audio embedding", 'M');
    AbsentFromJoin("WAV2VEC_DIR env var " + "is required for " + "audio embedding", ".", 'M');
    ContainsAt(WavMissing, "audio embedding", 36);
  }

  lemma TtsUnsupportedChars()
    ensures 'M' !in TtsUnsupported
  {
    var a, b, c, d, e := "tts_audio is not ", "supported in this ", "worker build. ", "Provide cond_audio ", "instead.";
    AbsentFromJoin(a, b, 'M');
    AbsentFromJoin(a + b, c, 'M');
    AbsentFromJoin(a + b + c, d, 'M');
    AbsentFromJoin(a + b + c + d, e, 'M');
  }

  /** A missing WAV2VEC_DIR is a RuntimeError, so although its message names audio
      embedding it is reported as E_GENERATION_RUNTIME at stage "runtime", not retryable. */
  lemma WavMissingCode()
    ensures Contains(WavMissing, "audio embedding")
    ensures Classify(Exc(RuntimeError, WavMissing)) == Classification("E_GENERATION_RUNTIME", WavMissing, "runtime")
    ensures !IsRetryable("E_GENERATION_RUNTIME")
  {
    WavMissingChars();
    RuntimeWithoutModelPaths(Exc(RuntimeError, WavMissing));
  }

  /** TTS-only input raises NotImplementedError, a RuntimeError: E_GENERATION_RUNTIME. */
  lemma TtsOnlyCode()
    ensures Classify(Exc(NotImplementedError, TtsUnsupported)) == Classification("E_GENERATION_RUNTIME", TtsUnsupported, "runtime")
  {
    TtsUnsupportedChars();
    RuntimeWithoutModelPaths(Exc(NotImplementedError, TtsUnsupported));
  }

  /** A text that lacks one character of `sub` cannot contain `sub`. */
  lemma MissingCharExcludes(s: string, sub: string, i: nat)
    requires i < |sub| && sub[i] !in s
    ensures !Contains(s, sub)
  {
    forall j ensures !OccursAt(s, sub, j) {
      if 0 <= j && j + |sub| <= |s| {
        assert s[j..j + |sub|][i] == s[j + i];
      }
    }
  }

  /** A lower-case letter absent from `s` in both cases is absent from `Lower(s)`. */
  lemma LowerLacks(s: string, c: char)
    requires 'a' <= c <= 'z' && c !in s && UpperChar(c) !in s
    ensures c !in Lower(s)
  {
    forall i | 0 <= i < |s| ensures Lower(s)[i] != c {
      assert s[i] != c && s[i] != UpperChar(c);
    }
  }

  /** A ValueError whose message has no `f`, `g` (in either case) or `W` names none of
      the hints, so it is E_GENERATION_RUNTIME at stage "generation". */
  lemma ValueErrorWithoutHints(m: string)
    requires 'f' !in m && 'F' !in m && 'g' !in m && 'G' !in m && 'W' !in m
    ensures Classify(Exc(ValueError, m)) == Classification("E_GENERATION_RUNTIME", m, "generation")
  {
    LowerLacks(m, 'f');
    LowerLacks(m, 'g');
    MissingCharExcludes(Lower(m), "ffmpeg", 0);
    MissingCharExcludes(Lower(m), "audio embedding", 14);
    MissingCharExcludes(m, "WAV2VEC_DIR", 0);
  }

  lemma NoAudioChars()
    ensures 'f' !in NoAudio && 'F' !in NoAudio && 'g' !in NoAudio && 'G' !in NoAudio && 'W' !in NoAudio
  {
    NoAudioLacks('f');
    NoAudioLacks('F');
    NoAudioLacks('g');
    NoAudioLacks('G');
    NoAudioLacks('W');
  }

  lemma NoAudioLacks(x: char)
    requires x == 'f' || x == 'F' || x == 'g' || x == 'G' || x == 'W'
    ensures x !in NoAudio
  {
    var a, b, c := "cond_audio or ", "tts_audio must ", "be provided.";
    AbsentFromJoin(a, b, x);
    AbsentFromJoin(a + b, c, x);
  }

  /** A request with neither a usable `cond_audio` nor TTS fails with a ValueError whose
      message names none of the hints, so it is reported as E_GENERATION_RUNTIME at stage
      "generation", not retryable. */
  lemma NoAudioCode()
    ensures Classify(Exc(ValueError, NoAudio)) == Classification("E_GENERATION_RUNTIME", NoAudio, "generation")
    ensures !IsRetryable("E_GENERATION_RUNTIME")
  {
    NoAudioChars();
    ValueErrorWithoutHints(NoAudio);
  }

  /** A CUDA out-of-memory error is a RuntimeError, so it is never reported as E_OOM. */
  lemma CudaOomCode(message: string)
    requires 'M' !in message
    ensures Classify(Exc(CudaOutOfMemoryError, message)) == Classification("E_GENERATION_RUNTIME", message, "runtime")
  {
    RuntimeWithoutModelPaths(Exc(CudaOutOfMemoryError, message));
  }

  const UploadFailedPrefix: string := "Upload to presigned " + "URL failed with " + "status "

  /** A rejected upload is a RuntimeError, so it is reported as E_GENERATION_RUNTIME, never
      E_UPLOAD, and is not retryable. */
  lemma UploadFailedChars(status: int)
    ensures 'M' !in UploadFailedPrefix + IntToString(status)
  {
    IntToStringChars(status);
  }

  lemma UploadFailureCode(status: int)
    ensures var c := Classify(Exc(RuntimeError, UploadFailedPrefix + IntToString(status)));
      c.code == "E_GENERATION_RUNTIME" && !IsRetryable(c.code)
  {
    UploadFailedChars(status);
    RuntimeWithoutModelPaths(Exc(RuntimeError, UploadFailedPrefix + IntToString(status)));
  }

  /** The primary video as delivered: artifacts, warnings and the summary. */
  datatype Delivery = Delivery(artifacts: seq<Obj>, warnings: seq<string>, video: Obj)

  /** The PUT status (or its transport error) and the inline read of the file (`None` when
      reading raised). */
  datatype UploadWorld = UploadWorld(put: Result<int, Exc>, inline: Option<string>)

  const InlineWarning: string := "Returning inline base64 video. This is not recommended for large outputs."
  const LocalWarning: string := "No presigned URL provided; returning local path. Configure S3 uploads for production."

  /** `_upload_artifacts_if_any`: with `video_url` the file is PUT there and a 2xx status
      gives a url artifact; otherwise a path artifact, and base64 for the inline store. */
  function Upload(outCfg: Json, videoPath: string, mime: string, size: int, uw: UploadWorld): (r: Result<Delivery, Exc>)
    ensures r.Ok? ==>
      && |r.value.artifacts| == 1 && "type" in r.value.artifacts[0]
      && r.value.artifacts[0]["type"] == JStr("video")
    ensures r.Ok? ==>
      && r.value.video.Keys == {"url", "mime", "bytes"}
      && r.value.video["mime"] == JStr(mime) && r.value.video["bytes"] == JInt(size)
  {
    var cfg := Or(outCfg, JObj(map[]));
    if !cfg.JObj? then Err(Exc(AttributeError, "object has no attribute 'get'"))
    else
      var c := cfg.fields;
      if "video_url" in c then
        var vurl := c["video_url"];
        match uw.put
        case Err(e) => Err(e)
        case Ok(status) =>
          if status / 100 != 2 then Err(Exc(RuntimeError, UploadFailedPrefix + IntToString(status)))
          else Ok(Delivery([MakeArtifact("video", JNull, vurl, JStr(mime), Some(size))], [],
                           map["url" := vurl, "mime" := JStr(mime), "bytes" := JInt(size)]))
      else
        var art := MakeArtifact("video", JStr(videoPath), JNull, JStr(mime), Some(size));
        var summary := map["url" := JNull, "mime" := JStr(mime), "bytes" := JInt(size)];
        if GetOr(c, "store", JStr("s3")) == JStr("inline") then
          match uw.inline
          case Some(b64) => Ok(Delivery([art["base64" := JStr(b64)]], [InlineWarning], summary))
          case None => Ok(Delivery([art], [], summary))
        else Ok(Delivery([art], [LocalWarning], summary))
  }

  /** The delivery decision. With a presigned URL: one url artifact and the summary url, no
      warning, and exactly the 2xx statuses accepted. Without: one path artifact, summary
      url None, base64 on the artifact only for the inline store (with its warning), and the
      local-path warning otherwise. */
  lemma DeliveryCases(outCfg: Json, videoPath: string, size: int, uw: UploadWorld)
    requires videoPath != ""
    requires Or(outCfg, JObj(map[])).JObj?
    ensures var c := Or(outCfg, JObj(map[])).fields;
      var r := Upload(outCfg, videoPath, "video/mp4", size, uw);
      && ("video_url" in c && uw.put.Ok? ==>
            && (r.Ok? <==> 200 <= uw.put.value < 300)
            && (r.Err? ==> r.error.kind == RuntimeError)
            && (r.Ok? ==> r.value.video["url"] == c["video_url"] && r.value.warnings == []
                          && "path" !in r.value.artifacts[0]
                          && ("url" in r.value.artifacts[0] <==> Truthy(c["video_url"]))))
      && ("video_url" !in c ==>
            && r.Ok? && r.value.video["url"] == JNull
            && r.value.artifacts[0]["path"] == JStr(videoPath) && "url" !in r.value.artifacts[0]
            && ("base64" in r.value.artifacts[0] <==>
                  GetOr(c, "store", JStr("s3")) == JStr("inline") && uw.inline.Some?)
            && (GetOr(c, "store", JStr("s3")) != JStr("inline") ==> r.value.warnings == [LocalWarning])
            && (GetOr(c, "store", JStr("s3")) == JStr("inline") ==>
                  r.value.warnings == (if uw.inline.Some? then [InlineWarning] else [])))
  {
  }

  /** The parameters echoed in a success record. */
  const EchoKeys: seq<string> := ["size", "frame_num", "sample_steps", "motion_frame", "use_teacache", "use_apg", "base_seed"]

  function EchoParams(params: Obj): (r: Obj)
    ensures r.Keys == {"size", "frame_num", "sample_steps", "motion_frame", "use_teacache", "use_apg", "base_seed"}
    ensures forall k :: k in r ==> r[k] == At(params, k)
  {
    map k | k in {"size", "frame_num", "sample_steps", "motion_frame", "use_teacache", "use_apg", "base_seed"} :: At(params, k)
  }

  /** The checkpoint records of the first `n` checkpoints, stamped by the clock. */
  function CheckpointRecords(n: nat, clock: nat -> string): (r: seq<Json>)
    requires n <= |Checkpoints|
    ensures |r| == n
    ensures forall i :: 0 <= i < n ==> r[i] == JObj(map["event" := JStr(Checkpoints[i].name), "ts" := JStr(clock(i))])
  {
    seq(n, i requires 0 <= i < n => JObj(map["event" := JStr(Checkpoints[i].name), "ts" := JStr(clock(i))]))
  }

  /** The checkpoint names in a record list. */
  function Names(cps: seq<Json>): seq<Json> {
    seq(|cps|, i requires 0 <= i < |cps| => if cps[i].JObj? then At(cps[i].fields, "event") else JNull)
  }

  function Strings(ws: seq<string>): (r: seq<Json>)
    ensures |r| == |ws| && forall i :: 0 <= i < |ws| ==> r[i] == JStr(ws[i])
  {
    seq(|ws|, i requires 0 <= i < |ws| => JStr(ws[i]))
  }

  function Objects(os: seq<Obj>, dump: Obj -> Obj): (r: seq<Json>)
    ensures |r| == |os| && forall i :: 0 <= i < |os| ==> r[i] == JObj(dump(os[i]))
  {
    seq(|os|, i requires 0 <= i < |os| => JObj(dump(os[i])))
  }

  const SuccessKeys: set<string> := {"job_id", "status", "video", "timings", "params", "logs", "artifacts", "warnings", "checkpoints"}

  /** `_success_output` dumped through the output schema, whose artifact dump is `dump`.
      The schema requires a string job id. */
  function SuccessRecord(jobId: Json, params: Obj, d: Delivery, timings: Obj, cps: seq<Json>, dump: Obj -> Obj)
    : (r: Result<Obj, Exc>)
    ensures r.Ok? <==> jobId.JStr?
    ensures r.Ok? ==> "status" in r.value && r.value["status"] == JStr("success")
    ensures r.Ok? ==> "job_id" in r.value && r.value["job_id"] == jobId
    ensures r.Ok? ==> "checkpoints" in r.value && r.value["checkpoints"] == JArr(cps)
    ensures r.Ok? ==> "warnings" in r.value && r.value["warnings"] == JArr(Strings(d.warnings))
    ensures r.Ok? ==> "artifacts" in r.value && r.value["artifacts"] == JArr(Objects(d.artifacts, dump))
    ensures r.Ok? ==> "video" in r.value && r.value["video"] == JObj(d.video)
    ensures r.Ok? ==> "params" in r.value && r.value["params"] == JObj(EchoParams(params))
    ensures r.Err? ==> r.error.kind == ValidationError
  {
    if !jobId.JStr? then Err(Exc(ValidationError, "1 validation error for SuccessOutput\njob_id\n  Input should be a valid string"))
    else
      Ok(map["job_id" := jobId, "status" := JStr("success"), "video" := JObj(d.video),
             "timings" := JObj(timings), "params" := JObj(EchoParams(params)), "logs" := JNull,
             "artifacts" := JArr(Objects(d.artifacts, dump)), "warnings" := JArr(Strings(d.warnings)),
             "checkpoints" := JArr(cps)])
  }

  /** A success record has exactly the fields of the output schema. */
  lemma SuccessRecordKeys(jobId: Json, params: Obj, d: Delivery, timings: Obj, cps: seq<Json>, dump: Obj -> Obj)
    requires jobId.JStr?
    ensures SuccessRecord(jobId, params, d, timings, cps, dump).value.Keys == SuccessKeys
  {
  }

  /** `_error_output`: the error details with the table's retryable flag. */
  function ErrorRecord(jobId: Json, code: string, message: string, atStage: string, e: Exc,
                       traceback: string, timings: Obj, cps: seq<Json>): (r: Obj)
    ensures r.Keys == {"job_id", "status", "error", "diagnostics", "timings", "checkpoints"}
    ensures r["status"] == JStr("error") && r["job_id"] == jobId && r["checkpoints"] == JArr(cps)
    ensures r["error"] == JObj(ErrorDetailsJson(BuildError(code, message, IsRetryable(code), Some(atStage), Some(e))))
  {
    map["job_id" := jobId, "status" := JStr("error"),
        "error" := JObj(ErrorDetailsJson(BuildError(code, message, IsRetryable(code), Some(atStage), Some(e)))),
        "diagnostics" := JObj(map["stderr_tail" := JStr(traceback)]),
        "timings" := JObj(timings), "checkpoints" := JArr(cps)]
  }

  /** A classified failure as an error record. */
  function FailureRecord(jobId: Json, e: Exc, traceback: string, timings: Obj, cps: seq<Json>): (r: Obj)
    ensures var c := Classify(e);
      r == ErrorRecord(jobId, c.code, c.message, c.atStage, e, traceback, timings, cps)
  {
    var c := Classify(e);
    ErrorRecord(jobId, c.code, c.message, c.atStage, e, traceback, timings, cps)
  }

  /** What one item meets: the wrapper's environment and collaborators, the upload, the
      clock of the checkpoints, the measured durations and the traceback text. */
  datatype ItemWorld = ItemWorld(env: Env, gen: World, upload: UploadWorld, clock: nat -> string,
                                 generationMs: int, totalMs: int, traceback: string)

  /** How far an item got: the number of checkpoints reached and the outcome. */
  datatype ItemRun = ItemRun(reached: nat, outcome: Result<Delivery, Exc>)

  /** `params.get("output_config") or {}`. */
  function ItemConfig(params: Obj): (r: Json)
    ensures Truthy(At(params, "output_config")) ==> r == params["output_config"]
    ensures !Truthy(At(params, "output_config")) ==> r == JObj(map[])
  {
    Or(At(params, "output_config"), JObj(map[]))
  }

  /** The stages of `_run_single_item` once `run_inference` has answered `inf`: five
      checkpoints before it; then two more, the delivery, and `completed`. Without an
      inference result the item stops after five checkpoints; a failed delivery after
      seven. */
  function StagesAfter(inf: Result<InferenceOutput, Exc>, params: Obj, uw: UploadWorld): (r: ItemRun)
    ensures r.reached == BeforeInference || r.reached == BeforeUpload || r.reached == |Checkpoints|
    ensures r.outcome.Ok? <==> r.reached == |Checkpoints|
  {
    match inf
    case Err(e) => ItemRun(BeforeInference, Err(e))
    case Ok(out) =>
      match Upload(ItemConfig(params), out.videoPath, "video/mp4", out.bytes, uw)
      case Err(e) => ItemRun(BeforeUpload, Err(e))
      case Ok(d) => ItemRun(|Checkpoints|, Ok(d))
  }

  /** The stages of `_run_single_item`. */
  function ItemStages(params: Obj, workdir: string, w: ItemWorld): (r: ItemRun)
    ensures r.outcome.Ok? <==> r.reached == |Checkpoints|
    ensures RunInference(params, workdir, w.env, w.gen).result.Err? ==>
      r.reached == BeforeInference && r.outcome == Err(RunInference(params, workdir, w.env, w.gen).result.error)
  {
    StagesAfter(RunInference(params, workdir, w.env, w.gen).result, params, w.upload)
  }

  /** The item stops after five checkpoints exactly when the inference failed, with its
      error; otherwise the outcome is the delivery of the muxed file. */
  lemma ItemStagesFacts(params: Obj, workdir: string, w: ItemWorld)
    ensures var r := ItemStages(params, workdir, w);
      var inf := RunInference(params, workdir, w.env, w.gen).result;
      && (r.reached == BeforeInference || r.reached == BeforeUpload || r.reached == |Checkpoints|)
      && (r.outcome.Ok? <==> r.reached == |Checkpoints|)
      && (r.reached == BeforeInference <==> inf.Err?)
      && (inf.Err? ==> r.outcome == Err(inf.error))
      && (inf.Ok? ==> r.outcome == Upload(ItemConfig(params), inf.value.videoPath, "video/mp4", inf.value.bytes, w.upload))
  {
  }

  /** The timings reported when an item stops after `reached` checkpoints. */
  function Timings(reached: nat, w: ItemWorld): (t: Obj)
    ensures reached == BeforeInference ==> t == map[]
    ensures reached == BeforeUpload ==> t.Keys == {"generation_ms"}
    ensures reached == |Checkpoints| ==> t.Keys == {"generation_ms", "total_ms"}
  {
    if reached == BeforeInference then map[]
    else if reached == BeforeUpload then map["generation_ms" := JInt(w.generationMs)]
    else map["generation_ms" := JInt(w.generationMs), "total_ms" := JInt(w.totalMs)]
  }

  /** The record of an item that went as far as `run`, with the given artifact dump: the
      success record when the delivery succeeded and the job id is a string (the schema
      rejects any other), and otherwise the classified failure with the checkpoints reached
      so far. */
  function RecordOf(jobId: Json, params: Obj, run: ItemRun, w: ItemWorld, dump: Obj -> Obj): (r: Obj)
    requires run.reached <= |Checkpoints|
    ensures "status" in r && "checkpoints" in r
    ensures r["checkpoints"] == JArr(CheckpointRecords(run.reached, w.clock))
    ensures r["status"] == JStr("success") <==> jobId.JStr? && run.outcome.Ok?
    ensures r["status"] == JStr("success") || r["status"] == JStr("error")
    ensures run.outcome.Err? ==>
      r == FailureRecord(jobId, run.outcome.error, w.traceback, Timings(run.reached, w), r["checkpoints"].items)
    ensures jobId.JStr? && run.outcome.Ok? ==>
      Ok(r) == SuccessRecord(jobId, params, run.outcome.value, Timings(run.reached, w), r["checkpoints"].items, dump)
  {
    var cps := CheckpointRecords(run.reached, w.clock);
    var t := Timings(run.reached, w);
    match run.outcome
    case Err(e) => FailureRecord(jobId, e, w.traceback, t, cps)
    case Ok(d) =>
      match SuccessRecord(jobId, params, d, t, cps, dump)
      case Ok(rec) => rec
      case Err(e) => FailureRecord(jobId, e, w.traceback, t, cps)
  }

  /** `_run_single_item` with the given artifact dump. */
  function ItemRecordWith(jobId: Json, params: Obj, workdir: string, w: ItemWorld, dump: Obj -> Obj): (r: Obj)
    ensures "status" in r && "checkpoints" in r
    ensures r["status"] == JStr("success") <==> jobId.JStr? && ItemStages(params, workdir, w).outcome.Ok?
  {
    RecordOf(jobId, params, ItemStages(params, workdir, w), w, dump)
  }

  /** `_run_single_item`, with artifacts dumped as the evident intent requires (keeping an
      inline `base64`). */
  function ItemRecord(jobId: Json, params: Obj, workdir: string, w: ItemWorld): (r: Obj)
    ensures "status" in r
    ensures r["status"] == JStr("success") <==> jobId.JStr? && ItemStages(params, workdir, w).outcome.Ok?
  {
    ItemRecordWith(jobId, params, workdir, w, DumpArtifact)
  }

  /** The two readings of `_run_single_item` differ only on success: a failed item's
      record is the same under both. */
  lemma ItemRecordFailureAsWritten(jobId: Json, params: Obj, workdir: string, w: ItemWorld)
    ensures ItemRecord(jobId, params, workdir, w)["status"] != JStr("success") ==>
      ItemRecord(jobId, params, workdir, w) == ItemRecordAsWritten(jobId, params, workdir, w)
  {
    RecordsAgreeOnFailure(jobId, params, ItemStages(params, workdir, w), w);
  }

  /** `_run_single_item` exactly as written: the output schema's dump drops the inline
      `base64` from the artifact; everything else is the same. */
  function ItemRecordAsWritten(jobId: Json, params: Obj, workdir: string, w: ItemWorld): (r: Obj)
    ensures "status" in r
    ensures r["status"] == JStr("success") <==> jobId.JStr? && ItemStages(params, workdir, w).outcome.Ok?
  {
    ItemRecordWith(jobId, params, workdir, w, DumpArtifactAsWritten)
  }

  /** A record reports success iff the delivery succeeded and the job id is a string, and
      then all eight checkpoints; a failure (with a string job id) stops after five or seven
      checkpoints and carries the classified code with its retryable flag. */
  lemma RecordFacts(jobId: Json, params: Obj, run: ItemRun, w: ItemWorld, dump: Obj -> Obj)
    requires run.reached == BeforeInference || run.reached == BeforeUpload || run.reached == |Checkpoints|
    requires run.outcome.Ok? <==> run.reached == |Checkpoints|
    ensures var r := RecordOf(jobId, params, run, w, dump);
      && (r["status"] == JStr("success") ==> r["checkpoints"] == JArr(CheckpointRecords(8, w.clock)))
      && (jobId.JStr? && r["status"] != JStr("success") ==>
            && r["status"] == JStr("error")
            && exists n :: (n == BeforeInference || n == BeforeUpload) && r["checkpoints"] == JArr(CheckpointRecords(n, w.clock)))
      && (run.outcome.Err? ==>
            && "error" in r && r["error"].JObj? && "code" in r["error"].fields && "retryable" in r["error"].fields
            && r["error"].fields["code"] == JStr(Classify(run.outcome.error).code)
            && r["error"].fields["retryable"] == JBool(IsRetryable(Classify(run.outcome.error).code)))
  {
    var r := RecordOf(jobId, params, run, w, dump);
    if jobId.JStr? && r["status"] != JStr("success") {
      assert (run.reached == BeforeInference || run.reached == BeforeUpload)
          && r["checkpoints"] == JArr(CheckpointRecords(run.reached, w.clock));
    }
  }

  /** The record as written differs from the corrected one only on success. */
  lemma RecordsAgreeOnFailure(jobId: Json, params: Obj, run: ItemRun, w: ItemWorld)
    requires run.reached <= |Checkpoints|
    ensures RecordOf(jobId, params, run, w, DumpArtifactAsWritten)["status"] != JStr("success") ==>
      RecordOf(jobId, params, run, w, DumpArtifactAsWritten) == RecordOf(jobId, params, run, w, DumpArtifact)
  {
  }

  /** A failed item never reports `completed`. */
  lemma FailedItemNeverCompleted(jobId: Json, params: Obj, run: ItemRun, w: ItemWorld, dump: Obj -> Obj)
    requires jobId.JStr?
    requires run.reached == BeforeInference || run.reached == BeforeUpload || run.reached == |Checkpoints|
    requires run.outcome.Ok? <==> run.reached == |Checkpoints|
    requires RecordOf(jobId, params, run, w, dump)["status"] != JStr("success")
    ensures var cps := RecordOf(jobId, params, run, w, dump)["checkpoints"].items;
      && |cps| < |Checkpoints|
      && forall i :: 0 <= i < |cps| ==> cps[i].JObj? && "event" in cps[i].fields && cps[i].fields["event"] != JStr("completed")
  {
    RecordFacts(jobId, params, run, w, dump);
    CheckpointTable();
  }

  /** With the inline store and a readable file, the delivery carries the base64 on its one
      artifact, and the inline warning. */
  lemma InlineDelivery(params: Obj, workdir: string, w: ItemWorld, b64: string)
    requires RunInference(params, workdir, w.env, w.gen).result.Ok?
    requires ItemConfig(params).JObj? && "video_url" !in ItemConfig(params).fields
    requires GetOr(ItemConfig(params).fields, "store", JStr("s3")) == JStr("inline")
    requires w.upload.inline == Some(b64)
    ensures InlineRun(ItemStages(params, workdir, w), b64)
  {
    InlineStages(RunInference(params, workdir, w.env, w.gen).result.value, params, w.upload, b64);
  }

  /** A completed run whose one artifact is the video without URL, carrying the inline
      payload, with the inline warning, and a summary without URL or payload. */
  predicate InlineRun(run: ItemRun, b64: string) {
    && run.reached == |Checkpoints| && run.outcome.Ok?
    && var d := run.outcome.value;
    && d.warnings == [InlineWarning] && |d.artifacts| == 1
    && "base64" in d.artifacts[0] && d.artifacts[0]["base64"] == JStr(b64)
    && At(d.artifacts[0], "type") == JStr("video") && At(d.artifacts[0], "url") == JNull
    && At(d.artifacts[0], "mime") == JStr("video/mp4")
    && At(d.video, "url") == JNull && "base64" !in d.video && "data" !in d.video
  }

  lemma InlineStages(out: InferenceOutput, params: Obj, uw: UploadWorld, b64: string)
    requires ItemConfig(params).JObj? && "video_url" !in ItemConfig(params).fields
    requires GetOr(ItemConfig(params).fields, "store", JStr("s3")) == JStr("inline")
    requires uw.inline == Some(b64)
    ensures InlineRun(StagesAfter(Ok(out), params, uw), b64)
  {
    var d := Upload(ItemConfig(params), out.videoPath, "video/mp4", out.bytes, uw).value;
    assert d.artifacts[0]["base64"] == JStr(b64);
  }

  /** The success record of an inline run, under either artifact dump: the inline warning,
      the one artifact as dumped, and the run's video summary. */
  lemma InlineRecord(jobId: string, params: Obj, run: ItemRun, w: ItemWorld, b64: string, dump: Obj -> Obj)
    requires InlineRun(run, b64)
    ensures var r := RecordOf(JStr(jobId), params, run, w, dump);
      && "warnings" in r && "artifacts" in r && "video" in r
      && r["warnings"] == JArr([JStr(InlineWarning)])
      && r["artifacts"] == JArr([JObj(dump(run.outcome.value.artifacts[0]))])
      && r["video"] == JObj(run.outcome.value.video)
  {
    var d := run.outcome.value;
    var rec := SuccessRecord(JStr(jobId), params, d, Timings(run.reached, w), CheckpointRecords(run.reached, w.clock), dump);
    assert Ok(RecordOf(JStr(jobId), params, run, w, dump)) == rec;
    assert Strings(d.warnings) == [JStr(InlineWarning)];
    assert Objects(d.artifacts, dump) == [JObj(dump(d.artifacts[0]))];
  }

  /** The shape of an inline success record that the UI reads: a video summary without URL
      or payload, and one video artifact (as dumped) without URL whose source carries the
      payload. */
  lemma InlineRecordShape(jobId: string, params: Obj, workdir: string, w: ItemWorld, b64: string, dump: Obj -> Obj)
    requires RunInference(params, workdir, w.env, w.gen).result.Ok?
    requires ItemConfig(params).JObj? && "video_url" !in ItemConfig(params).fields
    requires GetOr(ItemConfig(params).fields, "store", JStr("s3")) == JStr("inline")
    requires w.upload.inline == Some(b64)
    ensures var r := ItemRecordWith(JStr(jobId), params, workdir, w, dump);
      var a := ItemStages(params, workdir, w).outcome.value.artifacts[0];
      && "video" in r && r["video"].JObj? && At(r["video"].fields, "url") == JNull
      && "base64" !in r["video"].fields && "data" !in r["video"].fields
      && At(r, "artifacts") == JArr([JObj(dump(a))])
      && At(a, "type") == JStr("video") && At(a, "url") == JNull && At(a, "mime") == JStr("video/mp4")
      && At(a, "base64") == JStr(b64)
  {
    var run := ItemStages(params, workdir, w);
    InlineDelivery(params, workdir, w, b64);
    InlineRecord(jobId, params, run, w, b64, dump);
  }

  /** The finding: with the inline store and a readable file, the code as written warns that
      it returns inline base64 but the success record's artifact has no `base64`; the
      corrected record carries it. */
  lemma InlineBase64Dropped(jobId: string, params: Obj, workdir: string, w: ItemWorld, b64: string)
    requires RunInference(params, workdir, w.env, w.gen).result.Ok?
    requires ItemConfig(params).JObj? && "video_url" !in ItemConfig(params).fields
    requires GetOr(ItemConfig(params).fields, "store", JStr("s3")) == JStr("inline")
    requires w.upload.inline == Some(b64)
    ensures var r := ItemRecordAsWritten(JStr(jobId), params, workdir, w);
      && "warnings" in r && "artifacts" in r
      && r["warnings"] == JArr([JStr(InlineWarning)])
      && r["artifacts"].JArr? && |r["artifacts"].items| == 1 && r["artifacts"].items[0].JObj?
      && "base64" !in r["artifacts"].items[0].fields
    ensures var r := ItemRecord(JStr(jobId), params, workdir, w);
      && "warnings" in r && "artifacts" in r
      && r["warnings"] == JArr([JStr(InlineWarning)])
      && r["artifacts"].JArr? && |r["artifacts"].items| == 1 && r["artifacts"].items[0].JObj?
      && "base64" in r["artifacts"].items[0].fields
      && r["artifacts"].items[0].fields["base64"] == JStr(b64)
  {
    var run := ItemStages(params, workdir, w);
    InlineDelivery(params, workdir, w, b64);
    InlineRunDumps(jobId, params, run, w, b64);
  }

  lemma InlineRunDumps(jobId: string, params: Obj, run: ItemRun, w: ItemWorld, b64: string)
    requires InlineRun(run, b64)
    ensures var r := RecordOf(JStr(jobId), params, run, w, DumpArtifactAsWritten);
      && "warnings" in r && "artifacts" in r
      && r["warnings"] == JArr([JStr(InlineWarning)])
      && r["artifacts"].JArr? && |r["artifacts"].items| == 1 && r["artifacts"].items[0].JObj?
      && "base64" !in r["artifacts"].items[0].fields
    ensures var r := RecordOf(JStr(jobId), params, run, w, DumpArtifact);
      && "warnings" in r && "artifacts" in r
      && r["warnings"] == JArr([JStr(InlineWarning)])
      && r["artifacts"].JArr? && |r["artifacts"].items| == 1 && r["artifacts"].items[0].JObj?
      && "base64" in r["artifacts"].items[0].fields
      && r["artifacts"].items[0].fields["base64"] == JStr(b64)
  {
    InlineRecord(jobId, params, run, w, b64, DumpArtifactAsWritten);
    InlineRecord(jobId, params, run, w, b64, DumpArtifact);
    var a := run.outcome.value.artifacts[0];
    assert "base64" !in DumpArtifactAsWritten(a);
    assert DumpArtifact(a)["base64"] == JStr(b64);
  }

  /** `seed` chosen by the guard in `run`: a top-level `base_seed` that is an int (bools
      included) and not negative. */
  function SeedOf(normalized: Obj): (r: Option<int>)
    ensures r.Some? <==> "base_seed" in normalized && ((normalized["base_seed"].JInt? && normalized["base_seed"].i >= 0) || normalized["base_seed"].JBool?)
  {
    if "base_seed" !in normalized then None
    else match normalized["base_seed"]
      case JInt(i) => if i >= 0 then Some(i) else None
      case JBool(b) => Some(if b then 1 else 0)
      case _ => None
  }

  /** A normalized batch is never seeded. */
  lemma BatchNotSeeded(env: Obj, d: Defaults)
    requires NormalizeAndValidate(env, d).Ok?
    requires "input" in env && env["input"].JObj? && IsBatch(env["input"].fields)
    ensures SeedOf(NormalizeAndValidate(env, d).value).None?
  {
    NormalizeShape(env, d);
  }

  /** What a job meets: a fresh uuid, the traceback text of a validation failure, Python's
      `str` of a non-string job id, and the world of each item by index (index 0 for a
      single job). */
  datatype JobWorld = JobWorld(uuid: string, traceback: string, repr: Json -> string, items: nat -> ItemWorld)

  /** `job.get("id") or f"local-{uuid}"`. */
  function JobId(job: Obj, uuid: string): (r: Json)
    ensures Hashable(r) <==> !Truthy(At(job, "id")) || Hashable(job["id"])
    ensures Truthy(At(job, "id")) ==> r == job["id"]
    ensures !Truthy(At(job, "id")) ==> r == JStr("local-" + uuid)
  {
    Or(At(job, "id"), JStr("local-" + uuid))
  }

  /** `item.get("id") or f"item-{idx}"`. */
  function ItemId(item: Obj, idx: nat): (r: Json)
    ensures Truthy(At(item, "id")) ==> r == item["id"]
    ensures !Truthy(At(item, "id")) ==> r == JStr("item-" + NatToString(idx))
  {
    Or(At(item, "id"), JStr("item-" + NatToString(idx)))
  }

  /** `{"id": id, "result": result}`. */
  function Entry(id: Json, result: Obj): (r: Obj)
    ensures "id" in r && "result" in r && r["id"] == id && r["result"] == JObj(result)
  {
    map["id" := id, "result" := JObj(result)]
  }

  /** One batch entry: the item's id and its record under the given artifact dump,
      produced in the item's own work directory under the job's. */
  function BatchEntry(jobId: Json, item: Obj, idx: nat, base: string, w: JobWorld, dump: Obj -> Obj): (r: Obj)
    ensures "id" in r && "result" in r && r["id"] == ItemId(item, idx)
    ensures r["result"] == JObj(ItemRecordWith(jobId, item, JoinPath(base, PyStr(ItemId(item, idx), w.repr)), w.items(idx), dump))
  {
    var id := ItemId(item, idx);
    Entry(id, ItemRecordWith(jobId, item, JoinPath(base, PyStr(id, w.repr)), w.items(idx), dump))
  }

  const NoGetMessage: string := "object has no attribute 'get'"

  /** The batch loop: one entry per item, in order. A non-dict item raises
      AttributeError out of `run` (the entries before it are lost with the exception). */
  function RunBatch(jobId: Json, items: seq<Json>, base: string, w: JobWorld, dump: Obj -> Obj): (r: Result<seq<Obj>, Exc>)
    ensures r.Ok? <==> forall i :: 0 <= i < |items| ==> items[i].JObj?
    ensures r.Ok? ==> |r.value| == |items|
    ensures r.Ok? ==> forall i :: 0 <= i < |items| ==> r.value[i] == BatchEntry(jobId, items[i].fields, i, base, w, dump)
    ensures r.Err? ==> r == Err(Exc(AttributeError, NoGetMessage))
  {
    if forall i :: 0 <= i < |items| ==> items[i].JObj? then Ok(Entries(jobId, items, base, w, dump))
    else Err(Exc(AttributeError, NoGetMessage))
  }

  /** The entries of a batch whose items are all dicts, in item order. */
  function Entries(jobId: Json, items: seq<Json>, base: string, w: JobWorld, dump: Obj -> Obj): (r: seq<Obj>)
    requires forall i :: 0 <= i < |items| ==> items[i].JObj?
    ensures |r| == |items|
    ensures forall i :: 0 <= i < |items| ==> r[i] == BatchEntry(jobId, items[i].fields, i, base, w, dump)
  {
    seq(|items|, i requires 0 <= i < |items| => BatchEntry(jobId, items[i].fields, i, base, w, dump))
  }

  /** Whether an entry's record reports success. */
  predicate EntrySucceeded(entry: Obj) {
    "result" in entry && entry["result"].JObj? && At(entry["result"].fields, "status") == JStr("success")
  }

  /** The batch status: "success" iff every item's record says success, else "partial". */
  function BatchStatus(results: seq<Obj>): (s: string)
    ensures s == "success" <==> forall i :: 0 <= i < |results| ==> EntrySucceeded(results[i])
    ensures s == "success" || s == "partial"
  {
    if forall i :: 0 <= i < |results| ==> EntrySucceeded(results[i]) then "success" else "partial"
  }

  function ObjList(os: seq<Obj>): (r: seq<Json>)
    ensures |r| == |os| && forall i :: 0 <= i < |os| ==> r[i] == JObj(os[i])
  {
    seq(|os|, i requires 0 <= i < |os| => JObj(os[i]))
  }

  /** The batch answer: the entries in order and the aggregate status. */
  function BatchRecord(jobId: Json, results: seq<Obj>): (r: Obj)
    ensures "job_id" in r && "status" in r && "items" in r && r["job_id"] == jobId
    ensures r["items"] == JArr(ObjList(results))
    ensures r["status"] == JStr("success") <==> forall i :: 0 <= i < |results| ==> EntrySucceeded(results[i])
  {
    map["job_id" := jobId, "status" := JStr(BatchStatus(results)), "items" := JArr(ObjList(results))]
  }

  /** `run` with item records dumped by `dump`: the answer depends on the envelope only
      through the job id and the outcome of normalization. */
  function RunWith(job: Obj, d: Defaults, w: JobWorld, dump: Obj -> Obj): (r: Result<Obj, Exc>)
    ensures !Hashable(JobId(job, w.uuid)) ==> r == Err(UnhashableError(JobId(job, w.uuid)))
    ensures Hashable(JobId(job, w.uuid)) && NormalizeAndValidate(job, d).Err? ==>
      r == Ok(InvalidRecord(JobId(job, w.uuid), NormalizeAndValidate(job, d).error, w.traceback))
    ensures r.Err? ==>
      !Hashable(JobId(job, w.uuid)) || (NormalizeAndValidate(job, d).Ok? && "batch" in NormalizeAndValidate(job, d).value)
  {
    var jobId := JobId(job, w.uuid);
    // `get_logger(cid, job_id)` looks the id up in the logger registry before anything else
    if !Hashable(jobId) then Err(UnhashableError(jobId))
    else RunNormalized(jobId, NormalizeAndValidate(job, d), w, dump)
  }

  /** `run` as written: every success record goes through the output schema's dump, which
      drops an inline artifact's `base64`. */
  function Run(job: Obj, d: Defaults, w: JobWorld): (r: Result<Obj, Exc>)
    ensures !Hashable(JobId(job, w.uuid)) ==> r == Err(UnhashableError(JobId(job, w.uuid)))
    ensures Hashable(JobId(job, w.uuid)) && NormalizeAndValidate(job, d).Err? ==>
      r == Ok(InvalidRecord(JobId(job, w.uuid), NormalizeAndValidate(job, d).error, w.traceback))
    ensures r.Err? ==>
      !Hashable(JobId(job, w.uuid)) || (NormalizeAndValidate(job, d).Ok? && "batch" in NormalizeAndValidate(job, d).value)
  {
    RunWith(job, d, w, DumpArtifactAsWritten)
  }

  /** `run` with the corrected dump that keeps an inline artifact's `base64`: it raises
      exactly when `run` as written does, with the same exception. */
  function RunCorrected(job: Obj, d: Defaults, w: JobWorld): (r: Result<Obj, Exc>)
    ensures r.Err? <==> Run(job, d, w).Err?
    ensures r.Err? ==> r.error == Run(job, d, w).error
  {
    DumpKeepsErrors(job, d, w, DumpArtifact, DumpArtifactAsWritten);
    RunWith(job, d, w, DumpArtifact)
  }

  /** The artifact dump only shapes success records: whether `run` raises, and what, does
      not depend on it. */
  lemma DumpKeepsErrors(job: Obj, d: Defaults, w: JobWorld, dump1: Obj -> Obj, dump2: Obj -> Obj)
    ensures RunWith(job, d, w, dump1).Err? <==> RunWith(job, d, w, dump2).Err?
    ensures RunWith(job, d, w, dump1).Err? ==> RunWith(job, d, w, dump1).error == RunWith(job, d, w, dump2).error
  {
    var jobId, nv := JobId(job, w.uuid), NormalizeAndValidate(job, d);
    if Hashable(jobId) && nv.Ok? && "batch" in nv.value && nv.value["batch"].JArr? {
      var items, base := nv.value["batch"].items, JobDir(jobId, w.repr);
      assert RunWith(job, d, w, dump1) == RunNormalized(jobId, nv, w, dump1);
      assert RunWith(job, d, w, dump2) == RunNormalized(jobId, nv, w, dump2);
      assert RunBatch(jobId, items, base, w, dump1).Err? <==> RunBatch(jobId, items, base, w, dump2).Err?;
    }
  }

  /** The E_INPUT_VALIDATION record of an envelope the validator refused. */
  function InvalidRecord(jobId: Json, e: Exc, traceback: string): (r: Obj)
    ensures "status" in r && "checkpoints" in r && "job_id" in r
    ensures r["status"] == JStr("error") && r["checkpoints"] == JArr([]) && r["job_id"] == jobId
    ensures "error" in r && r["error"].JObj? && var err := r["error"].fields;
      && "code" in err && "retryable" in err && "at_stage" in err && "message" in err
      && err["code"] == JStr("E_INPUT_VALIDATION") && err["retryable"] == JBool(false)
      && err["at_stage"] == JStr("validate") && err["message"] == JStr("Invalid input: " + e.message)
  {
    ErrorRecord(jobId, "E_INPUT_VALIDATION", "Invalid input: " + e.message, "validate", e, traceback, map[], [])
  }

  /** `run` once the envelope is normalized: an invalid envelope gives its
      E_INPUT_VALIDATION record with no checkpoints; a batch gives one result per item in
      order with the aggregate status; a single input gives its item record. `Err` is an
      exception escaping `run` itself. */
  function RunNormalized(jobId: Json, nv: Result<Obj, Exc>, w: JobWorld, dump: Obj -> Obj): (r: Result<Obj, Exc>)
    ensures nv.Err? ==> r == Ok(InvalidRecord(jobId, nv.error, w.traceback))
  {
    match nv
    case Err(e) => Ok(InvalidRecord(jobId, e, w.traceback))
    case Ok(normalized) =>
      var base := JobDir(jobId, w.repr);
      if "batch" in normalized then
        match normalized["batch"]
        case JArr(items) =>
          var results :- RunBatch(jobId, items, base, w, dump);
          Ok(BatchRecord(jobId, results))
        case _ => Err(Exc(TypeError, "object is not iterable"))
      else Ok(ItemRecordWith(jobId, normalized, base, w.items(0), dump))
  }

  /** Invalid input is answered without running any item: code E_INPUT_VALIDATION, not
      retryable, stage "validate", no checkpoints; a list or dict job id raises TypeError
      from the logger registry before validation. */
  lemma InvalidInputRecord(job: Obj, d: Defaults, w: JobWorld)
    requires NormalizeAndValidate(job, d).Err?
    ensures var r := Run(job, d, w);
      && (Hashable(JobId(job, w.uuid)) ==>
            r.Ok? && r.value == InvalidRecord(JobId(job, w.uuid), NormalizeAndValidate(job, d).error, w.traceback))
      && (!Hashable(JobId(job, w.uuid)) ==> r.Err? && r.error.kind == TypeError)
  {
    var jobId, nv := JobId(job, w.uuid), NormalizeAndValidate(job, d);
    if Hashable(jobId) {
      assert Run(job, d, w) == RunNormalized(jobId, nv, w, DumpArtifactAsWritten);
    }
  }

  /** The work directory of a job. */
  function JobDir(jobId: Json, repr: Json -> string): (r: string)
    ensures jobId.JStr? ==> r == "/tmp/job-" + jobId.s
  {
    JoinPath("/tmp", "job-" + PyStr(jobId, repr))
  }

  /** The normalized items of a valid batch all run, each with the defaults applied. */
  lemma BatchResults(job: Obj, d: Defaults, w: JobWorld)
    requires NormalizeAndValidate(job, d).Ok?
    requires "input" in job && job["input"].JObj? && IsBatch(job["input"].fields)
    ensures var raw := job["input"].fields["batch"].items;
      var jobId := JobId(job, w.uuid);
      var n := NormalizeAndValidate(job, d).value;
      && "batch" in n && n["batch"].JArr?
      && var results := RunBatch(jobId, n["batch"].items, JobDir(jobId, w.repr), w, DumpArtifactAsWritten);
      && results.Ok? && |results.value| == |raw|
      && forall i :: 0 <= i < |raw| ==>
           && raw[i].JObj?
           && results.value[i] == BatchEntry(jobId, ApplyDefaults(raw[i].fields, d), i, JobDir(jobId, w.repr), w, DumpArtifactAsWritten)
  {
    NormalizeShape(job, d);
    var raw := job["input"].fields["batch"].items;
    var items := NormalizeAndValidate(job, d).value["batch"].items;
    assert forall i :: 0 <= i < |items| ==> items[i] == JObj(ApplyDefaults(raw[i].fields, d));
    var jobId := JobId(job, w.uuid);
    var results := RunBatch(jobId, items, JobDir(jobId, w.repr), w, DumpArtifactAsWritten);
    assert results.Ok? && |results.value| == |raw|;
  }

  /** A valid batch job is answered with the batch record of its entries: together with
      `BatchResults` and `BatchRecord`, one entry per input item in input order, and the
      status "success" iff every item succeeded. */
  lemma BatchAggregation(job: Obj, d: Defaults, w: JobWorld)
    requires NormalizeAndValidate(job, d).Ok?
    requires "input" in job && job["input"].JObj? && IsBatch(job["input"].fields)
    ensures var jobId := JobId(job, w.uuid);
      var n := NormalizeAndValidate(job, d).value;
      && "batch" in n && n["batch"].JArr?
      && var results := RunBatch(jobId, n["batch"].items, JobDir(jobId, w.repr), w, DumpArtifactAsWritten);
      && results.Ok?
      && (Hashable(jobId) ==> Run(job, d, w) == Ok(BatchRecord(jobId, results.value)))
      && (!Hashable(jobId) ==> Run(job, d, w) == Err(UnhashableError(jobId)))
  {
    BatchResults(job, d, w);
    BatchAnswer(JobId(job, w.uuid), NormalizeAndValidate(job, d).value, w, DumpArtifactAsWritten);
  }

  /** A normalized batch runs every item, and a non-dict item escapes as the batch loop's
      exception. */
  lemma BatchAnswer(jobId: Json, n: Obj, w: JobWorld, dump: Obj -> Obj)
    requires "batch" in n && n["batch"].JArr?
    ensures var results := RunBatch(jobId, n["batch"].items, JobDir(jobId, w.repr), w, dump);
      RunNormalized(jobId, Ok(n), w, dump) == if results.Ok? then Ok(BatchRecord(jobId, results.value)) else Err(results.error)
  {
  }

  /** A normalized single input is answered with its item record as written, run in the
      job's directory with the world of item 0. */
  lemma SingleAnswer(job: Obj, d: Defaults, w: JobWorld)
    requires NormalizeAndValidate(job, d).Ok? && "batch" !in NormalizeAndValidate(job, d).value
    ensures var jobId := JobId(job, w.uuid);
      && (Hashable(jobId) ==>
            Run(job, d, w) == Ok(ItemRecordAsWritten(jobId, NormalizeAndValidate(job, d).value, JobDir(jobId, w.repr), w.items(0))))
      && (!Hashable(jobId) ==> Run(job, d, w) == Err(UnhashableError(jobId)))
  {
  }

  /** The finding end to end: a single job with a string id, the inline store and a readable
      file is answered by `run` as written with the inline warning but an artifact without
      `base64`; the corrected `run` answers with the payload on the artifact. */
  lemma InlineRunAnswer(job: Obj, d: Defaults, w: JobWorld, b64: string)
    requires NormalizeAndValidate(job, d).Ok? && "batch" !in NormalizeAndValidate(job, d).value
    requires JobId(job, w.uuid).JStr?
    requires var n := NormalizeAndValidate(job, d).value;
      && RunInference(n, JobDir(JobId(job, w.uuid), w.repr), w.items(0).env, w.items(0).gen).result.Ok?
      && ItemConfig(n).JObj? && "video_url" !in ItemConfig(n).fields
      && GetOr(ItemConfig(n).fields, "store", JStr("s3")) == JStr("inline")
      && w.items(0).upload.inline == Some(b64)
    ensures Run(job, d, w).Ok? && var r := Run(job, d, w).value;
      && "warnings" in r && "artifacts" in r
      && r["warnings"] == JArr([JStr(InlineWarning)])
      && r["artifacts"].JArr? && |r["artifacts"].items| == 1 && r["artifacts"].items[0].JObj?
      && "base64" !in r["artifacts"].items[0].fields
    ensures RunCorrected(job, d, w).Ok? && var r := RunCorrected(job, d, w).value;
      && "warnings" in r && "artifacts" in r
      && r["warnings"] == JArr([JStr(InlineWarning)])
      && r["artifacts"].JArr? && |r["artifacts"].items| == 1 && r["artifacts"].items[0].JObj?
      && "base64" in r["artifacts"].items[0].fields
      && r["artifacts"].items[0].fields["base64"] == JStr(b64)
  {
    var jobId, n := JobId(job, w.uuid), NormalizeAndValidate(job, d).value;
    var dir := JobDir(jobId, w.repr);
    SingleAnswer(job, d, w);
    assert RunCorrected(job, d, w) == RunNormalized(jobId, Ok(n), w, DumpArtifact);
    assert RunCorrected(job, d, w) == Ok(ItemRecord(jobId, n, dir, w.items(0)));
    InlineBase64Dropped(jobId.s, n, dir, w.items(0), b64);
  }

  /** An envelope-level `output_config` on a batch has no effect on what the items do: the
      job's answer is the same without it. */
  lemma EnvelopeOutputConfigIgnored(job: Obj, d: Defaults, w: JobWorld, cfg: Json)
    requires "input" in job && job["input"].JObj? && IsBatch(job["input"].fields)
    requires "output_config" !in job["input"].fields
    ensures var job2 := job["input" := JObj(job["input"].fields["output_config" := cfg])];
      Run(job2, d, w) == Run(job, d, w)
  {
    var job2 := job["input" := JObj(job["input"].fields["output_config" := cfg])];
    var jobId := JobId(job, w.uuid);
    assert JobId(job2, w.uuid) == jobId;
    EnvelopeConfigNormalized(job, d, cfg);
    var a, b := NormalizeAndValidate(job2, d), NormalizeAndValidate(job, d);
    if b.Ok? {
      BatchAnswerReadsItems(jobId, a.value, b.value, w, DumpArtifactAsWritten);
    }
  }

  /** Normalization carries an envelope-level `output_config` of a batch along, but the
      verdict and the normalized items are those of the batch without it. */
  lemma EnvelopeConfigNormalized(job: Obj, d: Defaults, cfg: Json)
    requires "input" in job && job["input"].JObj? && IsBatch(job["input"].fields)
    requires "output_config" !in job["input"].fields
    ensures var job2 := job["input" := JObj(job["input"].fields["output_config" := cfg])];
      var a, b := NormalizeAndValidate(job2, d), NormalizeAndValidate(job, d);
      && (a.Ok? <==> b.Ok?)
      && (b.Err? ==> a == b)
      && (b.Ok? ==> "batch" in a.value && "batch" in b.value && a.value["batch"] == b.value["batch"])
  {
    var payload := job["input"].fields;
    var job2 := job["input" := JObj(payload["output_config" := cfg])];
    assert ValidateEnvelope(job2).Ok? <==> ValidateEnvelope(job).Ok?;
  }

  /** A normalized batch is answered from its items alone. */
  lemma BatchAnswerReadsItems(jobId: Json, n1: Obj, n2: Obj, w: JobWorld, dump: Obj -> Obj)
    requires "batch" in n1 && "batch" in n2 && n1["batch"] == n2["batch"]
    ensures RunNormalized(jobId, Ok(n1), w, dump) == RunNormalized(jobId, Ok(n2), w, dump)
  {
  }
}

=== FILE: logging_utils.dfy ===
/** Structured JSON log records (worker/logging_utils.py): the record shape, level
    normalisation, the memoising logger registry and the events of a timed stage.
    Timestamps, latencies and fresh uuids are parameters. */
module LoggingUtils {
  import opened Wrappers
  import opened Text
  import opened PyJson

  /** A logger: its correlation id and the job id it was first registered with. */
  datatype Logger = Logger(cid: string, jobId: Option<string>)

  /** `JsonLogger(correlation_id, job_id)`: without a correlation id a fresh uuid is used. */
  function NewLogger(correlationId: Option<string>, jobId: Option<string>, freshId: string): (l: Logger)
    ensures OptTruthy(correlationId) ==> l.cid == correlationId.value
    ensures !OptTruthy(correlationId) ==> l.cid == freshId
    ensures l.jobId == jobId
  {
    Logger(if OptTruthy(correlationId) then correlationId.value else freshId, jobId)
  }

  const Levels: set<string> := {"INFO", "WARN", "ERROR"}

  /** `_emit`: `ts`, `level`, `cid` and `event` always; `job_id` only when truthy; `data`
      and `lat_ms` only when given. */
  function Emit(l: Logger, level: string, event: string, data: Option<Obj>, latMs: Option<int>, ts: string): (rec: Obj)
    ensures {"ts", "level", "cid", "event"} <= rec.Keys
    ensures rec["ts"] == JStr(ts) && rec["level"] == JStr(level) && rec["cid"] == JStr(l.cid) && rec["event"] == JStr(event)
    ensures "job_id" in rec <==> OptTruthy(l.jobId)
    ensures "job_id" in rec ==> rec["job_id"] == JStr(l.jobId.value)
    ensures "data" in rec <==> data.Some?
    ensures data.Some? ==> rec["data"] == JObj(data.value)
    ensures "lat_ms" in rec <==> latMs.Some?
    ensures latMs.Some? ==> rec["lat_ms"] == JInt(latMs.value)
    ensures rec.Keys <= {"ts", "level", "cid", "job_id", "event", "data", "lat_ms"}
  {
    var base := map["ts" := JStr(ts), "level" := JStr(level), "cid" := JStr(l.cid), "event" := JStr(event)];
    var withJob := if OptTruthy(l.jobId) then base["job_id" := JStr(l.jobId.value)] else base;
    var withData := if data.Some? then withJob["data" := JObj(data.value)] else withJob;
    if latMs.Some? then withData["lat_ms" := JInt(latMs.value)] else withData
  }

  /** `log_event`'s level: upper-cased, and INFO for anything outside INFO/WARN/ERROR. */
  function NormalizeLevel(level: string): (r: string)
    ensures r in Levels
    ensures Upper(level) in Levels ==> r == Upper(level)
    ensures Upper(level) !in Levels ==> r == "INFO"
  {
    var up := Upper(level);
    if up in Levels then up else "INFO"
  }

  /** `log_event`: a record at the normalised level. */
  function LogEvent(l: Logger, level: string, event: string, data: Option<Obj>, ts: string): (rec: Obj)
    ensures At(rec, "level") == JStr(NormalizeLevel(level)) && At(rec, "event") == JStr(event)
    ensures "lat_ms" !in rec
  {
    Emit(l, NormalizeLevel(level), event, data, None, ts)
  }

  /** The level is case-insensitive for the three known levels. */
  lemma LevelCaseInsensitive(level: string)
    requires Lower(level) == "warn"
    ensures NormalizeLevel(level) == "WARN"
  {
    var up := Upper(level);
    assert |level| == 4;
    forall i | 0 <= i < 4 ensures up[i] == "WARN"[i] {
      assert LowerChar(level[i]) == "warn"[i];
    }
    assert up == "WARN";
  }

  /** The registry of loggers by correlation id. */
  type Registry = map<string, Logger>

  /** `get_logger`: cid is the correlation id, else the job id, else a fresh uuid; the
      logger registered under that cid is reused, otherwise one is created and registered. */
  function GetLogger(reg: Registry, correlationId: Option<string>, jobId: Option<string>, freshId: string)
    : (r: (Registry, Logger))
    ensures var cid := if OptTruthy(correlationId) then correlationId.value
                       else if OptTruthy(jobId) then jobId.value else freshId;
      && (WellKeyed(reg) ==> WellKeyed(r.0) && r.1.cid == cid)
      && (cid in reg ==> r.1 == reg[cid] && r.0 == reg)
      && (cid !in reg ==> r.1 == Logger(cid, jobId) && r.0 == reg[cid := r.1])
  {
    var cid := if OptTruthy(correlationId) then correlationId.value
               else if OptTruthy(jobId) then jobId.value else freshId;
    if cid in reg then (reg, reg[cid])
    else var l := Logger(cid, jobId); (reg[cid := l], l)
  }

  /** Registered loggers are keyed by their own cid. */
  predicate WellKeyed(reg: Registry) {
    forall c :: c in reg ==> reg[c].cid == c
  }

  /** Asking twice for the same cid returns the same logger, with the job id of the first
      registration, and keeps the registry well keyed. */
  lemma GetLoggerMemoised(reg: Registry, cid: string, job1: Option<string>, job2: Option<string>, id1: string, id2: string)
    requires WellKeyed(reg)
    requires cid != ""
    ensures var (reg1, l1) := GetLogger(reg, Some(cid), job1, id1);
      var (reg2, l2) := GetLogger(reg1, Some(cid), job2, id2);
      && WellKeyed(reg1) && WellKeyed(reg2)
      && l2 == l1 && reg2 == reg1
      && (cid !in reg ==> l1.jobId == job1)
  {
  }

  /** How the body of a timed stage ended: normally, or by raising. */
  datatype Outcome = Normal | Raised(exc: Exc)

  /** `timeit_stage`: `event` on entry; on normal exit `log_ok_event` (or `<event>_ok`) with
      the latency in its data; on an exception a `stage_error` record naming the stage,
      after which the same exception is re-raised. */
  function TimeitStage(l: Logger, event: string, dataStart: Option<Obj>, logOkEvent: Option<string>,
                       outcome: Outcome, latMs: int, tsStart: string, tsEnd: string)
    : (r: (seq<Obj>, Option<Exc>))
    ensures |r.0| == 2
    ensures At(r.0[0], "event") == JStr(event) && At(r.0[0], "level") == JStr("INFO")
    ensures outcome.Normal? ==>
      && r.1.None? && At(r.0[1], "level") == JStr("INFO")
      && At(r.0[1], "event") == JStr(if OptTruthy(logOkEvent) then logOkEvent.value else event + "_ok")
      && At(r.0[1], "data") == JObj(map["lat_ms" := JInt(latMs)])
    ensures outcome.Raised? ==>
      && r.1 == Some(outcome.exc) && At(r.0[1], "level") == JStr("ERROR")
      && At(r.0[1], "event") == JStr("stage_error")
      && At(r.0[1], "data") == JObj(map["at_stage" := JStr(event), "exc" := JStr(KindName(outcome.exc.kind)),
                                    "message" := JStr(outcome.exc.message), "lat_ms" := JInt(latMs)])
  {
    var enter := Emit(l, "INFO", event, dataStart, None, tsStart);
    match outcome
    case Normal =>
      var okEvent := if OptTruthy(logOkEvent) then logOkEvent.value else event + "_ok";
      ([enter, Emit(l, "INFO", okEvent, Some(map["lat_ms" := JInt(latMs)]), None, tsEnd)], None)
    case Raised(e) =>
      var data := map["at_stage" := JStr(event), "exc" := JStr(KindName(e.kind)),
                      "message" := JStr(e.message), "lat_ms" := JInt(latMs)];
      ([enter, Emit(l, "ERROR", "stage_error", Some(data), None, tsEnd)], Some(e))
  }
}

=== FILE: param_widgets.dfy ===
/** The UI's parameter form (ui/param_widgets.py) as a function of the widgets' value map:
    falsy values fall back to defaults, the quantisation choice "none" means no
    quantisation, and a range check runs before the payload is handed on. */
module ParamWidgets {
  import opened Wrappers
  import opened Text
  import opened PyJson
  import Validator

  /** `_multiple_of_8`. */
  function MultipleOf8(v: int): (r: bool)
    ensures r <==> exists k :: EightTimes(k) == v
  {
    if v % 8 == 0 then assert EightTimes(v / 8) == v; true
    else EightTimesRemainder(v); false
  }

  function EightTimes(k: int): (r: int) { 8 * k }

  /** No multiple of eight leaves a remainder. */
  lemma EightTimesRemainder(v: int)
    requires v % 8 != 0
    ensures forall k :: EightTimes(k) != v
  {
    forall k ensures EightTimes(k) % 8 == 0 {
    }
  }

  /** `_sanitize_quant`: a string that lower-cases to "none" becomes None; every other value
      is kept. */
  function SanitizeQuant(v: Json): (r: Json)
    ensures v.JStr? && Lower(v.s) == "none" ==> r == JNull
    ensures !(v.JStr? && Lower(v.s) == "none") ==> r == v
  {
    if v.JStr? && Lower(v.s) == "none" then JNull else v
  }

  /** Sanitising twice is sanitising once, and the capitalised spelling is recognised. */
  lemma SanitizeQuantIdempotent(v: Json)
    ensures SanitizeQuant(SanitizeQuant(v)) == SanitizeQuant(v)
    ensures SanitizeQuant(JStr("None")) == JNull && SanitizeQuant(JStr("NONE")) == JNull
    ensures SanitizeQuant(JStr("int8")) == JStr("int8")
  {
    assert Lower("None") == "none";
    assert Lower("NONE") == "none";
    assert Lower("int8") != "none" by { assert Lower("int8")[0] == 'i'; }
  }

  /** The outcome of `_validate_ranges`: accepted, or the first failing rule's message. */
  datatype Verdict = Verdict(ok: bool, message: string)

  const FrameNumMessage: string := "frame_num must be 4n+1 and positive."
  const StepsMessage: string := "sample_steps must be within [1, 1000]."
  const ColorMessage: string := "color_correction_strength must be within [0.0, 1.0]."
  const QuantMessage: string := "quant_dir must be provided when quant is set."

  /** The quantisation rule: a quant choice needs a truthy quant_dir. */
  predicate QuantOk(payload: Obj) {
    At(payload, "quant") == JNull || Truthy(At(payload, "quant_dir"))
  }

  /** `_validate_ranges`: `frame_num` (default 81), then `sample_steps` (default 40) in
      [1, 1000], then `color_correction_strength` (default 1.0) in [0, 1], then the
      quantisation rule; the first failure's message, else `(True, "")`. A value `int()` or
      `float()` cannot convert raises. */
  function ValidateRanges(payload: Obj): (r: Result<Verdict, Exc>)
    ensures r.Ok? ==> (r.value.ok <==> r.value.message == "")
    ensures r.Ok? ==>
      && PyInt(GetOr(payload, "frame_num", JInt(81))).Ok?
      && var f := PyInt(GetOr(payload, "frame_num", JInt(81))).value;
      && (r.value.message == FrameNumMessage <==> !Validator.FrameNumOk(f))
      && (Validator.FrameNumOk(f) ==> PyInt(GetOr(payload, "sample_steps", JInt(40))).Ok?)
    ensures r.Ok? && r.value.ok ==>
      && PyInt(GetOr(payload, "sample_steps", JInt(40))).Ok?
      && 1 <= PyInt(GetOr(payload, "sample_steps", JInt(40))).value <= 1000
      && PyFloat(GetOr(payload, "color_correction_strength", JNum(1.0))).Ok?
      && 0.0 <= PyFloat(GetOr(payload, "color_correction_strength", JNum(1.0))).value <= 1.0
      && QuantOk(payload)
    ensures r.Ok? && r.value.message == QuantMessage ==> !QuantOk(payload)
  {
    var f :- PyInt(GetOr(payload, "frame_num", JInt(81)));
    if !(f > 0 && (f - 1) % 4 == 0) then Ok(Verdict(false, FrameNumMessage))
    else
      var steps :- PyInt(GetOr(payload, "sample_steps", JInt(40)));
      if !(1 <= steps <= 1000) then Ok(Verdict(false, StepsMessage))
      else
        var cc :- PyFloat(GetOr(payload, "color_correction_strength", JNum(1.0)));
        if !(0.0 <= cc <= 1.0) then Ok(Verdict(false, ColorMessage))
        else if At(payload, "quant") != JNull && !Truthy(At(payload, "quant_dir")) then Ok(Verdict(false, QuantMessage))
        else Ok(Verdict(true, ""))
  }

  /** The rules run in order: with an acceptable `frame_num`, acceptable steps and colour
      correction, the verdict is decided by the quantisation rule alone. */
  lemma ValidateRangesOrder(payload: Obj, f: int, steps: int, cc: real)
    requires GetOr(payload, "frame_num", JInt(81)) == JInt(f) && Validator.FrameNumOk(f)
    requires GetOr(payload, "sample_steps", JInt(40)) == JInt(steps) && 1 <= steps <= 1000
    requires GetOr(payload, "color_correction_strength", JNum(1.0)) == JNum(cc) && 0.0 <= cc <= 1.0
    ensures ValidateRanges(payload) == Ok(if QuantOk(payload) then Verdict(true, "") else Verdict(false, QuantMessage))
  {
  }

  /** An empty payload passes: every default is in range. */
  lemma DefaultsPass()
    ensures ValidateRanges(map[]) == Ok(Verdict(true, ""))
  {
    assert (81 - 1) % 4 == 0;
  }

  /** `int(values.get(k) or dflt)`. */
  function IntOr(values: Obj, k: string, dflt: int): (r: Result<Json, Exc>)
    ensures r.Ok? ==> r.value.JInt?
    ensures !Truthy(At(values, k)) ==> r == Ok(JInt(dflt))
    ensures Truthy(At(values, k)) ==> (r.Ok? <==> PyInt(values[k]).Ok?)
    ensures Truthy(At(values, k)) && r.Ok? ==> r.value == JInt(PyInt(values[k]).value)
  {
    var n :- PyInt(Or(At(values, k), JInt(dflt)));
    Ok(JInt(n))
  }

  /** `float(values.get(k) or dflt)`. */
  function FloatOr(values: Obj, k: string, dflt: real): (r: Result<Json, Exc>)
    ensures r.Ok? ==> r.value.JNum?
    ensures !Truthy(At(values, k)) ==> r == Ok(JNum(dflt))
    ensures Truthy(At(values, k)) ==> (r.Ok? <==> PyFloat(values[k]).Ok?)
    ensures Truthy(At(values, k)) && r.Ok? ==> r.value == JNum(PyFloat(values[k]).value)
  {
    var x :- PyFloat(Or(At(values, k), JNum(dflt)));
    Ok(JNum(x))
  }

  /** `bool(values.get(k))`. */
  function BoolOf(values: Obj, k: string): (r: Json)
    ensures r == JBool(Truthy(At(values, k)))
  {
    JBool(Truthy(At(values, k)))
  }

  /** The `output_config` the form sends: the store as chosen, empty bucket, region and
      prefix as None. */
  function OutputConfig(values: Obj): (r: Obj)
    ensures r.Keys == {"store", "bucket", "region", "prefix"}
    ensures r["store"] == At(values, "output.store")
    ensures r["bucket"] == Or(At(values, "output.bucket"), JNull)
    ensures r["region"] == Or(At(values, "output.region"), JNull)
    ensures r["prefix"] == Or(At(values, "output.prefix"), JNull)
  {
    map["store" := At(values, "output.store"),
        "bucket" := Or(At(values, "output.bucket"), JNull),
        "region" := Or(At(values, "output.region"), JNull),
        "prefix" := Or(At(values, "output.prefix"), JNull)]
  }

  /** The generation fields with the form's fallbacks, converted in the order the payload
      literal lists them (the first failing conversion raises). */
  datatype Numbers = Numbers(frameNum: Json, maxFrameNum: Json, steps: Json, textScale: Json, audioScale: Json,
                             motionFrame: Json, cc: Json, teacacheThresh: Json, apgMomentum: Json,
                             apgNorm: Json, seed: Json, persistent: Json)

  /** Every numeric widget value converts. */
  predicate AllConvert(values: Obj) {
    && IntOr(values, "frame_num", 81).Ok? && IntOr(values, "max_frame_num", 1000).Ok?
    && IntOr(values, "sample_steps", 40).Ok? && FloatOr(values, "sample_text_guide_scale", 5.0).Ok?
    && FloatOr(values, "sample_audio_guide_scale", 4.0).Ok? && IntOr(values, "motion_frame", 9).Ok?
    && FloatOr(values, "color_correction_strength", 1.0).Ok? && FloatOr(values, "teacache_thresh", 0.2).Ok?
    && FloatOr(values, "apg_momentum", -0.75).Ok? && FloatOr(values, "apg_norm_threshold", 55.0).Ok?
    && IntOr(values, "base_seed", 42).Ok? && IntOr(values, "num_persistent_param_in_dit", 0).Ok?
  }

  function ConvertNumbers(values: Obj): (r: Result<Numbers, Exc>)
    ensures r.Ok? <==> AllConvert(values)
    ensures r.Ok? ==>
      && Ok(r.value.frameNum) == IntOr(values, "frame_num", 81)
      && Ok(r.value.maxFrameNum) == IntOr(values, "max_frame_num", 1000)
      && Ok(r.value.steps) == IntOr(values, "sample_steps", 40)
      && Ok(r.value.textScale) == FloatOr(values, "sample_text_guide_scale", 5.0)
      && Ok(r.value.audioScale) == FloatOr(values, "sample_audio_guide_scale", 4.0)
      && Ok(r.value.motionFrame) == IntOr(values, "motion_frame", 9)
      && Ok(r.value.cc) == FloatOr(values, "color_correction_strength", 1.0)
      && Ok(r.value.teacacheThresh) == FloatOr(values, "teacache_thresh", 0.2)
      && Ok(r.value.apgMomentum) == FloatOr(values, "apg_momentum", -0.75)
      && Ok(r.value.apgNorm) == FloatOr(values, "apg_norm_threshold", 55.0)
      && Ok(r.value.seed) == IntOr(values, "base_seed", 42)
      && Ok(r.value.persistent) == IntOr(values, "num_persistent_param_in_dit", 0)
  {
    var frameNum :- IntOr(values, "frame_num", 81);
    var maxFrameNum :- IntOr(values, "max_frame_num", 1000);
    var steps :- IntOr(values, "sample_steps", 40);
    var textScale :- FloatOr(values, "sample_text_guide_scale", 5.0);
    var audioScale :- FloatOr(values, "sample_audio_guide_scale", 4.0);
    var motionFrame :- IntOr(values, "motion_frame", 9);
    var cc :- FloatOr(values, "color_correction_strength", 1.0);
    var teacacheThresh :- FloatOr(values, "teacache_thresh", 0.2);
    var apgMomentum :- FloatOr(values, "apg_momentum", -0.75);
    var apgNorm :- FloatOr(values, "apg_norm_threshold", 55.0);
    var seed :- IntOr(values, "base_seed", 42);
    var persistent :- IntOr(values, "num_persistent_param_in_dit", 0);
    Ok(Numbers(frameNum, maxFrameNum, steps, textScale, audioScale, motionFrame, cc, teacacheThresh,
               apgMomentum, apgNorm, seed, persistent))
  }

  /** The payload dict of `collect_params_from_widgets`, before the range check. */
  function Assemble(values: Obj): (r: Result<Obj, Exc>)
    ensures r.Ok? <==> ConvertNumbers(values).Ok?
    ensures r.Ok? ==> r.value.Keys == TrackedKeys + UntrackedKeys
    ensures r.Ok? ==>
      && Ok(r.value["frame_num"]) == IntOr(values, "frame_num", 81)
      && Ok(r.value["sample_steps"]) == IntOr(values, "sample_steps", 40)
      && Ok(r.value["color_correction_strength"]) == FloatOr(values, "color_correction_strength", 1.0)
      && Ok(r.value["base_seed"]) == IntOr(values, "base_seed", 42)
      && r.value["quant"] == SanitizeQuant(At(values, "quant"))
      && r.value["quant_dir"] == Or(At(values, "quant_dir"), JNull)
      && r.value["use_teacache"] == JBool(Truthy(At(values, "use_teacache")))
      && r.value["output_config"] == JObj(OutputConfig(values))
    ensures r.Ok? ==>
      && r.value["size"] == At(values, "size") && r.value["mode"] == At(values, "mode")
      && Ok(r.value["max_frame_num"]) == IntOr(values, "max_frame_num", 1000)
      && Ok(r.value["sample_text_guide_scale"]) == FloatOr(values, "sample_text_guide_scale", 5.0)
      && Ok(r.value["sample_audio_guide_scale"]) == FloatOr(values, "sample_audio_guide_scale", 4.0)
      && Ok(r.value["motion_frame"]) == IntOr(values, "motion_frame", 9)
      && Ok(r.value["teacache_thresh"]) == FloatOr(values, "teacache_thresh", 0.2)
      && r.value["use_apg"] == JBool(Truthy(At(values, "use_apg")))
      && Ok(r.value["apg_momentum"]) == FloatOr(values, "apg_momentum", -0.75)
      && Ok(r.value["apg_norm_threshold"]) == FloatOr(values, "apg_norm_threshold", 55.0)
      && Ok(r.value["num_persistent_param_in_dit"]) == IntOr(values, "num_persistent_param_in_dit", 0)
      && r.value["offload_model"] == JBool(Truthy(At(values, "offload_model")))
  {
    var n :- ConvertNumbers(values);
    PayloadParts(values, n);
    Ok(Untracked(values, n) + Tracked(values, n))
  }

  /** The two halves of the payload share no key. */
  lemma KeysApart()
    ensures TrackedKeys !! UntrackedKeys
  {
  }

  /** In the payload, each field comes from the half that defines it. */
  lemma PayloadParts(values: Obj, n: Numbers)
    ensures var m := Untracked(values, n) + Tracked(values, n);
      && m.Keys == TrackedKeys + UntrackedKeys
      && (forall k :: k in TrackedKeys ==> m[k] == Tracked(values, n)[k])
      && (forall k :: k in UntrackedKeys ==> m[k] == Untracked(values, n)[k])
  {
    KeysApart();
  }

  /** The payload's fields that the range check and the defaults rules speak about. */
  const TrackedKeys: set<string> := {"frame_num", "sample_steps", "color_correction_strength", "base_seed", "quant",
                                     "quant_dir", "use_teacache", "output_config"}

  /** The payload's remaining fields. */
  const UntrackedKeys: set<string> := {"size", "mode", "max_frame_num", "sample_text_guide_scale",
                                       "sample_audio_guide_scale", "motion_frame", "teacache_thresh", "use_apg",
                                       "apg_momentum", "apg_norm_threshold", "num_persistent_param_in_dit",
                                       "offload_model"}

  function Tracked(values: Obj, n: Numbers): (r: Obj)
    ensures r.Keys == TrackedKeys
    ensures r["frame_num"] == n.frameNum && r["sample_steps"] == n.steps
    ensures r["color_correction_strength"] == n.cc && r["base_seed"] == n.seed
    ensures r["quant"] == SanitizeQuant(At(values, "quant")) && r["quant_dir"] == Or(At(values, "quant_dir"), JNull)
    ensures r["use_teacache"] == BoolOf(values, "use_teacache") && r["output_config"] == JObj(OutputConfig(values))
  {
    map["frame_num" := n.frameNum, "sample_steps" := n.steps, "color_correction_strength" := n.cc,
        "base_seed" := n.seed, "quant" := SanitizeQuant(At(values, "quant")),
        "quant_dir" := Or(At(values, "quant_dir"), JNull), "use_teacache" := BoolOf(values, "use_teacache"),
        "output_config" := JObj(OutputConfig(values))]
  }

  function Untracked(values: Obj, n: Numbers): (r: Obj)
    ensures r.Keys == UntrackedKeys
    ensures r["size"] == At(values, "size") && r["mode"] == At(values, "mode")
    ensures r["max_frame_num"] == n.maxFrameNum && r["motion_frame"] == n.motionFrame
    ensures r["sample_text_guide_scale"] == n.textScale && r["sample_audio_guide_scale"] == n.audioScale
    ensures r["teacache_thresh"] == n.teacacheThresh && r["apg_momentum"] == n.apgMomentum
    ensures r["apg_norm_threshold"] == n.apgNorm && r["num_persistent_param_in_dit"] == n.persistent
    ensures r["use_apg"] == BoolOf(values, "use_apg") && r["offload_model"] == BoolOf(values, "offload_model")
  {
    map["size" := At(values, "size"), "mode" := At(values, "mode"), "max_frame_num" := n.maxFrameNum,
        "sample_text_guide_scale" := n.textScale, "sample_audio_guide_scale" := n.audioScale,
        "motion_frame" := n.motionFrame, "teacache_thresh" := n.teacacheThresh,
        "use_apg" := BoolOf(values, "use_apg"), "apg_momentum" := n.apgMomentum,
        "apg_norm_threshold" := n.apgNorm, "num_persistent_param_in_dit" := n.persistent,
        "offload_model" := BoolOf(values, "offload_model")]
  }

  /** `collect_params_from_widgets`: the assembled payload when the range check accepts it,
      else ValueError with the check's message. */
  function CollectParams(values: Obj): (r: Result<Obj, Exc>)
    ensures Assemble(values).Err? ==> r == Err(Assemble(values).error)
    ensures Assemble(values).Ok? ==> ValidateRanges(Assemble(values).value).Ok?
    ensures Assemble(values).Ok? ==>
      var v := ValidateRanges(Assemble(values).value).value;
      && (r.Ok? <==> v.ok)
      && (r.Ok? ==> r.value == Assemble(values).value)
      && (r.Err? ==> r.error == Exc(ValueError, v.message))
  {
    var payload :- Assemble(values);
    AssembledConverts(values);
    var v := ValidateRanges(payload).value;
    if !v.ok then Err(Exc(ValueError, v.message)) else Ok(payload)
  }

  /** The assembled payload holds ints and floats where the range check converts, so the
      check itself never raises on it. */
  lemma AssembledConverts(values: Obj)
    requires Assemble(values).Ok?
    ensures ValidateRanges(Assemble(values).value).Ok?
  {
    var p := Assemble(values).value;
    assert p["frame_num"].JInt? && p["sample_steps"].JInt? && p["color_correction_strength"].JNum?;
    ConvertibleRanges(p);
  }

  /** Ints and floats in the converted fields: the range check does not raise. */
  lemma ConvertibleRanges(p: Obj)
    requires "frame_num" in p && p["frame_num"].JInt? && "sample_steps" in p && p["sample_steps"].JInt?
    requires "color_correction_strength" in p && p["color_correction_strength"].JNum?
    ensures ValidateRanges(p).Ok?
  {
    assert GetOr(p, "frame_num", JInt(81)) == p["frame_num"];
    assert GetOr(p, "sample_steps", JInt(40)) == p["sample_steps"];
    assert GetOr(p, "color_correction_strength", JNum(1.0)) == p["color_correction_strength"];
  }

  /** Falsy widget values take the defaults: a zero seed becomes 42, a zero `frame_num` 81,
      and an empty `quant_dir` or bucket None. */
  lemma FalsyDefaults(values: Obj)
    requires Assemble(values).Ok?
    requires At(values, "base_seed") == JInt(0) && At(values, "frame_num") == JInt(0)
    requires At(values, "quant_dir") == JStr("") && At(values, "output.bucket") == JStr("")
    ensures var p := Assemble(values).value;
      && p["base_seed"] == JInt(42) && p["frame_num"] == JInt(81) && p["quant_dir"] == JNull
      && p["output_config"].fields["bucket"] == JNull
  {
    var p := Assemble(values).value;
    assert !Truthy(At(values, "base_seed")) && !Truthy(At(values, "frame_num"));
    assert Ok(p["base_seed"]) == IntOr(values, "base_seed", 42) == Ok(JInt(42));
    assert Ok(p["frame_num"]) == IntOr(values, "frame_num", 81) == Ok(JInt(81));
    assert p["output_config"] == JObj(OutputConfig(values));
    assert OutputConfig(values)["bucket"] == JNull;
  }

  /** A form whose quantisation is chosen but whose quant_dir is empty is refused with the
      quantisation message once the other fields are in range. */
  lemma QuantWithoutDirRefused(values: Obj)
    requires Assemble(values).Ok?
    requires At(values, "quant") == JStr("int8") && !Truthy(At(values, "quant_dir"))
    requires var p := Assemble(values).value;
      ValidateRanges(p).Ok? && ValidateRanges(p).value.message != FrameNumMessage
      && ValidateRanges(p).value.message != StepsMessage && ValidateRanges(p).value.message != ColorMessage
    ensures CollectParams(values) == Err(Exc(ValueError, QuantMessage))
  {
    var p := Assemble(values).value;
    assert Lower("int8") != "none" by { assert Lower("int8")[0] == 'i'; }
    QuantRuleDecides(p);
  }

  /** Past the numeric checks, a quantisation without a directory is what the check reports. */
  lemma QuantRuleDecides(p: Obj)
    requires ValidateRanges(p).Ok? && ValidateRanges(p).value.message != FrameNumMessage
    requires ValidateRanges(p).value.message != StepsMessage && ValidateRanges(p).value.message != ColorMessage
    requires At(p, "quant") != JNull && !Truthy(At(p, "quant_dir"))
    ensures ValidateRanges(p).value == Verdict(false, QuantMessage)
  {
  }
}

=== FILE: pipeline.dfy ===
/** The wrapper around the generator (worker/pipeline.py): input preparation and the audio
    branch, the model-path check, the mapping from request parameters to generator
    arguments, the one-shot out-of-memory retry and the output file name. The generator,
    the audio encoder and the muxer are collaborators whose outcomes are given. */
module Pipeline {
  import opened Wrappers
  import opened Text
  import opened PyJson
  import opened Storage

  /** The environment variables the wrapper reads; a variable is missing when unset or empty. */
  datatype Env = Env(
    ckptDir: Option<string>, infinitetalkDir: Option<string>, wav2vecDir: Option<string>,
    quantDir: Option<string>, ditPath: Option<string>)

  /** What the collaborators do. Downloads are looked up by the file name the wrapper asks
      for (`cond_video`, `p1`, `p2`); construction and generation by call number (0 for the
      first call, 1 for the retry). `None` means the call returned normally. */
  datatype World = World(
    fetch: string -> FetchWorld,
    audioInit: Option<Exc>,           // custom_init(...) for the wav2vec encoder
    audioPrep: Option<Exc>,           // audio_prepare_*, get_embedding, torch.save, sf.write
    construct: nat -> Option<Exc>,    // wan.InfiniteTalkPipeline(...)
    generate: nat -> Option<Exc>,     // generate_infinitetalk(...)
    mux: Option<Exc>,                 // save_video_ffmpeg(...)
    mp4Bytes: nat,                    // os.path.getsize of the muxed file
    repr: Json -> string)             // str() of non-string values in the file name

  const WavMissing: string := "WAV2VEC_DIR env var " + "is required for " + "audio embedding" + "."
  const ModelPathsTag: string := "Model paths"
  const ModelPathsMissing: string := ModelPathsTag + " CKPT_DIR and INFINITETALK_DIR must be set in environment."
  const TtsUnsupported: string :=
    "tts_audio is not " + "supported in this " + "worker build. " + "Provide cond_audio " + "instead."
  const NoAudio: string := "cond_audio or " + "tts_audio must " + "be provided."

  /** `params[key]` used as a file reference: a missing key raises KeyError, a non-string
      value TypeError. */
  function RefArg(params: Obj, key: string): (r: Result<string, Exc>)
    ensures r.Ok? <==> key in params && params[key].JStr?
    ensures r.Ok? ==> r.value == params[key].s
  {
    if key !in params then Err(Exc(KeyError, "'" + key + "'"))
    else if params[key].JStr? then Ok(params[key].s)
    else Err(Exc(TypeError, "stat: path should be string"))
  }

  /** `d and d.get(key)` on an optional sub-dict: falsy when `d` is falsy, AttributeError
      when `d` is truthy but not a dict. */
  function SubTruthy(d: Json, key: string): (r: Result<bool, Exc>)
    ensures !Truthy(d) ==> r == Ok(false)
    ensures d.JObj? ==> r == Ok(Truthy(At(d.fields, key)))
    ensures Truthy(d) && !d.JObj? ==> r.Err? && r.error.kind == AttributeError
  {
    if !Truthy(d) then Ok(false)
    else if d.JObj? then Ok(Truthy(At(d.fields, key)))
    else Err(Exc(AttributeError, "object has no attribute 'get'"))
  }

  /** The audio branch the request selects. */
  datatype AudioPlan = TwoSpeakers | OneSpeaker | TtsOnly | NoUsableAudio

  /** `cond_audio` with a truthy `person1`. */
  predicate UsesCondAudio(params: Obj) {
    At(params, "cond_audio").JObj? && Truthy(At(At(params, "cond_audio").fields, "person1"))
  }

  /** `tts_audio` with a truthy `text`. */
  predicate UsesTts(params: Obj) {
    At(params, "tts_audio").JObj? && Truthy(At(At(params, "tts_audio").fields, "text"))
  }

  /** The branch selection, or the AttributeError of a truthy non-dict sub-object. */
  function PlanAudio(params: Obj): (r: Result<AudioPlan, Exc>)
    ensures r == Ok(TwoSpeakers) <==> UsesCondAudio(params) && At(At(params, "cond_audio").fields, "person2") != JNull
    ensures r == Ok(OneSpeaker) <==> UsesCondAudio(params) && At(At(params, "cond_audio").fields, "person2") == JNull
    ensures r == Ok(TtsOnly) ==> !UsesCondAudio(params) && UsesTts(params)
    ensures r == Ok(NoUsableAudio) ==> !UsesCondAudio(params) && !UsesTts(params)
    ensures r.Err? ==> r.error.kind == AttributeError
  {
    var cond :- SubTruthy(At(params, "cond_audio"), "person1");
    if cond then
      if At(At(params, "cond_audio").fields, "person2") != JNull then Ok(TwoSpeakers) else Ok(OneSpeaker)
    else
      var tts :- SubTruthy(At(params, "tts_audio"), "text");
      if tts then Ok(TtsOnly) else Ok(NoUsableAudio)
  }

  /** The download summary recorded in the meta block. */
  function DownloadMeta(d: DownloadResult): Json {
    JObj(map["bytes" := JInt(d.bytes), "mime" := OptStr(d.mime)])
  }

  /** The generator input and the meta summary. */
  datatype Prepared = Prepared(input: Obj, downloads: Obj)

  /** The speaker-embedding part of the input for a selected branch. */
  function AudioInput(plan: AudioPlan, params: Obj, workdir: string): (r: Obj)
    requires plan == TwoSpeakers || plan == OneSpeaker
  {
    var dir := JoinPath(workdir, "audio");
    var one := map["person1" := JStr(JoinPath(dir, "1.pt"))];
    if plan == TwoSpeakers then
      map["cond_audio" := JObj(one["person2" := JStr(JoinPath(dir, "2.pt"))]),
          "audio_type" := Or(At(params, "audio_type"), JStr("para")),
          "video_audio" := JStr(JoinPath(dir, "sum.wav"))]
    else
      map["cond_audio" := JObj(one), "video_audio" := JStr(JoinPath(dir, "sum.wav"))]
  }

  /** The downloads of the speaker audio: `p1` and, with two speakers, `p2`. */
  function SpeakerDownloads(plan: AudioPlan, params: Obj, workdir: string, w: World): (r: Result<Obj, Exc>)
    requires plan == TwoSpeakers || plan == OneSpeaker
    requires At(params, "cond_audio").JObj?
    ensures r.Ok? ==> r.value.Keys == if plan == TwoSpeakers then {"person1", "person2"} else {"person1"}
    ensures r.Ok? ==> RefArg(At(params, "cond_audio").fields, "person1").Ok?
    ensures r.Ok? && plan == TwoSpeakers ==> RefArg(At(params, "cond_audio").fields, "person2").Ok?
  {
    var ca := At(params, "cond_audio").fields;
    var ref1 :- RefArg(ca, "person1");
    if plan == TwoSpeakers then
      var ref2 :- RefArg(ca, "person2");
      var p1 :- DownloadFromUrl(ref1, workdir, Some("p1"), None, w.fetch("p1")).result;
      var p2 :- DownloadFromUrl(ref2, workdir, Some("p2"), None, w.fetch("p2")).result;
      Ok(map["person1" := DownloadMeta(p1), "person2" := DownloadMeta(p2)])
    else
      var p1 :- DownloadFromUrl(ref1, workdir, Some("p1"), None, w.fetch("p1")).result;
      Ok(map["person1" := DownloadMeta(p1)])
  }

  /** The conditioning image or video, fetched first. */
  function VideoStep(params: Obj, workdir: string, w: World): (r: Result<DownloadResult, Exc>)
    ensures r.Ok? ==> "cond_video" in params && params["cond_video"].JStr?
    ensures r.Ok? && r.value.fromUrl.Some? ==> IsHttp(params["cond_video"].s)
  {
    var ref :- RefArg(params, "cond_video");
    DownloadFromUrl(ref, workdir, Some("cond_video"), None, w.fetch("cond_video")).result
  }

  /** `_prepare_inputs`: fetch the conditioning video, require the wav2vec directory and
      load the encoder, then take the two-speaker, one-speaker, TTS or no-audio branch;
      `bbox` is passed through only when present. */
  function PrepareInputs(params: Obj, workdir: string, env: Env, w: World): (r: Result<Prepared, Exc>)
    ensures "prompt" !in params ==> r == Err(Exc(KeyError, "'prompt'"))
    ensures r.Ok? ==> "prompt" in params && VideoStep(params, workdir, w).Ok? && OptTruthy(env.wav2vecDir)
  {
    if "prompt" !in params then Err(Exc(KeyError, "'prompt'"))
    else
      var video :- VideoStep(params, workdir, w);
      if !OptTruthy(env.wav2vecDir) then Err(Exc(RuntimeError, WavMissing))
      else if w.audioInit.Some? then Err(w.audioInit.value)
      else
        var plan :- PlanAudio(params);
        match plan
        case TtsOnly => Err(Exc(NotImplementedError, TtsUnsupported))
        case NoUsableAudio => Err(Exc(ValueError, NoAudio))
        case _ =>
          var speakers :- SpeakerDownloads(plan, params, workdir, w);
          if w.audioPrep.Some? then Err(w.audioPrep.value)
          else
            Ok(Prepared(Assemble(params, video.path, plan, workdir), map["cond_video" := DownloadMeta(video)] + speakers))
  }

  /** The generator input: prompt, conditioning path, the speaker embeddings, and `bbox`
      only when present. */
  function Assemble(params: Obj, videoPath: string, plan: AudioPlan, workdir: string): (r: Obj)
    requires "prompt" in params
    requires plan == TwoSpeakers || plan == OneSpeaker
    ensures "prompt" in r && r["prompt"] == params["prompt"]
    ensures "cond_video" in r && r["cond_video"] == JStr(videoPath)
    ensures "bbox" in r <==> "bbox" in params
  {
    var base := map["prompt" := params["prompt"], "cond_video" := JStr(videoPath)] + AudioInput(plan, params, workdir);
    if "bbox" in params then base["bbox" := params["bbox"]] else base
  }

  lemma AssembleShape(params: Obj, videoPath: string, plan: AudioPlan, workdir: string)
    requires "prompt" in params
    requires plan == TwoSpeakers || plan == OneSpeaker
    ensures var input := Assemble(params, videoPath, plan, workdir);
      && "prompt" in input && input["prompt"] == params["prompt"]
      && "cond_video" in input && "video_audio" in input && "cond_audio" in input
      && ("audio_type" in input <==> plan == TwoSpeakers)
      && ("audio_type" in input ==> input["audio_type"] == Or(At(params, "audio_type"), JStr("para")))
      && ("bbox" in input <==> "bbox" in params)
      && ("bbox" in params ==> input["bbox"] == params["bbox"])
  {
  }

  /** The first failures of the preparation: the conditioning download, then the missing
      wav2vec directory. */
  lemma PrepareInputsErrors(params: Obj, workdir: string, env: Env, w: World)
    requires "prompt" in params
    ensures VideoStep(params, workdir, w).Err? ==> PrepareInputs(params, workdir, env, w) == Err(VideoStep(params, workdir, w).error)
    ensures VideoStep(params, workdir, w).Ok? && !OptTruthy(env.wav2vecDir) ==>
      PrepareInputs(params, workdir, env, w) == Err(Exc(RuntimeError, WavMissing))
  {
  }

  /** A prepared input: every collaborator succeeded, the request has a usable `cond_audio`,
      and the input carries the prompt, the references, the audio type exactly for two
      speakers, and `bbox` exactly when given. */
  lemma PrepareInputsShape(params: Obj, workdir: string, env: Env, w: World)
    requires PrepareInputs(params, workdir, env, w).Ok?
    ensures OptTruthy(env.wav2vecDir) && w.audioInit.None? && w.audioPrep.None?
    ensures UsesCondAudio(params)
    ensures var input := PrepareInputs(params, workdir, env, w).value.input;
      && "prompt" in params && "prompt" in input && input["prompt"] == params["prompt"]
      && "cond_video" in input && "video_audio" in input && "cond_audio" in input
      && ("audio_type" in input <==> PlanAudio(params) == Ok(TwoSpeakers))
      && ("audio_type" in input ==> input["audio_type"] == Or(At(params, "audio_type"), JStr("para")))
      && ("bbox" in input <==> "bbox" in params)
      && ("bbox" in params ==> input["bbox"] == params["bbox"])
  {
    PrepareInputsAssembled(params, workdir, env, w);
    AssembleShape(params, VideoStep(params, workdir, w).value.path, PlanAudio(params).value, workdir);
  }

  /** A prepared input is the assembled one, for the speaker branch the request selects. */
  lemma PrepareInputsAssembled(params: Obj, workdir: string, env: Env, w: World)
    requires PrepareInputs(params, workdir, env, w).Ok?
    ensures OptTruthy(env.wav2vecDir) && w.audioInit.None? && w.audioPrep.None?
    ensures "prompt" in params && VideoStep(params, workdir, w).Ok? && PlanAudio(params).Ok?
    ensures PlanAudio(params).value == TwoSpeakers || PlanAudio(params).value == OneSpeaker
    ensures UsesCondAudio(params)
    ensures PrepareInputs(params, workdir, env, w).value.input
         == Assemble(params, VideoStep(params, workdir, w).value.path, PlanAudio(params).value, workdir)
  {
  }

  /** Without WAV2VEC_DIR the outcome is decided before any audio is looked at: the speaker
      downloads and the audio collaborators cannot change it. */
  lemma WavCheckPrecedesAudio(params: Obj, workdir: string, env: Env, w1: World, w2: World)
    requires !OptTruthy(env.wav2vecDir)
    requires w1.fetch("cond_video") == w2.fetch("cond_video")
    ensures PrepareInputs(params, workdir, env, w1) == PrepareInputs(params, workdir, env, w2)
  {
  }

  /** A `cond_audio` dict whose `person1` is falsy is treated as if it were absent. */
  lemma CondAudioWithoutPerson1IsAbsent(params: Obj, workdir: string, env: Env, w: World, ca: Obj)
    requires !Truthy(At(ca, "person1"))
    ensures PrepareInputs(params["cond_audio" := JObj(ca)], workdir, env, w)
         == PrepareInputs(params - {"cond_audio"}, workdir, env, w)
  {
    var p1 := params["cond_audio" := JObj(ca)];
    var p2 := params - {"cond_audio"};
    assert ("prompt" in p1 <==> "prompt" in p2) && (At(p1, "prompt") == At(p2, "prompt"));
    assert PlanAudio(p1) == PlanAudio(p2);
    assert PlanAudio(p1) != Ok(TwoSpeakers) && PlanAudio(p1) != Ok(OneSpeaker);
    assert VideoStep(p1, workdir, w) == VideoStep(p2, workdir, w);
  }

  /** With the encoder ready and no usable speaker audio, TTS text alone raises
      NotImplementedError and no audio at all raises ValueError. */
  lemma AudioFallbackErrors(params: Obj, workdir: string, env: Env, w: World)
    requires "prompt" in params && VideoStep(params, workdir, w).Ok?
    requires OptTruthy(env.wav2vecDir) && w.audioInit.None?
    requires !UsesCondAudio(params)
    requires !Truthy(At(params, "cond_audio")) || At(params, "cond_audio").JObj?
    requires !Truthy(At(params, "tts_audio")) || At(params, "tts_audio").JObj?
    ensures UsesTts(params) ==> PrepareInputs(params, workdir, env, w) == Err(Exc(NotImplementedError, TtsUnsupported))
    ensures !UsesTts(params) ==> PrepareInputs(params, workdir, env, w) == Err(Exc(ValueError, NoAudio))
  {
  }

  /** The loaded pipeline, as far as the wrapper configures it. */
  datatype Pipe = Pipe(checkpointDir: string, infinitetalkDir: string, quantDir: Option<string>,
                       ditPath: Option<string>, persistentParams: Option<Json>)

  /** `_build_pipeline`: both model paths are required; VRAM management is switched on
      exactly when `num_persistent_param_in_dit` is given. */
  function BuildPipeline(params: Obj, env: Env, construct: Option<Exc>): (r: Result<Pipe, Exc>)
    ensures !OptTruthy(env.ckptDir) || !OptTruthy(env.infinitetalkDir) ==>
      r == Err(Exc(RuntimeError, ModelPathsMissing))
    ensures r.Ok? <==> OptTruthy(env.ckptDir) && OptTruthy(env.infinitetalkDir) && construct.None?
    ensures r.Ok? ==> (r.value.persistentParams.Some? <==> At(params, "num_persistent_param_in_dit") != JNull)
    ensures r.Ok? && r.value.persistentParams.Some? ==> r.value.persistentParams.value == params["num_persistent_param_in_dit"]
  {
    if !OptTruthy(env.ckptDir) || !OptTruthy(env.infinitetalkDir) then Err(Exc(RuntimeError, ModelPathsMissing))
    else if construct.Some? then Err(construct.value)
    else
      var vram := if At(params, "num_persistent_param_in_dit") != JNull then Some(params["num_persistent_param_in_dit"]) else None;
      Ok(Pipe(env.ckptDir.value, env.infinitetalkDir.value, env.quantDir, env.ditPath, vram))
  }

  /** The missing-path message is the one the handler recognises. */
  lemma ModelPathsMessage()
    ensures Contains(ModelPathsMissing, "Model paths")
  {
    assert OccursAt(ModelPathsMissing, "Model paths", 0);
  }

  /** The generator's arguments. */
  datatype GenArgs = GenArgs(
    size: Json, motionFrame: Json, frameNum: Json, shift: int, samplingSteps: Json,
    textGuideScale: Json, audioGuideScale: Json, seed: Json, offloadModel: Json,
    maxFramesNum: Json, colorCorrection: Json)

  /** `_run_generate`'s mapping: `size` is required; shift 7 for the 480 bucket and 11
      otherwise; clip mode (the default) generates `frame_num` frames at most, streaming
      `max_frame_num` (default 1000). */
  function MapParams(params: Obj): (r: Result<GenArgs, Exc>)
    ensures r.Ok? <==> "size" in params
    ensures r.Ok? ==> r.value.size == params["size"]
    ensures r.Ok? ==> (r.value.shift == 7 <==> params["size"] == JStr("infinitetalk-480"))
    ensures r.Ok? ==> r.value.shift == 7 || r.value.shift == 11
    ensures r.Ok? ==> r.value.frameNum == GetOr(params, "frame_num", JInt(81))
    ensures r.Ok? && GetOr(params, "mode", JStr("clip")) == JStr("clip") ==> r.value.maxFramesNum == r.value.frameNum
    ensures r.Ok? && GetOr(params, "mode", JStr("clip")) != JStr("clip") ==>
      r.value.maxFramesNum == GetOr(params, "max_frame_num", JInt(1000))
    ensures r.Ok? ==>
      && r.value.samplingSteps == GetOr(params, "sample_steps", JInt(40))
      && r.value.seed == GetOr(params, "base_seed", JInt(42))
      && r.value.motionFrame == GetOr(params, "motion_frame", JInt(9))
  {
    if "size" !in params then Err(Exc(KeyError, "'size'"))
    else
      var size := params["size"];
      var frameNum := GetOr(params, "frame_num", JInt(81));
      Ok(GenArgs(
        size := size,
        motionFrame := GetOr(params, "motion_frame", JInt(9)),
        frameNum := frameNum,
        shift := if size == JStr("infinitetalk-480") then 7 else 11,
        samplingSteps := GetOr(params, "sample_steps", JInt(40)),
        textGuideScale := GetOr(params, "sample_text_guide_scale", JNum(5.0)),
        audioGuideScale := GetOr(params, "sample_audio_guide_scale", JNum(4.0)),
        seed := GetOr(params, "base_seed", JInt(42)),
        offloadModel := GetOr(params, "offload_model", JBool(true)),
        maxFramesNum := if GetOr(params, "mode", JStr("clip")) == JStr("clip") then frameNum
                        else GetOr(params, "max_frame_num", JInt(1000)),
        colorCorrection := GetOr(params, "color_correction_strength", JNum(1.0))))
  }

  function Min(a: int, b: int): int {
    if a <= b then a else b
  }

  /** The reduced configuration of the out-of-memory retry: the 480 bucket and at most 8
      sampling steps, everything else as requested. */
  function Reduce(params: Obj): (r: Result<Obj, Exc>)
    ensures r.Ok? ==> "size" in r.value && r.value["size"] == JStr("infinitetalk-480")
    ensures r.Ok? ==>
      && PyInt(GetOr(params, "sample_steps", JInt(40))).Ok?
      && "sample_steps" in r.value
      && r.value["sample_steps"] == JInt(Min(8, PyInt(GetOr(params, "sample_steps", JInt(40))).value))
    ensures r.Err? <==> PyInt(GetOr(params, "sample_steps", JInt(40))).Err?
  {
    var steps :- PyInt(GetOr(params, "sample_steps", JInt(40)));
    Ok(params["size" := JStr("infinitetalk-480")]["sample_steps" := JInt(Min(8, steps))])
  }

  /** The reduced configuration changes nothing but the size and the steps. */
  lemma ReduceKeepsOthers(params: Obj)
    requires Reduce(params).Ok?
    ensures Reduce(params).value.Keys == params.Keys + {"size", "sample_steps"}
    ensures forall k :: k in params && k != "size" && k != "sample_steps" ==> Reduce(params).value[k] == params[k]
  {
  }

  /** The reduced steps never exceed 8 nor the requested count. */
  lemma ReducedStepsBound(params: Obj)
    requires Reduce(params).Ok?
    ensures var s := Reduce(params).value["sample_steps"].i;
      s <= 8 && s <= PyInt(GetOr(params, "sample_steps", JInt(40))).value
  {
  }

  /** The output stem: size, steps and seed of the request as given. */
  function SaveName(params: Obj, repr: Json -> string): (r: string)
    ensures StartsWith(r, "infitalk_")
  {
    var rest := PyStr(GetOr(params, "size", JStr("infinitetalk-480")), repr)
      + "_" + PyStr(GetOr(params, "sample_steps", JInt(40)), repr)
      + "_seed" + PyStr(GetOr(params, "base_seed", JInt(42)), repr);
    "infitalk_" + rest
  }

  /** What `run_inference` returns. */
  datatype InferenceOutput = InferenceOutput(videoPath: string, thumbnailPath: Option<string>, bytes: nat, meta: Obj)

  /** The outcome of `run_inference`, the generator calls it made and the data of its
      `oom_retry` warning, if any. */
  datatype Inference = Inference(result: Result<InferenceOutput, Exc>, calls: seq<GenArgs>, oomRetry: Option<Obj>)

  predicate IsCudaOom(e: Option<Exc>) {
    e.Some? && e.value.kind == CudaOutOfMemoryError
  }

  /** The output file is named after the request as given and reported with its size. */
  predicate Named(out: InferenceOutput, params: Obj, workdir: string, w: World) {
    && out.videoPath == JoinPath(workdir, SaveName(params, w.repr)) + ".mp4"
    && out.bytes == w.mp4Bytes && out.thumbnailPath.None?
  }

  /** Mux the video and report it. */
  function Finish(params: Obj, workdir: string, prep: Prepared, w: World): (r: Result<InferenceOutput, Exc>)
    ensures r.Ok? <==> w.mux.None?
    ensures r.Ok? ==> Named(r.value, params, workdir, w)
  {
    if w.mux.Some? then Err(w.mux.value)
    else Ok(InferenceOutput(JoinPath(workdir, SaveName(params, w.repr)) + ".mp4", None, w.mp4Bytes,
                            map["downloads" := JObj(prep.downloads)]))
  }

  /** The retry after a CUDA out-of-memory error: rebuild with the reduced configuration and
      generate once more; any failure of the retry propagates. */
  function RetryReduced(params: Obj, workdir: string, env: Env, prep: Prepared, first: GenArgs, w: World): (r: Inference)
    ensures 1 <= |r.calls| <= 2 && r.calls[0] == first
    ensures r.result.Ok? ==> Named(r.result.value, params, workdir, w)
    ensures r.oomRetry.Some? <==> Reduce(params).Ok?
    ensures r.oomRetry.Some? ==>
      r.oomRetry.value == map["size" := Reduce(params).value["size"],
                              "sample_steps" := Reduce(params).value["sample_steps"]]
  {
    match Reduce(params)
    case Err(e) => Inference(Err(e), [first], None)
    case Ok(reduce) =>
      var warn := map["size" := reduce["size"], "sample_steps" := reduce["sample_steps"]];
      match BuildPipeline(reduce, env, w.construct(1))
      case Err(e) => Inference(Err(e), [first], Some(warn))
      case Ok(_) =>
        var second := MapParams(reduce).value;
        if w.generate(1).Some? then Inference(Err(w.generate(1).value), [first, second], Some(warn))
        else Inference(Finish(params, workdir, prep, w), [first, second], Some(warn))
  }

  /** `run_inference`: prepare, then build and generate. */
  function RunInference(params: Obj, workdir: string, env: Env, w: World): (r: Inference)
    ensures PrepareInputs(params, workdir, env, w).Err? ==>
      r.result == Err(PrepareInputs(params, workdir, env, w).error) && r.calls == [] && r.oomRetry.None?
    ensures |r.calls| <= 2
  {
    match PrepareInputs(params, workdir, env, w)
    case Err(e) => Inference(Err(e), [], None)
    case Ok(prep) => Generate(params, workdir, env, prep, w)
  }

  /** Build and generate from a prepared input: exactly one retry, and only on a CUDA
      out-of-memory error of the first generation; then mux under a name taken from the
      request as given. */
  function Generate(params: Obj, workdir: string, env: Env, prep: Prepared, w: World): (r: Inference)
    ensures |r.calls| <= 2
    ensures r.oomRetry.Some? ==> IsCudaOom(w.generate(0))
    ensures |r.calls| == 2 ==> r.oomRetry.Some?
  {
    match BuildPipeline(params, env, w.construct(0))
    case Err(e) => Inference(Err(e), [], None)
    case Ok(_) =>
      match MapParams(params)
      case Err(e) => Inference(Err(e), [], None)
      case Ok(first) =>
        if IsCudaOom(w.generate(0)) then RetryReduced(params, workdir, env, prep, first, w)
        else if w.generate(0).Some? then Inference(Err(w.generate(0).value), [first], None)
        else Inference(Finish(params, workdir, prep, w), [first], None)
  }

  /** At most two generator calls, the first with the request's own arguments after a
      successful preparation; a result is always named after the request. */
  lemma RunInferenceCalls(params: Obj, workdir: string, env: Env, w: World)
    ensures var r := RunInference(params, workdir, env, w);
      && |r.calls| <= 2
      && (|r.calls| >= 1 ==> PrepareInputs(params, workdir, env, w).Ok? && Ok(r.calls[0]) == MapParams(params))
      && (r.result.Ok? ==> |r.calls| >= 1 && Named(r.result.value, params, workdir, w))
  {
  }

  /** The retry of one generation: it happens only after a CUDA out-of-memory error of the
      first call, it makes the second call with the reduced configuration, and it announces
      itself with an `oom_retry` warning. */
  lemma GenerateRetry(params: Obj, workdir: string, env: Env, prep: Prepared, w: World)
    ensures var r := Generate(params, workdir, env, prep, w);
      && (r.oomRetry.Some? <==> |r.calls| >= 1 && IsCudaOom(w.generate(0)) && Reduce(params).Ok?)
      && (|r.calls| == 2 ==> IsCudaOom(w.generate(0)) && Reduce(params).Ok?
                             && r.calls[1] == MapParams(Reduce(params).value).value)
  {
  }

  lemma GenerateWarning(params: Obj, workdir: string, env: Env, prep: Prepared, w: World)
    ensures var r := Generate(params, workdir, env, prep, w);
      r.oomRetry.Some? ==>
        && Reduce(params).Ok?
        && r.oomRetry.value["size"] == JStr("infinitetalk-480")
        && r.oomRetry.value["sample_steps"] == Reduce(params).value["sample_steps"]
  {
    if Generate(params, workdir, env, prep, w).oomRetry.Some? {
      var first := MapParams(params).value;
      assert Generate(params, workdir, env, prep, w) == RetryReduced(params, workdir, env, prep, first, w);
    }
  }

  /** The retry happens once, only after a CUDA out-of-memory error of the first
      generation, with the reduced configuration, and it announces itself with an
      `oom_retry` warning. */
  lemma OomRetryOnce(params: Obj, workdir: string, env: Env, w: World)
    ensures var r := RunInference(params, workdir, env, w);
      && (r.oomRetry.Some? <==> |r.calls| >= 1 && IsCudaOom(w.generate(0)) && Reduce(params).Ok?)
      && (|r.calls| == 2 ==> IsCudaOom(w.generate(0)) && Reduce(params).Ok?
                             && r.calls[1] == MapParams(Reduce(params).value).value)
      && (r.oomRetry.Some? ==> r.oomRetry.value["size"] == JStr("infinitetalk-480")
                               && r.oomRetry.value["sample_steps"] == Reduce(params).value["sample_steps"])
  {
    match PrepareInputs(params, workdir, env, w)
    case Err(_) =>
    case Ok(prep) =>
      GenerateRetry(params, workdir, env, prep, w);
      GenerateWarning(params, workdir, env, prep, w);
  }

  /** Any other generator failure is not retried and escapes unchanged. */
  lemma OtherFailureNotRetried(params: Obj, workdir: string, env: Env, w: World)
    requires |RunInference(params, workdir, env, w).calls| >= 1
    requires w.generate(0).Some? && !IsCudaOom(w.generate(0))
    ensures RunInference(params, workdir, env, w).calls == [MapParams(params).value]
    ensures RunInference(params, workdir, env, w).result == Err(w.generate(0).value)
  {
  }

  /** A failure of the retry's generation escapes as it is: a second out-of-memory error is
      not retried again. */
  lemma RetryFailurePropagates(params: Obj, workdir: string, env: Env, w: World)
    requires |RunInference(params, workdir, env, w).calls| == 2
    requires w.generate(1).Some?
    ensures RunInference(params, workdir, env, w).result == Err(w.generate(1).value)
  {
    assert PrepareInputs(params, workdir, env, w).Ok?;
    var prep := PrepareInputs(params, workdir, env, w).value;
    assert RunInference(params, workdir, env, w) == Generate(params, workdir, env, prep, w);
    GenerateRetry(params, workdir, env, prep, w);
  }

  /** The reduced configuration maps to the 480 bucket at shift 7 with at most 8 steps,
      and to the same value for every other generator argument. */
  lemma ReducedArguments(params: Obj)
    requires "size" in params && Reduce(params).Ok?
    ensures var a := MapParams(params).value;
      var b := MapParams(Reduce(params).value).value;
      && b.size == JStr("infinitetalk-480") && b.shift == 7
      && b.samplingSteps.JInt? && b.samplingSteps.i <= 8
      && b.frameNum == a.frameNum && b.motionFrame == a.motionFrame
      && b.seed == a.seed && b.maxFramesNum == a.maxFramesNum
      && b.textGuideScale == a.textGuideScale && b.audioGuideScale == a.audioGuideScale
      && b.offloadModel == a.offloadModel && b.colorCorrection == a.colorCorrection
  {
    var reduce := Reduce(params).value;
    ReducedStepsBound(params);
    ReduceKeepsOthers(params);
    forall k | k != "size" && k != "sample_steps"
      ensures GetOr(reduce, k, JNull) == GetOr(params, k, JNull)
    {
    }
    assert GetOr(reduce, "mode", JStr("clip")) == GetOr(params, "mode", JStr("clip"));
    assert GetOr(reduce, "frame_num", JInt(81)) == GetOr(params, "frame_num", JInt(81));
    assert GetOr(reduce, "max_frame_num", JInt(1000)) == GetOr(params, "max_frame_num", JInt(1000));
    assert GetOr(reduce, "motion_frame", JInt(9)) == GetOr(params, "motion_frame", JInt(9));
    assert GetOr(reduce, "base_seed", JInt(42)) == GetOr(params, "base_seed", JInt(42));
    assert GetOr(reduce, "sample_text_guide_scale", JNum(5.0)) == GetOr(params, "sample_text_guide_scale", JNum(5.0));
    assert GetOr(reduce, "sample_audio_guide_scale", JNum(4.0)) == GetOr(params, "sample_audio_guide_scale", JNum(4.0));
    assert GetOr(reduce, "offload_model", JBool(true)) == GetOr(params, "offload_model", JBool(true));
    assert GetOr(reduce, "color_correction_strength", JNum(1.0)) == GetOr(params, "color_correction_strength", JNum(1.0));
  }

  /** The two generator calls of a retried run differ only in size, shift and steps. */
  lemma RetryArguments(params: Obj, workdir: string, env: Env, w: World)
    requires |RunInference(params, workdir, env, w).calls| == 2
    ensures var c := RunInference(params, workdir, env, w).calls;
      && c[1].size == JStr("infinitetalk-480") && c[1].shift == 7
      && c[1].samplingSteps.JInt? && c[1].samplingSteps.i <= 8
      && c[1].frameNum == c[0].frameNum && c[1].seed == c[0].seed
      && c[1].maxFramesNum == c[0].maxFramesNum && c[1].colorCorrection == c[0].colorCorrection
  {
    OomRetryOnce(params, workdir, env, w);
    ReducedArguments(params);
  }
}

=== FILE: pyjson.dfy ===
/** JSON-like values as the Python code sees them: dicts, lists, scalars, and the small
    part of Python's semantics the core relies on (truthiness, `dict.get`, `a or b`,
    `int()`, `float()`, `str()`), plus the exception classes the core raises or catches. */
module PyJson {
  import opened Wrappers
  import opened Text

  /** A decoded JSON / YAML value. `JNull` is Python's `None`; `JNum` is a float. */
  datatype Json =
    | JNull
    | JBool(b: bool)
    | JInt(i: int)
    | JNum(r: real)
    | JStr(s: string)
    | JArr(items: seq<Json>)
    | JObj(fields: map<string, Json>)

  /** A Python dict with string keys (insertion order is not modelled). */
  type Obj = map<string, Json>

  /** Python's `bool(v)`. */
  predicate Truthy(v: Json) {
    match v
    case JNull => false
    case JBool(b) => b
    case JInt(i) => i != 0
    case JNum(r) => r != 0.0
    case JStr(s) => s != ""
    case JArr(a) => a != []
    case JObj(m) => m != map[]
  }

  /** `d.get(k)`: the value, or `None` when the key is missing. */
  function At(d: Obj, k: string): (r: Json)
    ensures k !in d ==> r == JNull
    ensures k in d ==> r == d[k]
  {
    if k in d then d[k] else JNull
  }

  /** `d.get(k, dflt)`. */
  function GetOr(d: Obj, k: string, dflt: Json): (r: Json)
    ensures k !in d ==> r == dflt
    ensures k in d ==> r == d[k]
  {
    if k in d then d[k] else dflt
  }

  /** Python's `a or b`. */
  function Or(a: Json, b: Json): (r: Json)
    ensures Truthy(a) ==> r == a
    ensures !Truthy(a) ==> r == b
  {
    if Truthy(a) then a else b
  }

  /** `d.get(k) is not None`. */
  predicate Set(d: Obj, k: string) {
    At(d, k) != JNull
  }

  function OptStr(o: Option<string>): Json {
    match o
    case None => JNull
    case Some(s) => JStr(s)
  }

  /** A string that is present and non-empty (Python truthiness of an `Optional[str]`). */
  predicate OptTruthy(o: Option<string>) {
    o.Some? && o.value != ""
  }

  /** The exception classes that matter to the core, with Python's class hierarchy below. */
  datatype ExcKind =
    | RuntimeError
    | CudaOutOfMemoryError    // torch.cuda.OutOfMemoryError, a RuntimeError subclass
    | NotImplementedError     // a RuntimeError subclass
    | MemoryError
    | ValueError
    | BinasciiError           // binascii.Error, a ValueError subclass
    | ValidationError         // pydantic's ValidationError, a ValueError subclass
    | TypeError
    | KeyError
    | AttributeError
    | RequestException        // requests.RequestException, an OSError subclass
    | HTTPError               // requests.HTTPError, a RequestException subclass
    | OSError
    | OtherError(name: string) // any other Exception subclass outside the classes above

  /** `isinstance(e, RuntimeError)`. */
  predicate IsRuntimeError(k: ExcKind) {
    k.RuntimeError? || k.CudaOutOfMemoryError? || k.NotImplementedError?
  }

  /** `isinstance(e, MemoryError)`. */
  predicate IsMemoryError(k: ExcKind) {
    k.MemoryError?
  }

  /** `isinstance(e, ValueError)`. */
  predicate IsValueError(k: ExcKind) {
    k.ValueError? || k.BinasciiError? || k.ValidationError?
  }

  /** `isinstance(e, requests.RequestException)`. */
  predicate IsRequestException(k: ExcKind) {
    k.RequestException? || k.HTTPError?
  }

  /** `type(e).__name__`. */
  function KindName(k: ExcKind): string {
    match k
    case RuntimeError => "RuntimeError"
    case CudaOutOfMemoryError => "OutOfMemoryError"
    case NotImplementedError => "NotImplementedError"
    case MemoryError => "MemoryError"
    case ValueError => "ValueError"
    case BinasciiError => "Error"
    case ValidationError => "ValidationError"
    case TypeError => "TypeError"
    case KeyError => "KeyError"
    case AttributeError => "AttributeError"
    case RequestException => "RequestException"
    case HTTPError => "HTTPError"
    case OSError => "OSError"
    case OtherError(n) => n
  }

  /** A raised exception: its class and `str(e)`. */
  datatype Exc = Exc(kind: ExcKind, message: string)

  /** Whether a value can key a Python dict: lists and dicts cannot. */
  predicate Hashable(v: Json) {
    !v.JArr? && !v.JObj?
  }

  /** The TypeError of a dict lookup with a list or dict key. */
  function UnhashableError(v: Json): (e: Exc)
    ensures e.kind == TypeError
    ensures v.JArr? ==> e.message == "unhashable type: 'list'"
    ensures v.JObj? ==> e.message == "unhashable type: 'dict'"
  {
    Exc(TypeError, "unhashable type: '" + (if v.JArr? then "list" else "dict") + "'")
  }

  /** Python's `int(x)` truncates a float toward zero. */
  function Trunc(r: real): (n: int)
    ensures r >= 0.0 ==> n as real <= r < n as real + 1.0
    ensures r < 0.0 ==> n as real - 1.0 < r <= n as real
  {
    if r >= 0.0 then r.Floor else -((-r).Floor)
  }

  function DigitsValue(s: string): nat
    requires forall i :: 0 <= i < |s| ==> '0' <= s[i] <= '9'
  {
    if s == [] then 0
    else DigitsValue(s[..|s| - 1]) * 10 + (s[|s| - 1] as int - '0' as int)
  }

  predicate AllDigits(s: string) {
    |s| > 0 && forall i :: 0 <= i < |s| ==> '0' <= s[i] <= '9'
  }

  /** `int(s)` for a string: optional whitespace, an optional sign, decimal digits. */
  function ParseInt(s: string): (r: Result<int, Exc>)
    ensures r.Ok? ==> Strip(s) != ""
  {
    var t := Strip(s);
    if |t| > 0 && (t[0] == '-' || t[0] == '+') && AllDigits(t[1..]) then
      var v: int := DigitsValue(t[1..]);
      Ok(if t[0] == '-' then -v else v)
    else if AllDigits(t) then Ok(DigitsValue(t))
    else Err(Exc(ValueError, "invalid literal for int() with base 10: " + s))
  }

  /** The TypeError `int()` raises for a value of Python type `name`. */
  const IntTypePrefix: string := "int() argument must be a string, a bytes-like object or a real number, not '"

  function IntTypeError(name: string): Exc {
    Exc(TypeError, IntTypePrefix + name + "'")
  }

  /** Python's `int(v)`. */
  function PyInt(v: Json): (r: Result<int, Exc>)
    ensures v.JInt? ==> r == Ok(v.i)
    ensures v.JBool? ==> r == Ok(if v.b then 1 else 0)
    ensures v.JNum? ==> r.Ok? && r.value == Trunc(v.r)
    ensures v.JStr? ==> r == ParseInt(v.s)
    ensures v.JNull? || v.JArr? || v.JObj? ==> r.Err? && r.error.kind == TypeError
  {
    match v
    case JNull => Err(IntTypeError("NoneType"))
    case JBool(b) => Ok(if b then 1 else 0)
    case JInt(i) => Ok(i)
    case JNum(r) => Ok(Trunc(r))
    case JStr(s) => ParseInt(s)
    case JArr(_) => Err(IntTypeError("list"))
    case JObj(_) => Err(IntTypeError("dict"))
  }

  /** The TypeError `float()` raises for a value of Python type `name`. */
  const FloatTypePrefix: string := "float() argument must be a string or a real number, not '"

  function FloatTypeError(name: string): Exc {
    Exc(TypeError, FloatTypePrefix + name + "'")
  }

  /** Python's `float(v)`; strings are read as integer literals only. */
  function PyFloat(v: Json): (r: Result<real, Exc>)
    ensures v.JNum? ==> r == Ok(v.r)
    ensures v.JInt? ==> r == Ok(v.i as real)
    ensures v.JNull? || v.JArr? || v.JObj? ==> r.Err? && r.error.kind == TypeError
  {
    match v
    case JNull => Err(FloatTypeError("NoneType"))
    case JBool(b) => Ok(if b then 1.0 else 0.0)
    case JInt(i) => Ok(i as real)
    case JNum(r) => Ok(r)
    case JStr(s) =>
      (match ParseInt(s)
       case Ok(n) => Ok(n as real)
       case Err(_) => Err(Exc(ValueError, "could not convert string to float: " + s)))
    case JArr(_) => Err(FloatTypeError("list"))
    case JObj(_) => Err(FloatTypeError("dict"))
  }

  /** Python's `str(v)`. Scalars are rendered here; floats and containers by `repr`,
      which stands for CPython's own formatting. */
  function PyStr(v: Json, repr: Json -> string): (r: string)
    ensures v.JStr? ==> r == v.s
    ensures v.JNull? ==> r == "None"
    ensures v.JInt? ==> r == IntToString(v.i)
  {
    match v
    case JNull => "None"
    case JBool(b) => if b then "True" else "False"
    case JInt(i) => IntToString(i)
    case JStr(s) => s
    case _ => repr(v)
  }
}

=== FILE: runpod_client.dfy ===
/** The UI's client of the Runpod REST API (ui/runpod_client.py): a jitter-free retry loop
    with capped exponential backoff, the status codes each call accepts, and the progress
    summary read from a status response. The HTTP exchange of each attempt is a parameter. */
module RunpodClient {
  import opened Wrappers
  import opened Text
  import opened PyJson

  const ApiBase: string := "https://api.runpod.ai/v2"
  const DefaultMaxRetries: nat := 5
  const DefaultBaseSleep: real := 0.8
  const SleepCap: real := 8.0

  /** A received HTTP response: its status, its body when it parses as JSON, and its text. */
  datatype Response = Response(status: int, body: Option<Json>, text: string)

  /** What one attempt yields: a response, or a RequestException with its message. */
  datatype Attempt = Received(resp: Response) | Raised(message: string)

  /** Attempts that the loop retries: a RequestException, 429, or any 5xx. */
  predicate Retried(a: Attempt) {
    a.Raised? || a.resp.status == 429 || 500 <= a.resp.status < 600
  }

  function Pow2(k: nat): (r: nat)
    ensures r >= 1
  {
    if k == 0 then 1 else 2 * Pow2(k - 1)
  }

  function MinReal(a: real, b: real): (r: real)
    ensures r <= a && r <= b && (r == a || r == b)
  {
    if a <= b then a else b
  }

  /** The sleep after failed attempt `k` (0-based): `min(8.0, base_sleep * 2**k)`. */
  function Backoff(baseSleep: real, k: nat): (r: real)
    ensures r <= SleepCap
    ensures baseSleep >= 0.0 ==> r >= 0.0
  {
    MinReal(SleepCap, baseSleep * Pow2(k) as real)
  }

  /** The backoff doubles until it reaches the cap and never decreases. */
  lemma BackoffMonotone(baseSleep: real, j: nat, k: nat)
    requires baseSleep >= 0.0 && j <= k
    ensures Backoff(baseSleep, j) <= Backoff(baseSleep, k)
    decreases k - j
  {
    if j < k {
      BackoffMonotone(baseSleep, j, k - 1);
      var x := Pow2(k - 1) as real;
      assert Pow2(k) as real == 2.0 * x;
      ScaleDoubles(baseSleep, x);
      MinMonotone(SleepCap, baseSleep * x, baseSleep * (2.0 * x));
    }
  }

  lemma MinMonotone(c: real, a: real, b: real)
    requires a <= b
    ensures MinReal(c, a) <= MinReal(c, b)
  {
  }

  lemma ScaleDoubles(b: real, x: real)
    requires b >= 0.0 && x >= 0.0
    ensures b * x <= b * (2.0 * x)
  {
    assert b * (2.0 * x) == b * x + b * x;
  }

  /** The default schedule: 0.8, 1.6, 3.2, 6.4 and then the cap 8.0. */
  lemma DefaultSchedule()
    ensures Backoff(DefaultBaseSleep, 0) == 0.8 && Backoff(DefaultBaseSleep, 1) == 1.6
    ensures Backoff(DefaultBaseSleep, 2) == 3.2 && Backoff(DefaultBaseSleep, 3) == 6.4
    ensures Backoff(DefaultBaseSleep, 4) == 8.0
  {
    assert Pow2(1) == 2;
    assert Pow2(2) == 4;
    assert Pow2(3) == 8;
    assert Pow2(4) == 16;
  }

  /** `_request_with_retry`'s answer: the response it returned (or the error text) and the
      sleeps it took. */
  datatype Exchange = Exchange(resp: Option<Response>, error: Option<string>, sleeps: seq<real>)

  /** The loop from attempt `k` on. */
  function RetryFrom(k: nat, maxRetries: nat, baseSleep: real, url: string, attempts: nat -> Attempt): (r: Exchange)
    requires k <= maxRetries
    ensures r.resp.Some? <==> r.error.None?
    ensures r.error.Some? ==> r.error.value == "Failed after " + NatToString(maxRetries) + " attempts for " + url
    ensures |r.sleeps| <= maxRetries - k
    ensures r.resp.Some? ==>
      && k + |r.sleeps| < maxRetries
      && Received(r.resp.value) == attempts(k + |r.sleeps|) && !Retried(attempts(k + |r.sleeps|))
    ensures r.error.Some? ==> |r.sleeps| == maxRetries - k
    ensures forall j :: k <= j < k + |r.sleeps| ==> Retried(attempts(j)) && r.sleeps[j - k] == Backoff(baseSleep, j)
    decreases maxRetries - k
  {
    if k == maxRetries then Exchange(None, Some("Failed after " + NatToString(maxRetries) + " attempts for " + url), [])
    else
      var a := attempts(k);
      if Retried(a) then
        var rest := RetryFrom(k + 1, maxRetries, baseSleep, url, attempts);
        var sleeps := [Backoff(baseSleep, k)] + rest.sleeps;
        Exchange(rest.resp, rest.error, sleeps)
      else Exchange(Some(a.resp), None, [])
  }

  /** `_request_with_retry`: at most `maxRetries` attempts; every retried attempt is
      followed by its backoff sleep; the first attempt that is not retried is returned. */
  function RequestWithRetry(maxRetries: nat, baseSleep: real, url: string, attempts: nat -> Attempt): (r: Exchange)
    ensures r.resp.Some? <==> r.error.None?
    ensures |r.sleeps| <= maxRetries
    ensures r.resp.Some? ==> Received(r.resp.value) == attempts(|r.sleeps|) && !Retried(attempts(|r.sleeps|))
    ensures r.error.Some? ==>
      && |r.sleeps| == maxRetries
      && r.error.value == "Failed after " + NatToString(maxRetries) + " attempts for " + url
    ensures forall i :: 0 <= i < |r.sleeps| ==> Retried(attempts(i)) && r.sleeps[i] == Backoff(baseSleep, i)
  {
    RetryFrom(0, maxRetries, baseSleep, url, attempts)
  }

  /** The loop stops at the first attempt that is not retried, and gives up exactly when
      every one of the allowed attempts was retried. */
  lemma RetryOutcome(maxRetries: nat, baseSleep: real, url: string, attempts: nat -> Attempt)
    ensures var r := RequestWithRetry(maxRetries, baseSleep, url, attempts);
      r.error.Some? <==> forall i :: 0 <= i < maxRetries ==> Retried(attempts(i))
  {
    var r := RequestWithRetry(maxRetries, baseSleep, url, attempts);
    if r.resp.Some? {
      assert !Retried(attempts(|r.sleeps|));
    }
  }

  /** A 4xx other than 429 is returned at once, without sleeping. */
  lemma ClientErrorNotRetried(maxRetries: nat, baseSleep: real, url: string, attempts: nat -> Attempt)
    requires maxRetries > 0 && attempts(0).Received?
    requires 400 <= attempts(0).resp.status < 500 && attempts(0).resp.status != 429
    ensures RequestWithRetry(maxRetries, baseSleep, url, attempts) == Exchange(Some(attempts(0).resp), None, [])
  {
  }

  /** The status line of a rejected call: the body's `error` when it has one, else the body.
      A body that is not a dict has no `.get` and raises AttributeError. */
  function ErrorDetail(body: Json, repr: Json -> string): (r: Result<string, Exc>)
    ensures body.JObj? ==> r == Ok(PyStr(GetOr(body.fields, "error", body), repr))
    ensures !body.JObj? ==> r.Err? && r.error.kind == AttributeError
  {
    if body.JObj? then Ok(PyStr(GetOr(body.fields, "error", body), repr))
    else Err(Exc(AttributeError, "object has no attribute 'get'"))
  }

  /** The shared tail of `submit_job` and `get_status`: the error of an exhausted loop, a
      body that is not JSON, and a status outside `accepted` all raise RuntimeError. */
  function Call(path: string, accepted: set<int>, ex: Exchange, repr: Json -> string): (r: Result<Json, Exc>)
    ensures r.Ok? <==> !OptTruthy(ex.error) && ex.resp.Some? && ex.resp.value.body.Some? && ex.resp.value.status in accepted
    ensures r.Ok? ==> r.value == ex.resp.value.body.value
    ensures OptTruthy(ex.error) ==> r == Err(Exc(RuntimeError, ex.error.value))
    ensures ex.resp.Some? && ex.resp.value.body.None? && !OptTruthy(ex.error) ==>
      r == Err(Exc(RuntimeError, "Non-JSON response from Runpod " + path + ": HTTP "
                   + IntToString(ex.resp.value.status) + " text=" + Take(ex.resp.value.text, 400)))
  {
    if OptTruthy(ex.error) then Err(Exc(RuntimeError, ex.error.value))
    else if ex.resp.None? then Err(Exc(RuntimeError, "No response from Runpod " + path + "."))
    else
      var resp := ex.resp.value;
      match resp.body
      case None =>
        Err(Exc(RuntimeError, "Non-JSON response from Runpod " + path + ": HTTP " + IntToString(resp.status)
                              + " text=" + Take(resp.text, 400)))
      case Some(data) =>
        if resp.status in accepted then Ok(data)
        else
          var msg :- ErrorDetail(data, repr);
          Err(Exc(RuntimeError, "Runpod " + path + " error HTTP " + IntToString(resp.status) + ": " + msg))
  }

  /** `text[:n]`. */
  function Take(s: string, n: nat): (r: string)
    ensures |r| <= n && StartsWith(s, r)
    ensures |s| <= n ==> r == s
    ensures |s| > n ==> |r| == n
  {
    if |s| <= n then s else s[..n]
  }

  /** `submit_job`: POST `/run`, accepted on 200, 201 or 202. */
  function SubmitJob(endpointId: string, attempts: nat -> Attempt, repr: Json -> string): (r: Result<Json, Exc>)
    ensures var ex := RequestWithRetry(DefaultMaxRetries, DefaultBaseSleep, ApiBase + "/" + endpointId + "/run", attempts);
      && (r.Ok? <==> ex.resp.Some? && ex.resp.value.body.Some? && ex.resp.value.status in {200, 201, 202})
      && (r.Ok? ==> r.value == ex.resp.value.body.value)
    ensures r.Err? ==> r.error.kind == RuntimeError || r.error.kind == AttributeError
  {
    var ex := RequestWithRetry(DefaultMaxRetries, DefaultBaseSleep, ApiBase + "/" + endpointId + "/run", attempts);
    Call("/run", {200, 201, 202}, ex, repr)
  }

  /** `get_status`: GET `/status/<job id>`, accepted on 200 only. */
  function GetStatus(endpointId: string, jobId: string, attempts: nat -> Attempt, repr: Json -> string): (r: Result<Json, Exc>)
    ensures var ex := RequestWithRetry(DefaultMaxRetries, DefaultBaseSleep,
                                       ApiBase + "/" + endpointId + "/status/" + jobId, attempts);
      && (r.Ok? <==> ex.resp.Some? && ex.resp.value.body.Some? && ex.resp.value.status == 200)
      && (r.Ok? ==> r.value == ex.resp.value.body.value)
    ensures r.Err? ==> r.error.kind == RuntimeError || r.error.kind == AttributeError
  {
    var ex := RequestWithRetry(DefaultMaxRetries, DefaultBaseSleep, ApiBase + "/" + endpointId + "/status/" + jobId, attempts);
    Call("/status", {200}, ex, repr)
  }

  /** A 202 is accepted by `submit_job` and refused by `get_status`. */
  lemma AcceptedStatuses(endpointId: string, jobId: string, body: Json, repr: Json -> string)
    ensures var attempts := (k: nat) => Received(Response(202, Some(body), ""));
      SubmitJob(endpointId, attempts, repr) == Ok(body) && GetStatus(endpointId, jobId, attempts, repr).Err?
  {
  }

  /** What `extract_progress` reads from a status response. */
  datatype Progress = Progress(percent: int, stage: string, checkpoints: Json)

  /** `extract_progress`: the percent (0 when missing or falsy), the stage text (`statusText`,
      else `message`, else `status`), and the structured log (`output.checkpoints`, else
      `output.logs` for a dict output; else a root `logs` list; else None). */
  function ExtractProgress(st: Obj, repr: Json -> string): (r: Result<Progress, Exc>)
    ensures !Truthy(At(st, "percent")) ==> r.Ok? && r.value.percent == 0
    ensures r.Ok? ==> Ok(r.value.percent) == PyInt(Or(At(st, "percent"), JInt(0)))
    ensures r.Ok? ==> r.value.stage == PyStr(Or(At(st, "statusText"), Or(At(st, "message"), GetOr(st, "status", JStr("")))), repr)
    ensures r.Ok? ==> r.value.checkpoints == Checkpoints(st)
    ensures r.Err? ==> PyInt(Or(At(st, "percent"), JInt(0))) == Err(r.error)
  {
    var percent :- PyInt(Or(At(st, "percent"), JInt(0)));
    var stage := Or(At(st, "statusText"), Or(At(st, "message"), GetOr(st, "status", JStr(""))));
    Ok(Progress(percent, PyStr(stage, repr), Checkpoints(st)))
  }

  /** The structured log of a status response. */
  function Checkpoints(st: Obj): (r: Json)
    ensures At(st, "output").JObj? && Truthy(At(At(st, "output").fields, "checkpoints")) ==>
      r == At(At(st, "output").fields, "checkpoints")
    ensures r != JNull && !At(st, "output").JObj? ==> r == At(st, "logs") && r.JArr?
    ensures !At(st, "output").JObj? && !At(st, "logs").JArr? ==> r == JNull
    ensures At(st, "output").JObj? && !Truthy(At(At(st, "output").fields, "checkpoints"))
            && At(At(st, "output").fields, "logs") != JNull ==>
      r == At(At(st, "output").fields, "logs")
    ensures At(st, "output").JObj? && Or(At(At(st, "output").fields, "checkpoints"), At(At(st, "output").fields, "logs")) == JNull ==>
      r == (if At(st, "logs").JArr? then At(st, "logs") else JNull)
  {
    var fromOutput :=
      if At(st, "output").JObj? then
        Or(At(At(st, "output").fields, "checkpoints"), At(At(st, "output").fields, "logs"))
      else JNull;
    if fromOutput == JNull && At(st, "logs").JArr? then At(st, "logs") else fromOutput
  }

  /** The root `logs` list is used only when the output yields nothing (None): an empty
      `output.logs` list hides it. */
  lemma RootLogsShadowed(st: Obj, out: Obj, logs: seq<Json>)
    requires At(st, "output") == JObj(out) && !Truthy(At(out, "checkpoints"))
    requires At(out, "logs") == JArr([]) && At(st, "logs") == JArr(logs)
    ensures Checkpoints(st) == JArr([])
  {
  }

  /** A missing percent reads as 0, and the stage falls back to the status. */
  lemma ProgressDefaults(status: string, repr: Json -> string)
    ensures ExtractProgress(map["status" := JStr(status)], repr) == Ok(Progress(0, status, JNull))
  {
  }
}

=== FILE: storage.dfy ===
/** The transfer layer: reference classification (local path, base64, http(s)), inline
    decoding, the bounded download retry with checksum check, the mime -> extension table
    and artifact records (worker/storage.py). */
module Storage {
  import opened Wrappers
  import opened Text
  import opened PyJson

  type Byte = bv8
  type Bytes = seq<Byte>

  const MaxRetries: nat := 3
  const BackoffSec: real := 1.5

  datatype DownloadResult = DownloadResult(path: string, bytes: nat, mime: Option<string>, fromUrl: Option<string>)

  /** The base64 codec: `strict` is `b64decode(s, validate=True)`, `lenient` the default
      decoder that skips characters outside the alphabet; `None` means it raised. */
  datatype Base64 = Base64(strict: string -> Option<Bytes>, lenient: string -> Option<Bytes>)

  /** `os.path.join(dir, name)` for a relative or absolute `name`. */
  function JoinPath(dir: string, name: string): (r: string)
    ensures |name| > 0 && name[0] != '/' && dir != "" && dir[|dir| - 1] != '/' ==> r == dir + "/" + name
  {
    if |name| > 0 && name[0] == '/' then name
    else if dir == "" || dir[|dir| - 1] == '/' then dir + name
    else dir + "/" + name
  }

  /** `save_temp(..., workdir, filename)`: the path of the written file. */
  function SavePath(workdir: string, filename: string): (r: string)
    ensures |filename| > 0 && filename[0] == '/' ==> r == filename
    ensures workdir == "" && |filename| > 0 && filename[0] != '/' ==> r == "/tmp/" + filename
  {
    JoinPath(if workdir == "" then "/tmp" else workdir, filename)
  }

  /** A `data:` URL carrying base64 content. */
  predicate IsDataUrl(s: string) {
    StartsWith(s, "data:") && Contains(s, ";base64,")
  }

  /** `_is_base64_payload`: a base64 data URL, or text that decodes strictly. */
  predicate IsBase64Payload(s: string, codec: Base64)
    ensures !StartsWith(s, "data:") ==> (IsBase64Payload(s, codec) <==> codec.strict(s).Some?)
  {
    IsDataUrl(s) || codec.strict(s).Some?
  }

  /** `_mime_to_ext`: the extension table; None, empty and unknown types map to "". */
  function MimeToExt(mime: Option<string>): (ext: string)
    ensures mime.None? || mime == Some("") ==> ext == ""
    ensures mime == Some("audio/wav") || mime == Some("audio/x-wav") ==> ext == ".wav"
    ensures ext == "" || (|ext| > 1 && ext[0] == '.')
  {
    if mime.None? then ""
    else
      match mime.value
      case "image/jpeg" => ".jpg"
      case "image/png" => ".png"
      case "image/webp" => ".webp"
      case "video/mp4" => ".mp4"
      case "video/quicktime" => ".mov"
      case "audio/wav" => ".wav"
      case "audio/x-wav" => ".wav"
      case "audio/mpeg" => ".mp3"
      case "audio/mp3" => ".mp3"
      case "audio/flac" => ".flac"
      case "audio/ogg" => ".ogg"
      case _ => ""
  }

  /** The media types the table knows. */
  const KnownMimes: set<string> := {
    "image/jpeg", "image/png", "image/webp", "video/mp4", "video/quicktime", "audio/wav",
    "audio/x-wav", "audio/mpeg", "audio/mp3", "audio/flac", "audio/ogg"}

  /** Exactly the known media types get an extension. */
  lemma MimeToExtKnown(m: string)
    ensures MimeToExt(Some(m)) != "" <==> m in KnownMimes
  {
  }

  /** The media type in a data-URL header: `header.split(":")[1].split(";")[0]`. */
  function HeaderMime(header: string): (r: string)
    requires ':' in header
    ensures ':' !in r && ';' !in r
    ensures var after := SplitOnce(header, ':').value.1;
      StartsWith(after, r) && (|r| == |after| || after[|r|] == ':' || after[|r|] == ';')
  {
    var after := SplitOnce(header, ':').value.1;
    BeforeChar(BeforeChar(after, ':'), ';')
  }

  /** `decode_base64_to_file`: a data URL is split at its first comma, its header names the
      media type and the extension; raw base64 has neither. The file is written under
      `workdir` with the suggested name. */
  function DecodeBase64ToFile(data: string, workdir: string, suggested: string, codec: Base64)
    : (r: Result<DownloadResult, Exc>)
    ensures r.Ok? ==> r.value.fromUrl.None?
    ensures r.Ok? && !IsDataUrl(data) ==>
      r.value.mime.None? && r.value.path == SavePath(workdir, suggested)
      && codec.lenient(data).Some? && r.value.bytes == |codec.lenient(data).value|
    ensures r.Err? ==> r.error.kind == BinasciiError
  {
    if IsDataUrl(data) then
      DataUrlHeader(data);
      var (header, b64) := SplitOnce(data, ',').value;
      var mime := HeaderMime(header);
      var ext := MimeToExt(Some(mime));
      match codec.lenient(b64)
      case None => Err(Exc(BinasciiError, "Incorrect padding"))
      case Some(content) => Ok(DownloadResult(SavePath(workdir, suggested + ext), |content|, Some(mime), None))
    else
      match codec.lenient(data)
      case None => Err(Exc(BinasciiError, "Incorrect padding"))
      case Some(content) => Ok(DownloadResult(SavePath(workdir, suggested), |content|, None, None))
  }

  /** The data URL the UI builds for a media type and a payload. */
  function DataUrl(mime: string, b64: string): string {
    "data:" + mime + ";base64," + b64
  }

  /** A media type that survives the header parse: no `:`, `;` or `,` in it. */
  predicate PlainMime(mime: string) {
    ':' !in mime && ';' !in mime && ',' !in mime
  }

  /** Decoding a data URL recovers its media type, names the file after the suggested name
      plus the mapped extension, and counts the decoded payload. */
  lemma DataUrlRoundTrip(mime: string, b64: string, workdir: string, suggested: string, codec: Base64)
    requires PlainMime(mime)
    requires codec.lenient(b64).Some?
    ensures var r := DecodeBase64ToFile(DataUrl(mime, b64), workdir, suggested, codec);
      r.Ok? && r.value.mime == Some(mime)
      && r.value.path == SavePath(workdir, suggested + MimeToExt(Some(mime)))
      && r.value.bytes == |codec.lenient(b64).value|
  {
    DataUrlIsBase64(mime, b64);
    DataUrlSplit(mime, b64);
    HeaderMimeOf(mime);
  }

  /** A data URL has a comma, and the header before its first comma keeps the `data:` prefix. */
  lemma DataUrlHeader(data: string)
    requires IsDataUrl(data)
    ensures ',' in data
    ensures StartsWith(SplitOnce(data, ',').value.0, "data:")
    ensures ':' in SplitOnce(data, ',').value.0
  {
    var i := Find(data, ";base64,").value;
    assert data[i..i + 8] == ";base64,";
    assert data[i + 7] == ',';
    var k := IndexOfChar(data, ',').value;
    assert data[..5] == "data:";
    assert k >= 5;
    var h := SplitOnce(data, ',').value.0;
    assert h == data[..k];
    assert h[4] == ':';
  }

  lemma DataUrlSplit(mime: string, b64: string)
    requires PlainMime(mime)
    ensures SplitOnce(DataUrl(mime, b64), ',') == Some(("data:" + mime + ";base64", b64))
  {
    var header := "data:" + mime + ";base64";
    assert DataUrl(mime, b64) == header + [','] + b64;
    assert ',' !in header by {
      forall j | 0 <= j < |header| ensures header[j] != ',' {
        if 5 <= j < 5 + |mime| { assert header[j] == mime[j - 5]; }
      }
    }
    SplitAtFirst(header, b64, ',');
  }

  lemma HeaderMimeOf(mime: string)
    requires PlainMime(mime)
    ensures HeaderMime("data:" + mime + ";base64") == mime
  {
    var header := "data:" + mime + ";base64";
    assert header == "data" + [':'] + (mime + ";base64");
    SplitAtFirst("data", mime + ";base64", ':');
    var after := mime + ";base64";
    assert ':' !in after by {
      forall j | 0 <= j < |after| ensures after[j] != ':' {
        if j < |mime| { assert after[j] == mime[j]; }
      }
    }
    assert BeforeChar(after, ':') == after;
    PrefixBefore(mime, "base64", ';');
    assert after == mime + [';'] + "base64";
  }

  /** The data URL built for a media type is classified as base64. */
  lemma DataUrlIsBase64(mime: string, b64: string)
    ensures IsDataUrl(DataUrl(mime, b64))
  {
    var data := DataUrl(mime, b64);
    assert StartsWith(data, "data:");
    assert OccursAt(data, ";base64,", 5 + |mime|);
  }

  lemma SplitAtFirst(a: string, b: string, c: char)
    requires c !in a
    ensures SplitOnce(a + [c] + b, c) == Some((a, b))
  {
    var s := a + [c] + b;
    assert s[|a|] == c;
    var i := IndexOfChar(s, c).value;
    assert i == |a|;
    assert s[..i] == a && s[i + 1..] == b;
  }

  lemma PrefixBefore(a: string, b: string, c: char)
    requires c !in a
    ensures BeforeChar(a + [c] + b, c) == a
  {
    SplitAtFirst(a, b, c);
  }

  /** ASCII letters, digits and `+-.`: the characters of a URL scheme. */
  predicate SchemeChar(c: char) {
    ('a' <= c <= 'z') || ('A' <= c <= 'Z') || ('0' <= c <= '9') || c == '+' || c == '-' || c == '.'
  }

  /** urlsplit's clean-up: leading C0 controls and spaces go, and so do tabs and newlines. */
  function SanitizeUrl(url: string): (r: string)
    ensures '\t' !in r && '\r' !in r && '\n' !in r
    ensures r == [] || r[0] as int > 32
  {
    var trimmed := LStripControls(url);
    seq(|RemoveUnsafe(trimmed)|, i requires 0 <= i < |RemoveUnsafe(trimmed)| => RemoveUnsafe(trimmed)[i])
  }

  function LStripControls(s: string): (r: string)
    ensures r == [] || r[0] as int > 32
    ensures |r| <= |s| && r == s[|s| - |r|..]
  {
    if |s| > 0 && s[0] as int <= 32 then LStripControls(s[1..]) else s
  }

  /** Tabs, carriage returns and newlines go; every other character stays, in order. */
  function RemoveUnsafe(s: string): (r: string)
    ensures '\t' !in r && '\r' !in r && '\n' !in r
    ensures forall c :: c != '\t' && c != '\r' && c != '\n' ==> multiset(r)[c] == multiset(s)[c]
    ensures '\t' !in s && '\r' !in s && '\n' !in s ==> r == s
  {
    if s == [] then []
    else
      assert s == [s[0]] + s[1..];
      if s[0] == '\t' || s[0] == '\r' || s[0] == '\n' then RemoveUnsafe(s[1..])
      else [s[0]] + RemoveUnsafe(s[1..])
  }

  /** The clean-up works character by character, so it keeps the order of what it keeps. */
  lemma {:induction false} RemoveUnsafeConcat(a: string, b: string)
    ensures RemoveUnsafe(a + b) == RemoveUnsafe(a) + RemoveUnsafe(b)
  {
    if a != [] {
      assert (a + b)[1..] == a[1..] + b;
      RemoveUnsafeConcat(a[1..], b);
    } else {
      assert a + b == b;
    }
  }

  /** `urlparse(url).scheme`: lower-cased text before the first `:` when it is a valid
      scheme starting with a letter, else "". */
  function UrlScheme(url: string): string {
    var u := SanitizeUrl(url);
    match IndexOfChar(u, ':')
    case None => ""
    case Some(i) =>
      if i > 0 && (('a' <= u[0] <= 'z') || ('A' <= u[0] <= 'Z'))
         && forall j :: 0 <= j < i ==> SchemeChar(u[j])
      then Lower(u[..i]) else ""
  }

  predicate IsHttp(url: string) {
    UrlScheme(url) == "http" || UrlScheme(url) == "https"
  }

  /** The first index of any of `/?#` in `s`. */
  function NetlocEnd(s: string): (r: nat)
    ensures r <= |s|
    ensures r < |s| ==> s[r] == '/' || s[r] == '?' || s[r] == '#'
    ensures forall i :: 0 <= i < r ==> s[i] != '/' && s[i] != '?' && s[i] != '#'
  {
    if s == [] || s[0] == '/' || s[0] == '?' || s[0] == '#' then 0 else 1 + NetlocEnd(s[1..])
  }

  /** `urlparse(url).path` for an http(s) URL: the netloc, fragment, query and the `;params`
      of the last segment removed. */
  function UrlPath(url: string): (r: string)
    ensures '?' !in r && '#' !in r
  {
    var u := SanitizeUrl(url);
    var rest := match SplitOnce(u, ':') case None => u case Some(p) => p.1;
    var afterNet := if StartsWith(rest, "//") then rest[2 + NetlocEnd(rest[2..])..] else rest;
    var noFrag := BeforeChar(afterNet, '#');
    var noQuery := BeforeChar(noFrag, '?');
    PrefixLacks(noFrag, noQuery, '#');
    StripParams(noQuery)
  }

  /** The `;params` of the last path segment removed; no character is added. */
  function StripParams(q: string): (r: string)
    ensures forall c :: c in r ==> c in q
  {
    match LastIndexOfChar(q, '/')
    case Some(slash) =>
      var tail := BeforeChar(q[slash..], ';');
      assert forall c :: c in tail ==> c in q[slash..];
      q[..slash] + tail
    case None => BeforeChar(q, ';')
  }

  /** A prefix of a text lacks every character the text lacks. */
  lemma PrefixLacks(s: string, p: string, c: char)
    requires StartsWith(s, p) && c !in s
    ensures c !in p
  {
  }

  /** `os.path.basename(p)`. */
  function Basename(p: string): (r: string)
    ensures '/' !in r
    ensures |r| <= |p| && r == p[|p| - |r|..]
  {
    AfterLastChar(p, '/')
  }

  /** `os.path.splitext(p)[1]`: from the last dot of the last segment, unless that segment
      is only dots before it. */
  function SplitExt(p: string): (ext: string)
    ensures ext == "" || ext[0] == '.'
    ensures ext != "" ==> |ext| <= |p| && p[|p| - |ext|..] == ext && '/' !in ext && '.' !in ext[1..]
    ensures ext != "" ==> exists j :: 0 <= j < |p| - |ext| && p[j] != '.' && '/' !in p[j..]
  {
    var sep: int := match LastIndexOfChar(p, '/') case None => -1 case Some(i) => i;
    match LastIndexOfChar(p, '.')
    case None => ""
    case Some(dot) =>
      if dot > sep && exists j :: sep + 1 <= j < dot && p[j] != '.' then p[dot..] else ""
  }

  /** A dot in the last segment with a non-dot character before it in that segment always
      yields an extension. */
  lemma SplitExtFound(p: string, d: nat, j: nat)
    requires j < d < |p| && p[d] == '.' && p[j] != '.' && '/' !in p[j..]
    ensures SplitExt(p) != ""
  {
  }

  /** One HTTP attempt: a response (status, reason phrase, Content-Type, body chunks) or a
      transport error. */
  datatype HttpAttempt =
    | Response(status: int, reason: string, contentType: Option<string>, chunks: seq<Bytes>)
    | Transport(error: Exc)

  /** The bytes written: every chunk in order (empty ones add nothing). */
  function Flatten(chunks: seq<Bytes>): (r: Bytes)
  {
    if chunks == [] then [] else Flatten(chunks[..|chunks| - 1]) + chunks[|chunks| - 1]
  }

  /** The sum of the lengths of the non-empty chunks. */
  function SumNonEmpty(chunks: seq<Bytes>): nat {
    if chunks == [] then 0
    else SumNonEmpty(chunks[..|chunks| - 1]) + (if chunks[|chunks| - 1] == [] then 0 else |chunks[|chunks| - 1]|)
  }

  /** The streaming loop: skip empty chunks, append each other chunk to the file and to the
      digest, and count its bytes. */
  method StreamChunks(chunks: seq<Bytes>) returns (total: nat, written: Bytes)
    ensures total == SumNonEmpty(chunks)
    ensures written == Flatten(chunks)
    ensures total == |written|
  {
    total := 0;
    written := [];
    var k := 0;
    while k < |chunks|
      invariant 0 <= k <= |chunks|
      invariant total == SumNonEmpty(chunks[..k])
      invariant written == Flatten(chunks[..k])
      invariant total == |written|
    {
      assert chunks[..k + 1][..k] == chunks[..k];
      var chunk := chunks[k];
      if chunk != [] {
        written := written + chunk;
        total := total + |chunk|;
      }
      k := k + 1;
    }
    assert chunks[..k] == chunks;
  }

  /** `raise_for_status()` rejects 4xx and 5xx. */
  predicate HttpOk(status: int) {
    !(400 <= status < 600)
  }

  /** The base name for a download: the caller's name, else the URL's basename, else
      `blob<ext>`. */
  function DownloadBase(url: string, filename: Option<string>, ext: string): (base: string)
    ensures OptTruthy(filename) ==> base == filename.value
    ensures !OptTruthy(filename) && Basename(UrlPath(url)) != "" ==> base == Basename(UrlPath(url))
    ensures !OptTruthy(filename) && Basename(UrlPath(url)) == "" ==> base == "blob" + ext
    ensures base != ""
  {
    if OptTruthy(filename) then filename.value
    else if Basename(UrlPath(url)) != "" then Basename(UrlPath(url))
    else "blob" + ext
  }

  /** The file name for a download: a base name without an extension gets the mapped
      extension when there is one; otherwise the base name is kept. */
  function DownloadName(url: string, filename: Option<string>, ext: string): (name: string)
    ensures var base := DownloadBase(url, filename, ext);
      && StartsWith(name, base)
      && (name == base <==> SplitExt(base) != "" || ext == "")
      && (name != base ==> name == base + ext)
  {
    var base := DownloadBase(url, filename, ext);
    if SplitExt(base) == "" && ext != "" then base + ext else base
  }

  /** One pass of the download body: status check, name, stream, optional checksum. */
  function TryDownload(url: string, workdir: string, filename: Option<string>,
                       checksum: Option<string>, hexDigest: Bytes -> string, a: HttpAttempt)
    : (r: Result<DownloadResult, Exc>)
    ensures a.Transport? ==> r == Err(a.error)
    ensures r.Ok? ==>
      && a.Response? && HttpOk(a.status)
      && r.value.path == JoinPath(workdir, DownloadName(url, filename, MimeToExt(a.contentType)))
      && r.value.bytes == SumNonEmpty(a.chunks) && r.value.mime == a.contentType
      && r.value.fromUrl == Some(url)
    ensures a.Response? && HttpOk(a.status) && OptTruthy(checksum) ==>
      (r.Ok? <==> hexDigest(Flatten(a.chunks)) == Lower(checksum.value))
    ensures a.Response? && HttpOk(a.status) && !OptTruthy(checksum) ==> r.Ok?
    ensures r.Err? && a.Response? && HttpOk(a.status) ==> r.error.kind == ValueError
    ensures a.Response? && 400 <= a.status < 500 ==>
      r == Err(Exc(HTTPError, IntToString(a.status) + " Client Error: " + a.reason + " for url: " + url))
    ensures a.Response? && 500 <= a.status < 600 ==>
      r == Err(Exc(HTTPError, IntToString(a.status) + " Server Error: " + a.reason + " for url: " + url))
  {
    match a
    case Transport(e) => Err(e)
    case Response(status, reason, ct, chunks) =>
      if !HttpOk(status) then
        var side := if status < 500 then " Client Error: " else " Server Error: ";
        Err(Exc(HTTPError, IntToString(status) + side + reason + " for url: " + url))
      else
        var name := DownloadName(url, filename, MimeToExt(ct));
        var total := SumNonEmpty(chunks);
        if OptTruthy(checksum) && hexDigest(Flatten(chunks)) != Lower(checksum.value) then
          Err(Exc(ValueError, "Checksum mismatch for downloaded file."))
        else Ok(DownloadResult(JoinPath(workdir, name), total, ct, Some(url)))
  }

  /** The outcome of a fetch and the back-off sleeps taken on the way. */
  datatype Fetch = Fetch(result: Result<DownloadResult, Exc>, sleeps: seq<real>, attempts: nat)

  /** The retry loop from attempt `k` on, where `tries(j)` is what attempt `j` yields:
      stop at the first success, sleep `1.5 * k` seconds after a failed attempt `k < 3`,
      and let the failure of attempt 3 propagate. */
  function Retry(k: nat, tries: nat -> Result<DownloadResult, Exc>): (f: Fetch)
    requires 1 <= k <= MaxRetries
    ensures k <= f.attempts <= MaxRetries
    ensures |f.sleeps| == f.attempts - k
    ensures f.result == tries(f.attempts)
    ensures f.result.Err? ==> f.attempts == MaxRetries
    decreases MaxRetries - k
  {
    var r := tries(k);
    if r.Ok? || k == MaxRetries then Fetch(r, [], k)
    else
      var rest := Retry(k + 1, tries);
      Fetch(rest.result, [BackoffSec * k as real] + rest.sleeps, rest.attempts)
  }

  /** The sleep after failed attempt `j` is `1.5 * j` seconds. */
  lemma {:induction false} RetrySleeps(k: nat, tries: nat -> Result<DownloadResult, Exc>)
    requires 1 <= k <= MaxRetries
    ensures var f := Retry(k, tries);
      forall i :: 0 <= i < |f.sleeps| ==> f.sleeps[i] == BackoffSec * (k + i) as real
    decreases MaxRetries - k
  {
    var f := Retry(k, tries);
    if |f.sleeps| > 0 {
      RetrySleeps(k + 1, tries);
      var rest := Retry(k + 1, tries);
      assert f.sleeps == [BackoffSec * k as real] + rest.sleeps;
      forall i | 0 <= i < |f.sleeps| ensures f.sleeps[i] == BackoffSec * (k + i) as real {
        if i > 0 {
          assert f.sleeps[i] == rest.sleeps[i - 1];
        }
      }
    }
  }

  /** Every attempt before the last one failed. */
  lemma {:induction false} RetryEarlierFailed(k: nat, tries: nat -> Result<DownloadResult, Exc>)
    requires 1 <= k <= MaxRetries
    ensures var f := Retry(k, tries);
      forall j :: k <= j < f.attempts ==> tries(j).Err?
    decreases MaxRetries - k
  {
    var f := Retry(k, tries);
    if f.attempts > k {
      RetryEarlierFailed(k + 1, tries);
    }
  }

  /** Everything `download_from_url` learns from the outside world. */
  datatype FetchWorld = FetchWorld(
    exists_: bool,                 // os.path.exists(reference)
    localSize: nat,                // os.path.getsize(reference)
    codec: Base64,
    hexDigest: Bytes -> string,    // hashlib.sha256(...).hexdigest()
    outcome: nat -> HttpAttempt)   // the response of attempt k (1-based)

  /** What each numbered attempt at downloading `reference` yields. */
  function Attempts(reference: string, workdir: string, filename: Option<string>,
                    checksum: Option<string>, w: FetchWorld): nat -> Result<DownloadResult, Exc>
  {
    (j: nat) => TryDownload(reference, workdir, filename, checksum, w.hexDigest, w.outcome(j))
  }

  /** `download_from_url`: an existing local path is passed through, base64 is decoded,
      an http(s) URL is downloaded with retries, anything else is rejected. */
  function DownloadFromUrl(reference: string, workdir: string, filename: Option<string>,
                           checksum: Option<string>, w: FetchWorld): (f: Fetch)
    ensures w.exists_ ==> f.result == Ok(DownloadResult(reference, w.localSize, None, None)) && f.attempts == 0
    ensures !w.exists_ && IsBase64Payload(reference, w.codec) ==>
      f.attempts == 0 && f.result == DecodeBase64ToFile(reference, workdir, if OptTruthy(filename) then filename.value else "blob", w.codec)
    ensures !w.exists_ && !IsBase64Payload(reference, w.codec) && IsHttp(reference) ==>
      1 <= f.attempts <= MaxRetries
    ensures !w.exists_ && !IsBase64Payload(reference, w.codec) && !IsHttp(reference) ==>
      f.attempts == 0 && f.result.Err? && f.result.error.kind == ValueError
    ensures f.result.Ok? && f.result.value.fromUrl.Some? ==> IsHttp(reference)
    ensures |f.sleeps| == if f.attempts == 0 then 0 else f.attempts - 1
  {
    if w.exists_ then Fetch(Ok(DownloadResult(reference, w.localSize, None, None)), [], 0)
    else if IsBase64Payload(reference, w.codec) then
      Fetch(DecodeBase64ToFile(reference, workdir, if OptTruthy(filename) then filename.value else "blob", w.codec), [], 0)
    else if IsHttp(reference) then
      Retry(1, Attempts(reference, workdir, filename, checksum, w))
    else
      Fetch(Err(Exc(ValueError, "Unsupported input reference; must be http(s) URL, base64, or existing local path.")), [], 0)
  }

  /** Remote fetches: at most 3 attempts; the sleeps are 1.5 s then 3 s; a success is the
      first attempt that succeeded; a failure is the third attempt's failure, after all
      three failed. */
  lemma RemoteRetryBound(reference: string, workdir: string, filename: Option<string>,
                         checksum: Option<string>, w: FetchWorld)
    requires !w.exists_ && !IsBase64Payload(reference, w.codec) && IsHttp(reference)
    ensures var f := DownloadFromUrl(reference, workdir, filename, checksum, w);
      && 1 <= f.attempts <= 3
      && f.sleeps == [1.5, 3.0][..f.attempts - 1]
      && (forall j :: 1 <= j < f.attempts ==>
            TryDownload(reference, workdir, filename, checksum, w.hexDigest, w.outcome(j)).Err?)
      && f.result == TryDownload(reference, workdir, filename, checksum, w.hexDigest, w.outcome(f.attempts))
      && (f.result.Err? ==> f.attempts == 3)
  {
    var tries := Attempts(reference, workdir, filename, checksum, w);
    assert DownloadFromUrl(reference, workdir, filename, checksum, w) == Retry(1, tries);
    RetryFromFirst(tries);
    forall j: nat
      ensures tries(j) == TryDownload(reference, workdir, filename, checksum, w.hexDigest, w.outcome(j))
    {
    }
  }

  /** The retry loop from the first attempt, for any attempt outcomes. */
  lemma RetryFromFirst(tries: nat -> Result<DownloadResult, Exc>)
    ensures var f := Retry(1, tries);
      && 1 <= f.attempts <= 3
      && f.sleeps == [1.5, 3.0][..f.attempts - 1]
      && (forall j :: 1 <= j < f.attempts ==> tries(j).Err?)
      && f.result == tries(f.attempts)
      && (f.result.Err? ==> f.attempts == 3)
  {
    var f := Retry(1, tries);
    RetrySleeps(1, tries);
    RetryEarlierFailed(1, tries);
    if f.attempts == 2 {
      assert f.sleeps == [1.5];
    } else if f.attempts == 3 {
      assert f.sleeps[0] == 1.5 && f.sleeps[1] == 3.0;
      assert f.sleeps == [1.5, 3.0];
    }
  }

  /** A checksum mismatch is retried like a transport failure: a mismatch on every attempt
      exhausts all three and fails with ValueError. */
  lemma ChecksumMismatchRetried(reference: string, workdir: string, filename: Option<string>,
                                checksum: Option<string>, w: FetchWorld)
    requires !w.exists_ && !IsBase64Payload(reference, w.codec) && IsHttp(reference)
    requires OptTruthy(checksum)
    requires forall j :: 1 <= j <= 3 ==>
      && w.outcome(j).Response? && HttpOk(w.outcome(j).status)
      && w.hexDigest(Flatten(w.outcome(j).chunks)) != Lower(checksum.value)
    ensures var f := DownloadFromUrl(reference, workdir, filename, checksum, w);
      f.attempts == 3 && f.result.Err? && f.result.error.kind == ValueError
  {
    var f := DownloadFromUrl(reference, workdir, filename, checksum, w);
    RemoteRetryBound(reference, workdir, filename, checksum, w);
    assert f.result == TryDownload(reference, workdir, filename, checksum, w.hexDigest, w.outcome(f.attempts));
  }

  /** `make_artifact`: `type` always; `url`, `path`, `mime` only when truthy; `bytes`
      whenever it is given. */
  function MakeArtifact(kind: string, path: Json, url: Json, mime: Json, bytes: Option<int>): (a: Obj)
    ensures "type" in a && a["type"] == JStr(kind)
    ensures ("url" in a <==> Truthy(url)) && ("url" in a ==> a["url"] == url)
    ensures ("path" in a <==> Truthy(path)) && ("path" in a ==> a["path"] == path)
    ensures ("mime" in a <==> Truthy(mime)) && ("mime" in a ==> a["mime"] == mime)
    ensures ("bytes" in a <==> bytes.Some?) && (bytes.Some? ==> a["bytes"] == JInt(bytes.value))
    ensures a.Keys <= {"type", "url", "path", "mime", "bytes"}
  {
    var a0 := map["type" := JStr(kind)];
    var a1 := if Truthy(url) then a0["url" := url] else a0;
    var a2 := if Truthy(path) then a1["path" := path] else a1;
    var a3 := if Truthy(mime) then a2["mime" := mime] else a2;
    if bytes.Some? then a3["bytes" := JInt(bytes.value)] else a3
  }
}

=== FILE: text.dfy ===
/** String helpers with Python's meaning: `startswith`, `in`, `find`/`rfind`,
    `split(c)[0]`, `strip()`, `lower()`/`upper()` and `str(int)`. */
module Text {
  import opened Wrappers

  predicate StartsWith(s: string, prefix: string) {
    |prefix| <= |s| && s[..|prefix|] == prefix
  }

  /** `sub` occurs in `s` starting at index `i`. */
  predicate OccursAt(s: string, sub: string, i: int) {
    0 <= i && i + |sub| <= |s| && s[i..i + |sub|] == sub
  }

  /** The first index at or after `from` where `sub` occurs (Python's `s.find(sub, from)`). */
  function FindFrom(s: string, sub: string, from: nat): (r: Option<nat>)
    requires from <= |s|
    ensures r.Some? ==> from <= r.value && OccursAt(s, sub, r.value)
    ensures r.Some? ==> forall j :: from <= j < r.value ==> !OccursAt(s, sub, j)
    ensures r.None? ==> forall j :: from <= j ==> !OccursAt(s, sub, j)
    decreases |s| - from
  {
    if from + |sub| > |s| then None
    else if s[from..from + |sub|] == sub then Some(from)
    else FindFrom(s, sub, from + 1)
  }

  function Find(s: string, sub: string): (r: Option<nat>)
    ensures r.Some? ==> OccursAt(s, sub, r.value)
    ensures r.Some? ==> forall j :: 0 <= j < r.value ==> !OccursAt(s, sub, j)
    ensures r.None? ==> forall j :: !OccursAt(s, sub, j)
  {
    FindFrom(s, sub, 0)
  }

  /** Python's `sub in s`. */
  predicate Contains(s: string, sub: string) {
    Find(s, sub).Some?
  }

  lemma ContainsAt(s: string, sub: string, i: int)
    requires OccursAt(s, sub, i)
    ensures Contains(s, sub)
  {
  }

  lemma StartsWithContains(s: string, prefix: string)
    requires StartsWith(s, prefix)
    ensures Contains(s, prefix)
  {
    assert OccursAt(s, prefix, 0);
  }

  /** A character absent from both parts is absent from their concatenation. */
  lemma AbsentFromJoin(a: string, b: string, c: char)
    requires c !in a && c !in b
    ensures c !in a + b
  {
  }

  /** The first index of character `c` in `s`. */
  function IndexOfChar(s: string, c: char): (r: Option<nat>)
    ensures r.Some? ==> r.value < |s| && s[r.value] == c
    ensures r.Some? ==> forall j :: 0 <= j < r.value ==> s[j] != c
    ensures r.None? ==> forall j :: 0 <= j < |s| ==> s[j] != c
  {
    if |s| == 0 then None
    else if s[0] == c then Some(0)
    else
      match IndexOfChar(s[1..], c)
      case None => None
      case Some(i) => Some(i + 1)
  }

  /** The last index of character `c` in `s` (Python's `s.rfind(c)` when found). */
  function LastIndexOfChar(s: string, c: char): (r: Option<nat>)
    ensures r.Some? ==> r.value < |s| && s[r.value] == c
    ensures r.Some? ==> forall j :: r.value < j < |s| ==> s[j] != c
    ensures r.None? ==> forall j :: 0 <= j < |s| ==> s[j] != c
  {
    if |s| == 0 then None
    else if s[|s| - 1] == c then Some(|s| - 1)
    else LastIndexOfChar(s[..|s| - 1], c)
  }

  /** Python's `s.split(c)[0]`: everything before the first `c`. */
  function BeforeChar(s: string, c: char): (r: string)
    ensures StartsWith(s, r)
    ensures c !in r
    ensures |r| < |s| ==> s[|r|] == c
  {
    match IndexOfChar(s, c)
    case None => s
    case Some(i) => s[..i]
  }

  /** Python's `s.split(c, 1)` when `c` occurs: the parts before and after the first `c`. */
  function SplitOnce(s: string, c: char): (r: Option<(string, string)>)
    ensures r.None? <==> c !in s
    ensures r.Some? ==> s == r.value.0 + [c] + r.value.1 && c !in r.value.0
  {
    match IndexOfChar(s, c)
    case None => None
    case Some(i) =>
      assert s == s[..i] + [c] + s[i + 1..];
      Some((s[..i], s[i + 1..]))
  }

  /** Python's `s.split(c)[-1]`: everything after the last `c`. */
  function AfterLastChar(s: string, c: char): (r: string)
    ensures c !in r
    ensures |r| <= |s| && r == s[|s| - |r|..]
  {
    match LastIndexOfChar(s, c)
    case None => s
    case Some(i) => s[i + 1..]
  }

  /** Python's `str.isspace()` for one character. */
  predicate IsSpace(c: char) {
    var k := c as int;
    (9 <= k <= 13) || (28 <= k <= 32) || k == 0x85 || k == 0xA0 || k == 0x1680
    || (0x2000 <= k <= 0x200A) || k == 0x2028 || k == 0x2029 || k == 0x202F
    || k == 0x205F || k == 0x3000
  }

  function StripLeft(s: string): (r: string)
    ensures |r| <= |s| && r == s[|s| - |r|..]
    ensures |r| > 0 ==> !IsSpace(r[0])
    ensures forall j :: 0 <= j < |s| - |r| ==> IsSpace(s[j])
  {
    if |s| > 0 && IsSpace(s[0]) then StripLeft(s[1..]) else s
  }

  function StripRight(s: string): (r: string)
    ensures |r| <= |s| && r == s[..|r|]
    ensures |r| > 0 ==> !IsSpace(r[|r| - 1])
    ensures forall j :: |r| <= j < |s| ==> IsSpace(s[j])
  {
    if |s| > 0 && IsSpace(s[|s| - 1]) then StripRight(s[..|s| - 1]) else s
  }

  /** Python's `s.strip()`. */
  function Strip(s: string): (r: string)
    ensures |r| > 0 ==> !IsSpace(r[0]) && !IsSpace(r[|r| - 1])
  {
    StripRight(StripLeft(s))
  }

  /** `s.strip()` is empty exactly when `s` is all whitespace. */
  lemma StripEmpty(s: string)
    ensures Strip(s) == "" <==> forall j :: 0 <= j < |s| ==> IsSpace(s[j])
  {
    var l := StripLeft(s);
    if Strip(s) != "" {
      var r := Strip(s);
      assert r[0] == l[0] == s[|s| - |l|];
    }
  }

  function LowerChar(c: char): char {
    if 'A' <= c <= 'Z' then (c as int + 32) as char else c
  }

  function UpperChar(c: char): char {
    if 'a' <= c <= 'z' then (c as int - 32) as char else c
  }

  /** Python's `s.lower()` on the ASCII letters. */
  function Lower(s: string): (r: string)
    ensures |r| == |s|
    ensures forall i :: 0 <= i < |s| ==> r[i] == LowerChar(s[i])
  {
    seq(|s|, i requires 0 <= i < |s| => LowerChar(s[i]))
  }

  /** Python's `s.upper()` on the ASCII letters. */
  function Upper(s: string): (r: string)
    ensures |r| == |s|
    ensures forall i :: 0 <= i < |s| ==> r[i] == UpperChar(s[i])
  {
    seq(|s|, i requires 0 <= i < |s| => UpperChar(s[i]))
  }

  function DigitChar(d: nat): (c: char)
    requires d < 10
    ensures '0' <= c <= '9'
  {
    ['0', '1', '2', '3', '4', '5', '6', '7', '8', '9'][d]
  }

  /** Decimal digits of `n`, no leading zeros. */
  function NatToString(n: nat): (r: string)
    ensures |r| > 0
    ensures forall i :: 0 <= i < |r| ==> '0' <= r[i] <= '9'
    ensures r[0] == '0' ==> n == 0
  {
    if n < 10 then [DigitChar(n)] else NatToString(n / 10) + [DigitChar(n % 10)]
  }

  /** Python's `str(n)` for an int. */
  function IntToString(n: int): (r: string)
    ensures |r| > 0
  {
    if n < 0 then "-" + NatToString(-n) else NatToString(n)
  }

  /** `str(n)` holds only digits and a sign. */
  lemma IntToStringChars(n: int)
    ensures forall i :: 0 <= i < |IntToString(n)| ==> ('0' <= IntToString(n)[i] <= '9') || IntToString(n)[i] == '-'
  {
  }
}

=== FILE: validator.dfy ===
/** The worker's input schema (single input, batch item, envelope), the defaults merge,
    `normalize_and_validate`, and the error-details record (worker/validator.py). */
module Validator {
  import opened Wrappers
  import opened Text
  import opened PyJson

  const Sizes: set<string> := {"infinitetalk-480", "infinitetalk-720"}
  const Modes: set<string> := {"clip", "streaming"}
  const AudioTypes: set<string> := {"para", "add"}
  const Stores: set<string> := {"s3", "volume", "inline"}
  const Quants: set<string> := {"int8", "fp8"}

  /** The `frame_num` field validator: `4n+1` and positive. */
  predicate FrameNumOk(v: int) {
    v > 0 && (v - 1) % 4 == 0
  }

  predicate IsIntList(items: seq<Json>) {
    forall i :: 0 <= i < |items| ==> items[i].JInt?
  }

  /** The type (and field validator) of one scalar or list field. */
  datatype Leaf =
    | Str | NonEmptyStr | OptStr
    | Int | OptInt | Float | Bool | OptBool
    | Enum(values: set<string>) | OptEnum(values: set<string>)
    | FrameNum       // int with the 4n+1 validator
    | IntList        // Optional[List[int]]
    | FourInts       // Optional[List[int]] with the bbox validator

  predicate LeafOk(l: Leaf, v: Json) {
    match l
    case Str => v.JStr?
    case NonEmptyStr => v.JStr? && v.s != ""
    case OptStr => v.JNull? || v.JStr?
    case Int => v.JInt?
    case OptInt => v.JNull? || v.JInt?
    case Float => v.JInt? || v.JNum?
    case Bool => v.JBool?
    case OptBool => v.JNull? || v.JBool?
    case Enum(vs) => v.JStr? && v.s in vs
    case OptEnum(vs) => v.JNull? || (v.JStr? && v.s in vs)
    case FrameNum => v.JInt? && FrameNumOk(v.i)
    case IntList => v.JNull? || (v.JArr? && IsIntList(v.items))
    case FourInts => v.JNull? || (v.JArr? && IsIntList(v.items) && |v.items| == 4)
  }

  /** The message for a value that `LeafOk` rejects; validator messages are the source's. */
  function LeafMessage(l: Leaf, v: Json): string {
    match l
    case FrameNum =>
      if v.JInt? then "frame_num must be 4n+1 and positive" else "Input should be a valid integer"
    case FourInts =>
      if v.JArr? && IsIntList(v.items) then "bbox must be an array of 4 integers [x1,y1,x2,y2]"
      else "Input should be a valid list of integers"
    case NonEmptyStr =>
      if v.JStr? then "String should have at least 1 character" else "Input should be a valid string"
    case Enum(_) => "Input should be one of the allowed values"
    case OptEnum(_) => "Input should be one of the allowed values"
    case Int => "Input should be a valid integer"
    case OptInt => "Input should be a valid integer"
    case Float => "Input should be a valid number"
    case Bool => "Input should be a valid boolean"
    case OptBool => "Input should be a valid boolean"
    case IntList => "Input should be a valid list of integers"
    case _ => "Input should be a valid string"
  }

  /** A field of a nested model (CondAudio, TtsAudio, OutputConfig). */
  datatype Spec = Spec(name: string, leaf: Leaf, required: bool)

  /** A field's kind: a scalar/list, or a nested model (nullable when `Optional`). */
  datatype Kind = Leaf(leaf: Leaf) | Model(nullable: bool, specs: seq<Spec>)

  /** A top-level field of SingleInput / BatchInput. Unknown keys are ignored. */
  datatype Field = Field(name: string, kind: Kind, required: bool)

  predicate SpecOk(m: Obj, s: Spec) {
    (s.required ==> s.name in m) && (s.name in m ==> LeafOk(s.leaf, m[s.name]))
  }

  function SpecError(m: Obj, s: Spec): (r: Option<string>)
    ensures r.None? <==> SpecOk(m, s)
  {
    if s.name !in m then (if s.required then Some(s.name + ": Field required") else None)
    else if LeafOk(s.leaf, m[s.name]) then None
    else Some(s.name + ": " + LeafMessage(s.leaf, m[s.name]))
  }

  function FirstSpecError(m: Obj, specs: seq<Spec>): (r: Option<string>)
    ensures r.None? <==> forall i :: 0 <= i < |specs| ==> SpecOk(m, specs[i])
  {
    if specs == [] then None
    else if SpecError(m, specs[0]).Some? then SpecError(m, specs[0])
    else FirstSpecError(m, specs[1..])
  }

  predicate KindOk(k: Kind, v: Json) {
    match k
    case Leaf(l) => LeafOk(l, v)
    case Model(nullable, specs) =>
      (nullable && v.JNull?) || (v.JObj? && forall i :: 0 <= i < |specs| ==> SpecOk(v.fields, specs[i]))
  }

  function KindError(k: Kind, v: Json): (r: Option<string>)
    ensures r.None? <==> KindOk(k, v)
  {
    match k
    case Leaf(l) => if LeafOk(l, v) then None else Some(LeafMessage(l, v))
    case Model(nullable, specs) =>
      if nullable && v.JNull? then None
      else if !v.JObj? then Some("Input should be a valid dictionary")
      else FirstSpecError(v.fields, specs)
  }

  predicate FieldOk(m: Obj, f: Field) {
    (f.required ==> f.name in m) && (f.name in m ==> KindOk(f.kind, m[f.name]))
  }

  function FieldError(m: Obj, f: Field): (r: Option<string>)
    ensures r.None? <==> FieldOk(m, f)
  {
    if f.name !in m then (if f.required then Some(f.name + ": Field required") else None)
    else
      match KindError(f.kind, m[f.name])
      case None => None
      case Some(msg) => Some(f.name + ": " + msg)
  }

  /** The first field, in declaration order, whose value the schema rejects. */
  function FirstFieldError(m: Obj, fs: seq<Field>): (r: Option<string>)
    ensures r.None? <==> forall i :: 0 <= i < |fs| ==> FieldOk(m, fs[i])
  {
    if fs == [] then None
    else if FieldError(m, fs[0]).Some? then FieldError(m, fs[0])
    else FirstFieldError(m, fs[1..])
  }

  const CondAudioSpecs: seq<Spec> := [Spec("person1", OptStr, false), Spec("person2", OptStr, false)]
  const TtsAudioSpecs: seq<Spec> :=
    [Spec("text", NonEmptyStr, true), Spec("human1_voice", OptStr, false), Spec("human2_voice", OptStr, false)]
  const OutputConfigSpecs: seq<Spec> :=
    [Spec("store", Enum(Stores), false), Spec("bucket", OptStr, false),
     Spec("region", OptStr, false), Spec("prefix", OptStr, false)]

  /** The generation parameters shared by SingleInput and BatchInput, in declaration order. */
  const GenerationFields: seq<Field> := [
    Field("size", Leaf(Enum(Sizes)), false),
    Field("mode", Leaf(Enum(Modes)), false),
    Field("frame_num", Leaf(FrameNum), false),
    Field("max_frame_num", Leaf(Int), false),
    Field("sample_steps", Leaf(Int), false),
    Field("sample_text_guide_scale", Leaf(Float), false),
    Field("sample_audio_guide_scale", Leaf(Float), false),
    Field("motion_frame", Leaf(Int), false),
    Field("color_correction_strength", Leaf(Float), false),
    Field("use_teacache", Leaf(Bool), false),
    Field("teacache_thresh", Leaf(Float), false),
    Field("use_apg", Leaf(Bool), false),
    Field("apg_momentum", Leaf(Float), false),
    Field("apg_norm_threshold", Leaf(Float), false),
    Field("base_seed", Leaf(Int), false),
    Field("num_persistent_param_in_dit", Leaf(OptInt), false),
    Field("offload_model", Leaf(OptBool), false),
    Field("quant", Leaf(OptEnum(Quants)), false),
    Field("quant_dir", Leaf(OptStr), false),
    Field("n_prompt", Leaf(OptStr), false)
  ]

  /** SingleInput: non-empty prompt, a 4-entry bbox, and a nested output_config. */
  const SingleFields: seq<Field> := [
    Field("prompt", Leaf(NonEmptyStr), true),
    Field("cond_video", Leaf(Str), true),
    Field("cond_audio", Model(true, CondAudioSpecs), false),
    Field("tts_audio", Model(true, TtsAudioSpecs), false),
    Field("audio_type", Leaf(OptEnum(AudioTypes)), false),
    Field("bbox", Leaf(FourInts), false)
  ] + GenerationFields + [Field("output_config", Model(false, OutputConfigSpecs), false)]

  /** BatchInput: an optional id, any string prompt, any int-list bbox, no output_config. */
  const BatchFields: seq<Field> := [
    Field("id", Leaf(OptStr), false),
    Field("prompt", Leaf(Str), true),
    Field("cond_video", Leaf(Str), true),
    Field("cond_audio", Model(true, CondAudioSpecs), false),
    Field("tts_audio", Model(true, TtsAudioSpecs), false),
    Field("audio_type", Leaf(OptEnum(AudioTypes)), false),
    Field("bbox", Leaf(IntList), false)
  ] + GenerationFields

  /** Either audio source is present (not None). */
  predicate AudioPresent(m: Obj) {
    Set(m, "cond_audio") || Set(m, "tts_audio")
  }

  /** A second speaker demands an explicit audio_type. */
  predicate SpeakersTyped(m: Obj) {
    (At(m, "cond_audio").JObj? && Set(At(m, "cond_audio").fields, "person2")) ==> Set(m, "audio_type")
  }

  /** quant set demands a non-empty quant_dir. */
  predicate QuantPaired(m: Obj) {
    Set(m, "quant") ==> Truthy(At(m, "quant_dir"))
  }

  /** The model validator that runs once every field is valid. */
  function CrossFieldError(m: Obj): (r: Option<string>)
    ensures r.None? <==> AudioPresent(m) && SpeakersTyped(m) && QuantPaired(m)
  {
    if !AudioPresent(m) then Some("Either cond_audio or tts_audio must be provided.")
    else if !SpeakersTyped(m) then
      Some("audio_type is required when two speakers are provided (person1 & person2).")
    else if !QuantPaired(m) then Some("quant_dir must be provided when quant is set.")
    else None
  }

  predicate AllFieldsOk(m: Obj, fs: seq<Field>) {
    forall i :: 0 <= i < |fs| ==> FieldOk(m, fs[i])
  }

  /** `Model.model_validate(m)` for SingleInput or BatchInput: fields, then cross-field rules. */
  function ValidateModel(m: Obj, fs: seq<Field>): (r: Result<(), Exc>)
    ensures r.Ok? <==> AllFieldsOk(m, fs) && AudioPresent(m) && SpeakersTyped(m) && QuantPaired(m)
    ensures r.Err? ==> r.error.kind == ValidationError
  {
    match FirstFieldError(m, fs)
    case Some(msg) => Err(Exc(ValidationError, msg))
    case None =>
      match CrossFieldError(m)
      case Some(msg) => Err(Exc(ValidationError, msg))
      case None => Ok(())
  }

  /** `SingleInput.model_validate(m)`. */
  function ValidateSingle(m: Obj): Result<(), Exc> {
    ValidateModel(m, SingleFields)
  }

  /** `BatchInput.model_validate(v)`: a batch item must be a mapping. */
  function ValidateBatchItem(v: Json): (r: Result<(), Exc>)
    ensures r.Ok? <==> v.JObj? && ValidateModel(v.fields, BatchFields).Ok?
    ensures r.Err? ==> r.error.kind == ValidationError
  {
    if !v.JObj? then Err(Exc(ValidationError, "Input should be a valid dictionary"))
    else ValidateModel(v.fields, BatchFields)
  }

  /** The first batch item that fails validation, in order. */
  function FirstItemError(items: seq<Json>): (r: Option<Exc>)
    ensures r.None? <==> forall i :: 0 <= i < |items| ==> ValidateBatchItem(items[i]).Ok?
    ensures r.Some? ==> r.value.kind == ValidationError
  {
    if items == [] then None
    else if ValidateBatchItem(items[0]).Err? then Some(ValidateBatchItem(items[0]).error)
    else FirstItemError(items[1..])
  }

  /** The input payload is a batch exactly when it has a `batch` key. */
  predicate IsBatch(payload: Obj) {
    "batch" in payload
  }

  /** `EnvelopeInput.model_validate(env)` on the raw, un-merged envelope. */
  function ValidateEnvelope(env: Obj): (r: Result<Obj, Exc>)
    ensures r.Ok? ==> "input" in env && env["input"] == JObj(r.value)
    ensures r.Ok? && IsBatch(r.value) ==>
      r.value["batch"].JArr? && |r.value["batch"].items| > 0
      && forall i :: 0 <= i < |r.value["batch"].items| ==> ValidateBatchItem(r.value["batch"].items[i]).Ok?
    ensures r.Ok? && !IsBatch(r.value) ==> ValidateSingle(r.value).Ok?
    ensures r.Err? ==> r.error.kind == ValidationError
  {
    if "input" !in env || !env["input"].JObj? then Err(Exc(ValidationError, "input: Input should be a valid dictionary"))
    else if Set(env, "policy") && !env["policy"].JObj? then Err(Exc(ValidationError, "policy: Input should be a valid dictionary"))
    else
      var payload := env["input"].fields;
      if IsBatch(payload) then
        var items := payload["batch"];
        if !items.JArr? || |items.items| == 0 then
          Err(Exc(ValidationError, "batch must be a non-empty array of input objects."))
        else
          match FirstItemError(items.items)
          case Some(e) => Err(e)
          case None => Ok(payload)
      else
        match ValidateSingle(payload)
        case Err(e) => Err(e)
        case Ok(_) => Ok(payload)
  }

  /** The operator's defaults document: `generation.*` and an optional `output` store. */
  datatype Defaults = Defaults(generation: Obj, output: Option<Json>)

  /** `apply_defaults_to_single`: caller keys win over `generation` defaults (a shallow
      merge); `output_config` falls back to the `output` default only when still missing. */
  function ApplyDefaults(single: Obj, d: Defaults): (r: Obj)
    ensures forall k :: k in single ==> k in r && r[k] == single[k]
    ensures forall k :: k in d.generation && k !in single ==> k in r && r[k] == d.generation[k]
    ensures "output_config" !in single && "output_config" !in d.generation && d.output.Some? ==>
      "output_config" in r && r["output_config"] == d.output.value
    ensures r.Keys == single.Keys + d.generation.Keys + (if d.output.Some? then {"output_config"} else {})
  {
    var merged := d.generation + single;
    if "output_config" !in merged && d.output.Some? then merged["output_config" := d.output.value]
    else merged
  }

  /** Re-merging a merged payload with the same defaults changes nothing. */
  lemma ApplyDefaultsIdempotent(single: Obj, d: Defaults)
    ensures ApplyDefaults(ApplyDefaults(single, d), d) == ApplyDefaults(single, d)
  {
    var once := ApplyDefaults(single, d);
    var twice := ApplyDefaults(once, d);
    assert twice.Keys == once.Keys;
    forall k | k in once
      ensures twice[k] == once[k]
    {
    }
  }

  /** Merge and validate each batch item in order, stopping at the first failure. */
  function NormalizeItems(items: seq<Json>, d: Defaults): (r: Result<seq<Json>, Exc>)
    ensures r.Ok? ==> |r.value| == |items|
    ensures r.Ok? ==> forall i :: 0 <= i < |items| ==>
      items[i].JObj? && r.value[i] == JObj(ApplyDefaults(items[i].fields, d))
      && ValidateBatchItem(r.value[i]).Ok?
    ensures r.Err? ==> r.error.kind == ValidationError
  {
    if items == [] then Ok([])
    else if !items[0].JObj? then Err(Exc(ValidationError, "batch item is not a mapping"))
    else
      var norm := JObj(ApplyDefaults(items[0].fields, d));
      match ValidateBatchItem(norm)
      case Err(e) => Err(e)
      case Ok(_) =>
        match NormalizeItems(items[1..], d)
        case Err(e) => Err(e)
        case Ok(rest) => Ok([norm] + rest)
  }

  /** Items that are mappings and validate after the merge are all normalized. */
  lemma {:induction false} NormalizeItemsAccepts(items: seq<Json>, d: Defaults)
    requires forall i :: 0 <= i < |items| ==>
      items[i].JObj? && ValidateBatchItem(JObj(ApplyDefaults(items[i].fields, d))).Ok?
    ensures NormalizeItems(items, d).Ok?
  {
    if items != [] {
      NormalizeItemsAccepts(items[1..], d);
    }
  }

  /** `normalize_and_validate`: validate the raw envelope, merge defaults into the single
      payload or into every batch item, and validate the merged result again. */
  function NormalizeAndValidate(env: Obj, d: Defaults): (r: Result<Obj, Exc>)
    ensures ValidateEnvelope(env).Err? ==> r == Err(ValidateEnvelope(env).error)
    ensures r.Ok? ==> ValidateEnvelope(env).Ok?
    ensures r.Err? ==> r.error.kind == ValidationError
  {
    var payload :- ValidateEnvelope(env);
    if IsBatch(payload) then
      var items :- NormalizeItems(payload["batch"].items, d);
      var result := map["batch" := JArr(items)];
      Ok(if "output_config" in payload then result["output_config" := payload["output_config"]] else result)
    else
      var norm := ApplyDefaults(payload, d);
      var _ :- ValidateSingle(norm);
      Ok(norm)
  }

  /** Single mode: the result is the merged payload, and both the raw and the merged payload
      passed SingleInput; batch mode: one merged item per raw item, in order, every raw and
      merged item passed BatchInput, and an envelope-level output_config is carried through. */
  lemma NormalizeShape(env: Obj, d: Defaults)
    requires NormalizeAndValidate(env, d).Ok?
    ensures "input" in env && env["input"].JObj?
    ensures var payload := env["input"].fields;
      var r := NormalizeAndValidate(env, d).value;
      !IsBatch(payload) ==>
        r == ApplyDefaults(payload, d) && ValidateSingle(payload).Ok? && ValidateSingle(r).Ok?
    ensures var payload := env["input"].fields;
      var r := NormalizeAndValidate(env, d).value;
      IsBatch(payload) ==>
        && payload["batch"].JArr?
        && var raw := payload["batch"].items;
        && 0 < |raw|
        && "batch" in r && r["batch"].JArr? && |r["batch"].items| == |raw|
        && (forall i :: 0 <= i < |raw| ==>
              raw[i].JObj? && ValidateBatchItem(raw[i]).Ok?
              && r["batch"].items[i] == JObj(ApplyDefaults(raw[i].fields, d))
              && ValidateBatchItem(r["batch"].items[i]).Ok?)
        && ("output_config" in r <==> "output_config" in payload)
        && ("output_config" in payload ==> r["output_config"] == payload["output_config"])
        && r.Keys <= {"batch", "output_config"}
  {
  }

  /** A non-list or empty `batch` is rejected whatever the defaults. */
  lemma EmptyBatchRejected(env: Obj, d: Defaults)
    requires "input" in env && env["input"].JObj? && IsBatch(env["input"].fields)
    requires var b := env["input"].fields["batch"]; !b.JArr? || b.items == []
    ensures NormalizeAndValidate(env, d).Err?
  {
  }

  /** Defaults cannot rescue a raw single payload: one with no prompt is rejected even when
      the `generation` defaults would supply it. */
  lemma DefaultsCannotRescue(env: Obj, d: Defaults)
    requires "input" in env && env["input"].JObj?
    requires !IsBatch(env["input"].fields) && "prompt" !in env["input"].fields
    ensures NormalizeAndValidate(env, d).Err?
  {
    var payload := env["input"].fields;
    assert !FieldOk(payload, SingleFields[0]);
  }

  /** Normalizing a normalized payload again (wrapped in a fresh envelope) returns it
      unchanged, provided the defaults do not themselves inject a `batch` key. */
  lemma NormalizeIdempotent(env: Obj, d: Defaults)
    requires NormalizeAndValidate(env, d).Ok?
    requires "batch" !in d.generation
    ensures var n := NormalizeAndValidate(env, d).value;
      NormalizeAndValidate(map["input" := JObj(n)], d) == Ok(n)
  {
    NormalizeShape(env, d);
    if IsBatch(env["input"].fields) {
      BatchIdempotent(env, d);
    } else {
      SingleIdempotent(env, d);
    }
  }

  lemma BatchIdempotent(env: Obj, d: Defaults)
    requires NormalizeAndValidate(env, d).Ok?
    requires "input" in env && env["input"].JObj? && IsBatch(env["input"].fields)
    ensures var n := NormalizeAndValidate(env, d).value;
      NormalizeAndValidate(map["input" := JObj(n)], d) == Ok(n)
  {
    NormalizeShape(env, d);
    var payload := env["input"].fields;
    var n := NormalizeAndValidate(env, d).value;
    var env2 := map["input" := JObj(n)];
    var items := n["batch"].items;
    var raw := payload["batch"].items;
    assert IsBatch(n);
    forall i | 0 <= i < |items|
      ensures items[i].JObj? && ApplyDefaults(items[i].fields, d) == items[i].fields
    {
      ApplyDefaultsIdempotent(raw[i].fields, d);
    }
    assert FirstItemError(items).None?;
    assert ValidateEnvelope(env2) == Ok(n);
    var again := NormalizeItems(items, d);
    NormalizeItemsAccepts(items, d);
    assert again.value == items;
    var result := map["batch" := JArr(items)];
    var out := if "output_config" in n then result["output_config" := n["output_config"]] else result;
    assert out == n;
  }

  lemma SingleIdempotent(env: Obj, d: Defaults)
    requires NormalizeAndValidate(env, d).Ok?
    requires "input" in env && env["input"].JObj? && !IsBatch(env["input"].fields)
    requires "batch" !in d.generation
    ensures var n := NormalizeAndValidate(env, d).value;
      NormalizeAndValidate(map["input" := JObj(n)], d) == Ok(n)
  {
    NormalizeShape(env, d);
    var payload := env["input"].fields;
    var n := NormalizeAndValidate(env, d).value;
    var env2 := map["input" := JObj(n)];
    ApplyDefaultsIdempotent(payload, d);
    assert !IsBatch(n);
    assert ValidateEnvelope(env2) == Ok(n);
  }

  /** `frame_num` decides acceptance on its own: in an otherwise valid single input, setting
      `frame_num := f` keeps it valid exactly when f is positive and f - 1 is a multiple of 4. */
  lemma SingleFrameNumIff(m: Obj, f: int)
    requires ValidateSingle(m).Ok?
    ensures ValidateSingle(m["frame_num" := JInt(f)]).Ok? <==> f > 0 && (f - 1) % 4 == 0
  {
    FrameNumSlot(SingleFields, 8);
    FrameNumAt(m, SingleFields, 8, f);
  }

  /** The same rule for batch items. */
  lemma BatchFrameNumIff(m: Obj, f: int)
    requires ValidateBatchItem(JObj(m)).Ok?
    ensures ValidateBatchItem(JObj(m["frame_num" := JInt(f)])).Ok? <==> f > 0 && (f - 1) % 4 == 0
  {
    FrameNumSlot(BatchFields, 9);
    FrameNumAt(m, BatchFields, 9, f);
  }

  /** In any schema holding `frame_num` once, outside the cross-field rules, its 4n+1 rule
      alone decides whether a new value keeps a valid payload valid. */
  lemma FrameNumAt(m: Obj, fs: seq<Field>, at: nat, f: int)
    requires at < |fs| && fs[at] == Field("frame_num", Leaf(FrameNum), false)
    requires forall i :: 0 <= i < |fs| && i != at ==> fs[i].name != fs[at].name
    requires ValidateModel(m, fs).Ok?
    ensures ValidateModel(m["frame_num" := JInt(f)], fs).Ok? <==> FrameNumOk(f)
  {
    ChangeField(m, fs, at, JInt(f));
  }

  /** `frame_num` sits at index `at` of both schemas, once, with the 4n+1 validator. */
  lemma FrameNumSlot(fs: seq<Field>, at: nat)
    requires (fs == SingleFields && at == 8) || (fs == BatchFields && at == 9)
    ensures at < |fs| && fs[at] == Field("frame_num", Leaf(FrameNum), false)
    ensures forall i :: 0 <= i < |fs| && i != at ==> fs[i].name != fs[at].name
  {
    assert fs[at] == GenerationFields[2];
  }

  /** The keys the cross-field rules read. */
  const CrossFieldKeys: set<string> := {"cond_audio", "tts_audio", "audio_type", "quant", "quant_dir"}

  /** Replacing the value of one schema field that no cross-field rule reads keeps a valid
      payload valid exactly when the field's own check accepts the new value. */
  lemma ChangeField(m: Obj, fs: seq<Field>, at: nat, v: Json)
    requires at < |fs| && fs[at].name !in CrossFieldKeys
    requires forall i :: 0 <= i < |fs| && i != at ==> fs[i].name != fs[at].name
    requires ValidateModel(m, fs).Ok?
    ensures ValidateModel(m[fs[at].name := v], fs).Ok? <==> KindOk(fs[at].kind, v)
  {
    var name := fs[at].name;
    var m' := m[name := v];
    forall i | 0 <= i < |fs| && i != at
      ensures FieldOk(m', fs[i]) <==> FieldOk(m, fs[i])
    {
    }
    assert FieldOk(m', fs[at]) <==> KindOk(fs[at].kind, v);
    assert At(m', "cond_audio") == At(m, "cond_audio");
    assert At(m', "tts_audio") == At(m, "tts_audio");
    assert At(m', "audio_type") == At(m, "audio_type");
    assert At(m', "quant") == At(m, "quant");
    assert At(m', "quant_dir") == At(m, "quant_dir");
    if KindOk(fs[at].kind, v) {
      assert AllFieldsOk(m', fs);
    }
  }

  /** What a valid single input guarantees beyond the batch schema: a non-empty prompt and,
      when a bbox is given, exactly four integers. */
  lemma SingleInputShape(m: Obj)
    requires ValidateSingle(m).Ok?
    ensures At(m, "prompt").JStr? && At(m, "prompt").s != ""
    ensures At(m, "cond_video").JStr?
    ensures Set(m, "bbox") ==> m["bbox"].JArr? && |m["bbox"].items| == 4 && IsIntList(m["bbox"].items)
    ensures "frame_num" in m ==> m["frame_num"].JInt? && FrameNumOk(m["frame_num"].i)
  {
    assert FieldOk(m, SingleFields[0]);
    assert FieldOk(m, SingleFields[1]);
    assert FieldOk(m, SingleFields[5]);
    assert FieldOk(m, SingleFields[8]);
  }

  /** Batch items do not require a non-empty prompt: a valid item stays valid with `""`. */
  lemma BatchPromptMayBeEmpty(m: Obj)
    requires ValidateBatchItem(JObj(m)).Ok?
    ensures ValidateBatchItem(JObj(m["prompt" := JStr("")])).Ok?
  {
    ChangeField(m, BatchFields, 1, JStr(""));
  }

  /** Batch items accept an int-list bbox of any length. */
  lemma BatchBboxAnyLength(m: Obj, ints: seq<Json>)
    requires ValidateBatchItem(JObj(m)).Ok? && IsIntList(ints)
    ensures ValidateBatchItem(JObj(m["bbox" := JArr(ints)])).Ok?
  {
    ChangeField(m, BatchFields, 6, JArr(ints));
  }

  /** A single input with an empty prompt is rejected. */
  lemma SinglePromptRequired(s: Obj)
    requires ValidateSingle(s).Ok?
    ensures ValidateSingle(s["prompt" := JStr("")]).Err?
  {
    ChangeField(s, SingleFields, 0, JStr(""));
  }

  /** A single input keeps validating with an int-list bbox exactly when it has 4 entries. */
  lemma SingleBboxFour(s: Obj, ints: seq<Json>)
    requires ValidateSingle(s).Ok? && IsIntList(ints)
    ensures ValidateSingle(s["bbox" := JArr(ints)]).Ok? <==> |ints| == 4
  {
    ChangeField(s, SingleFields, 5, JArr(ints));
  }

  /** The error-details record, built once at the point of catch. */
  datatype ErrorDetails = ErrorDetails(
    code: string, message: string, retryable: bool,
    atStage: Option<string>, causeClass: Option<string>, causeMessage: Option<string>)

  /** `build_error`: the caller's fields unchanged; the cause fields come from the exception
      and are None exactly when there is none. */
  function BuildError(code: string, message: string, retryable: bool, atStage: Option<string>,
                      exc: Option<Exc>): (r: ErrorDetails)
    ensures r.code == code && r.message == message && r.retryable == retryable && r.atStage == atStage
    ensures r.causeClass.None? <==> exc.None?
    ensures r.causeMessage.None? <==> exc.None?
    ensures exc.Some? ==> r.causeClass == Some(KindName(exc.value.kind)) && r.causeMessage == Some(exc.value.message)
  {
    match exc
    case None => ErrorDetails(code, message, retryable, atStage, None, None)
    case Some(e) => ErrorDetails(code, message, retryable, atStage, Some(KindName(e.kind)), Some(e.message))
  }

  function OptJson(o: Option<string>): Json {
    match o
    case None => JNull
    case Some(s) => JStr(s)
  }

  /** The record as the caller receives it (every key present, absent values as null). */
  function ErrorDetailsJson(e: ErrorDetails): (r: Obj)
    ensures r.Keys == {"code", "message", "retryable", "at_stage", "cause_class", "cause_message"}
    ensures r["code"] == JStr(e.code) && r["message"] == JStr(e.message)
  {
    map["code" := JStr(e.code), "message" := JStr(e.message), "retryable" := JBool(e.retryable),
        "at_stage" := OptJson(e.atStage), "cause_class" := OptJson(e.causeClass),
        "cause_message" := OptJson(e.causeMessage)]
  }

  const ArtifactKeys: set<string> := {"type", "url", "path", "mime", "bytes"}

  /** `Artifact.model_validate(a).model_dump()` as the code runs it: the five schema keys,
      missing ones as null, and every other key (such as an inline `base64`) dropped. */
  function DumpArtifactAsWritten(a: Obj): (r: Obj)
    ensures r.Keys == ArtifactKeys
    ensures forall k :: k in ArtifactKeys ==> r[k] == At(a, k)
  {
    map k | k in ArtifactKeys :: At(a, k)
  }

  /** The dump the handler evidently intends: the schema keys plus an inline `base64`
      payload when the artifact carries one. */
  function DumpArtifact(a: Obj): (r: Obj)
    ensures forall k :: k in ArtifactKeys ==> k in r && r[k] == At(a, k)
    ensures "base64" in r <==> "base64" in a
    ensures "base64" in a ==> r["base64"] == a["base64"]
    ensures r.Keys <= ArtifactKeys + {"base64"}
  {
    var base := DumpArtifactAsWritten(a);
    if "base64" in a then base["base64" := a["base64"]] else base
  }
}

=== FILE: wrappers.dfy ===
/** Option and Result, the failure-compatible wrappers used throughout the model. */
module Wrappers {

  /** Python's `Optional[T]`: `None` or a value. */
  datatype Option<+T> = None | Some(value: T) {

    function GetOr(default: T): T {
      match this
      case Some(v) => v
      case None => default
    }
  }

  /** A value or the exception/error that replaced it; usable with `:-`. */
  datatype Result<+T, +E> = Ok(value: T) | Err(error: E) {

    predicate IsFailure() {
      Err?
    }

    function PropagateFailure<U>(): Result<U, E>
      requires Err?
    {
      Err(error)
    }

    function Extract(): T
      requires Ok?
    {
      value
    }
  }
}
